=== FILE: README.md ===
# Resume matching service: a Dafny model of its decision logic

This project models the text processing and decision logic of a resume and
job matching service. The service has two generations:

- a TypeScript server under `server/src/`;
- an older JavaScript copy at the repository root (`routes/`, `utils/`).

The two generations differ in weights, tie-breaks, defaults and guards. The
model therefore keeps them apart: every legacy operation lives in a module
whose name starts with `Legacy`, or is named so.

What is modelled:

- **Resume field extraction.**
  - The server's `extractResumeData` (`ResumeParser`) splits and trims lines. It scans for a skills section with a cap of 20 skills, and for experience and education sections with caps of 10 and 5. The name is the first non-blank line; the summary is the first three lines joined, cut to 200 characters.
  - `redactPII` is structural: it clears email and phone.
  - The legacy `extractResumeData` (`LegacyParser`) matches a fixed skill vocabulary, takes the first line with content as the name, and builds a 500-character summary. The legacy `redactPII` replaces the first line with `[NAME]`.
- **Text normalisation and the legacy bag-of-words vector** (`BagOfWords`). These model `preprocessText` and `createEmbeddings`. The vector has 100 integer slots over the distinct words, in lexicographic order.
- **Similarities** (`Similarity`).
  - The guards of `cosineSimilarity` and `calculateSimilarity`, plus symmetry.
  - Jaccard similarity of lower-cased word sets (`calculateTextSimilarity`), stated over `real`.
- **Job to candidate matching.**
  - The server route (`JobRoutes`) partitions skills and requirements and picks evidence sentences. Its score is 0.5/0.5 with a guard for a job with no skills. It sorts by descending score with a resume-id tie-break and keeps the top N.
  - The legacy route (`LegacyJobRoutes`) uses a 0.6/0.4 score with no guard, one-directional skill matching and no tie-break.
- **Question answering.**
  - On the server (`Ask`), the snippet is the first sentence with the most query terms, with a 200-character fallback. Answers are ranked with an id tie-break and the top k are kept.
  - The legacy route (`LegacyAsk`) scores sentences by the fraction of query words matched, keeps those above 0.1, and returns the top three.
- **Resume routes.**
  - Server (`ResumeRoutes`): list scope, redaction decisions, 404 before 403, candidate-name fallback, `next_offset`, and per-file batch upload.
  - Legacy (`LegacyResumeRoutes`): extension filter, single versus bulk upload, and page arithmetic. A file the upload filter refuses never reaches a handler; the filter's error is handed to Express's error handling, which is not modelled, so the model reports only that error's message.
- **Pagination** (`Pagination`): skip/limit windows, the `next_offset` rule, and walking the pages.
- **Small classifiers and state machines.**
  - Archive entry filtering and MIME mapping (`ZipHandler`).
  - The idempotency-key cache as a map in which the first write wins (`Idempotency`).
  - Error kinds mapped to HTTP status and code (`ErrorHandler`).
  - The client's job-form parsing and rendering rules (`JobForm`).

Several things are function parameters of the model rather than computations in it:

- regular-expression matchers (email, phone, the legacy scrubbing and evidence regexes), and `compiles`, the syntax check that decides whether a pattern built from user text is a valid regular expression;
- the square root, the query embedding, and the document parser;
- the archive reader, the database search predicate, and the store-write outcomes.

JavaScript semantics are written out explicitly:

- falsy defaults (`x || d`) versus destructuring defaults (`{x = d}`);
- `split` on a character class (always at least one piece) and `split` on a regex run;
- `slice` with negative ends;
- `path.extname`;
- ASCII `toLowerCase` and `trim`;
- plain lexicographic order in place of `localeCompare`;
- the stable `Array.prototype.sort`, as an insertion sort over a total preorder.

One edge case of `calculateTextSimilarity` is worth naming. In JavaScript `"".split(/\s+/)` is `[""]`, so the word set of an empty text is `{""}`, not the empty set. Two empty texts therefore have similarity 1, with no division by zero. `Similarity.EmptyTextsAreSimilar` states this.

## Model

| member | source | states |
|---|---|---|
| ResumeParser.NonBlankLines | server/src/utils/documentParser.ts:25 | every kept line is non-empty and already trimmed |
| ResumeParser.FirstNonBlank | server/src/utils/documentParser.ts:25 | the index of the first raw line that is not blank: all earlier lines are blank, and the line there is not |
| ResumeParser.AllBlank | server/src/utils/documentParser.ts:38 | no non-blank line is found exactly when every raw line is blank |
| ResumeParser.FirstLine | server/src/utils/documentParser.ts:25 | the trimmed, filtered lines are empty iff all raw lines are blank; otherwise their head is the trim of the first non-blank raw line |
| ResumeParser.LabelLineHasColon | server/src/utils/documentParser.ts:78 | a line matching `^[a-z\s]+:` contains a colon, so the reset condition (match and no colon) can never hold |
| ResumeParser.SkillTokens | server/src/utils/documentParser.ts:57 | tokens of a skills line are non-empty, trimmed and free of `,` `;` `\|` |
| ResumeParser.ScanIsPrefix | server/src/utils/documentParser.ts:45-62 | the early-exit scan yields a prefix of the tokens collected without exit, and cuts only once more than 20 are held |
| ResumeParser.Skills | server/src/utils/documentParser.ts:41-62 | at most 20 skills, equal to the first 20 tokens of the lines after a skills heading up to a label line |
| ResumeParser.SectionEndsOnlyAtHeadingOrCap | server/src/utils/documentParser.ts:72-88 | the current section changes only at an experience or education heading, or when more than 10 experience or 5 education entries are held |
| ResumeParser.BothHeadingsMeanExperience | server/src/utils/documentParser.ts:72-77 | a line mentioning both "experience" and "education" opens the experience section and adds nothing |
| ResumeParser.StepAppends | server/src/utils/documentParser.ts:82-88 | one line either leaves each list unchanged or appends that very line, and only if it is longer than 10 characters |
| ResumeParser.SectionStep | server/src/utils/documentParser.ts:70-88 | one loop iteration keeps both lists as prefixes and adds at most one entry; a heading line only switches the current section |
| ResumeParser.ScanSections | server/src/utils/documentParser.ts:69-89 | the loop only appends, at most one entry per line |
| ResumeParser.ScanMatchesReference | server/src/utils/documentParser.ts:65-100 | after the final caps, the loop with its in-loop cut-offs gives the first 10 experience and first 5 education entries of the uncapped reference: the lines longer than 10 characters that are not headings, in the section opened by the latest heading before them |
| ResumeParser.SectionEntries | server/src/utils/documentParser.ts:69-89 | every experience or education entry added by the scan is an input line longer than 10 characters |
| ResumeParser.Summary | server/src/utils/documentParser.ts:92 | the summary is a prefix of the first three lines joined by single spaces, of length exactly the smaller of 200 and the joined length |
| ResumeParser.Entries | server/src/utils/documentParser.ts:65-100 | at most 10 experience and 5 education entries, each an input line longer than 10 characters; they are exactly the first 10 and first 5 lines of the uncapped section reference |
| ResumeParser.ExtractResumeData | server/src/utils/documentParser.ts:24-103 | the caps 20/10/5; email and phone are the first matches; the name is absent iff there are no non-blank lines and otherwise the first one; the summary is the prefix of the first three lines joined, of length min(200, joined length); experience and education are the first 10 and first 5 entries of the uncapped section reference over the non-blank lines |
| ResumeParser.NameIsFirstNonBlankLine | server/src/utils/documentParser.ts:25-38 | the name is the trim of the first raw line that is not blank, and absent iff every raw line is blank |
| ResumeParser.Redact | server/src/utils/documentParser.ts:105-111 | email and phone are cleared and every other field is unchanged |
| ResumeParser.RedactIdempotent | server/src/utils/documentParser.ts:105-111 | redacting twice equals redacting once |
| Similarity.Cosine | server/src/utils/embedding.ts:34-50 | 0 for vectors of different lengths, and 0 when either vector is all zeros, so there is no division by zero |
| Similarity.CosineSimilarity | server/src/utils/embedding.ts:37-49 | the accumulating loop computes the same value as the definition |
| Similarity.SumSquaresZero | server/src/utils/embedding.ts:43-47 | a sum of squares is non-negative, and zero iff every entry is zero |
| Similarity.DotSymmetric | server/src/utils/embedding.ts:42 | the dot product is symmetric |
| Similarity.CosineSymmetric | server/src/utils/embedding.ts:41-49 | cosine(a, b) = cosine(b, a) |
| Similarity.CosineSelf | server/src/utils/embedding.ts:41-49 | a non-zero vector has cosine 1 with itself |
| Similarity.CalculateSimilarity | utils/documentParser.js:161-179 | 0 when either embedding is missing; otherwise the cosine with its length and zero-norm guards |
| Similarity.Tokens | server/src/utils/embedding.ts:54-55 | the word set of a text is never empty |
| Similarity.Jaccard | server/src/utils/embedding.ts:57-60 | intersection over union lies in [0,1] and is 1 iff the sets are equal |
| Similarity.TextSimilarity | server/src/utils/embedding.ts:53-61 | lies in [0,1], and is 1 iff the lower-cased word sets are equal |
| Similarity.TextSimilaritySymmetric | server/src/utils/embedding.ts:53-61 | the similarity is symmetric |
| Similarity.TextSimilarityIgnoresCase | server/src/utils/embedding.ts:54-55 | lower-casing an argument first does not change the similarity |
| Similarity.EmptyTextsAreSimilar | server/src/utils/embedding.ts:54-60 | two empty texts have similarity 1 |
| BagOfWords.ReplaceNonWord | utils/documentParser.js:10 | same length; word and whitespace characters are kept, and every other character becomes a space |
| BagOfWords.CollapseWhitespace | utils/documentParser.js:11 | no two adjacent spaces; whitespace becomes single spaces, and other characters come from the input |
| BagOfWords.Preprocess | utils/documentParser.js:7-13 | the output has only lower-case letters, digits, `_` and single inner spaces, with no leading or trailing space; its words are exactly the words of the lower-cased text with punctuation replaced, in order, so it is empty iff there are none and splitting it on a space gives those words |
| BagOfWords.ReplacedChars | utils/documentParser.js:9-10 | after lower-casing and replacement only whitespace and normal characters remain |
| BagOfWords.TrimCollapsed | utils/documentParser.js:11-12 | trimming a collapsed text yields a normalised text |
| BagOfWords.Words | utils/documentParser.js:17-18 | at least one word, none containing a space |
| BagOfWords.Vocabulary | utils/documentParser.js:21-30 | the basis is strictly increasing and holds exactly the words longer than 2 |
| BagOfWords.EmbedWords | utils/documentParser.js:21-36 | 100 slots; slot i is the frequency (at least 1) of the i-th basis word, and slots beyond the basis are 0 |
| BagOfWords.CreateEmbeddings | utils/documentParser.js:16-39 | exactly 100 entries; slot i is the number of occurrences of the i-th basis word and slots past the basis are 0; for a text without the words "constructor" and "__proto__" it agrees slot by slot with the counting object as written |
| BagOfWords.EmbeddingIgnoresWordOrder | utils/documentParser.js:21-36 | two word lists with the same multiset give the same vector |
| BagOfWords.EmbedWordsAsWritten | utils/documentParser.js:21-26 | the counting object as written still yields 100 slots |
| BagOfWords.ConstructorSlotIsNotANumber | utils/documentParser.js:24 | the word "constructor" makes its slot non-numeric in the code as written, where 1 was intended |
| BagOfWords.ProtoWordIsDropped | utils/documentParser.js:24 | the word "__proto__" never becomes a key in the code as written, where it should be counted |
| BagOfWords.AsWrittenAgreesElsewhere | utils/documentParser.js:21-36 | without those two words, the code as written equals the intended vector |
| LexOrder.SortedDistinct | utils/documentParser.js:30 | strictly increasing, with exactly the elements of the input |
| LegacyParser.MatchVocabulary | utils/documentParser.js:82-84 | an order-preserving subsequence of the vocabulary, holding exactly the entries contained in the text |
| LegacyParser.VocabularySkills | utils/documentParser.js:74-84 | the skills are exactly the vocabulary keywords occurring case-insensitively, in vocabulary order |
| LegacyParser.JavaFollowsJavascript | utils/documentParser.js:74-84 | a text mentioning "javascript" always reports "java" |
| LegacyParser.ContentLines | utils/documentParser.js:128 | every kept line has a non-whitespace character |
| LegacyParser.ExtractLegacy | utils/documentParser.js:62-140 | the name is the first content line or 'Unknown'; email/phone are the match or ''; the skills are the vocabulary matches; the summary is the first 500 characters plus '...' |
| LegacyParser.LegacyNameIsFirstContentLine | utils/documentParser.js:128-129 | the name is the first raw line with content, untrimmed, or 'Unknown' when there is none |
| LegacyParser.SummaryShape | utils/documentParser.js:138 | the summary is at most 503 characters, ends in '...', and starts with a prefix of the text |
| LegacyParser.RedactText | utils/documentParser.js:143-158 | splitting the redacted text on newlines gives "[NAME]" followed by the scrubbed text's lines after the first, so the line count is kept |
| LegacyAsk.CandidateSentences | routes/ask.js:76 | exactly the pieces between runs of `.!?` whose trimmed length exceeds 10, in order |
| LegacyAsk.MatchedWords | routes/ask.js:79-82 | exactly the query words that overlap some sentence word in either direction, in query order, each as often as it occurs in the query |
| LegacyAsk.Confidence | routes/ask.js:84 | a ratio in [0,1] that is 1 iff all words match and 0 iff none do |
| LegacyAsk.ScoreSentence | routes/ask.js:78-90 | the snippet text is the trimmed sentence; the confidence is in [0,1], 0 iff no query word matched, and 1 iff every query word matched |
| LegacyAsk.ConfidenceFollowsMatches | routes/ask.js:80-84 | one sentence's confidence is at most another's iff it matched at most as many query words |
| LegacyAsk.ScoredSentences | routes/ask.js:78-90 | one scored snippet per candidate sentence, in sentence order |
| LegacyAsk.RankedSnippets | routes/ask.js:93-95 | sorted by descending confidence, and a permutation of the snippets with confidence above 0.1 |
| LegacyAsk.TiedSnippetsKeepSentenceOrder | routes/ask.js:93-95 | snippets of equal confidence appear in sentence order, so sentence order decides which tied snippets make the first three |
| LegacyAsk.FindRelevantSnippets | routes/ask.js:74-97 | at most 3 snippets, sorted, equal to the first three of the ranking |
| LegacyAsk.SnippetsFromSentences | routes/ask.js:93-96 | each returned snippet is a scored candidate sentence with confidence in (0.1, 1] |
| LegacyAsk.SnippetsAreMostConfident | routes/ask.js:93-96 | no left-out confident snippet is more confident than a returned one |
| LegacyAsk.ResultFor | routes/ask.js:23-60 | the result carries the resume id and name; its evidence is exactly the relevant snippets of the content (at most three); skills and the experience and education counts are copied; the relevance is 0 for a missing or wrongly sized embedding and otherwise the guarded cosine with the query's vector |
| LegacyAsk.RankedResults | routes/ask.js:43-44 | sorted by descending similarity, and a permutation of the per-resume results |
| LegacyAsk.TiedResultsKeepStoreOrder | routes/ask.js:43-45 | results of equal similarity appear in store order, so store order decides which tied results make the first k |
| LegacyAsk.LegacyAsk | routes/ask.js:8-65 | 400 iff the query is falsy; k defaults to 5 only when absent; the query is echoed; totalResults counts every resume; the results are the first k of the ranking, sorted and min(k, n) long |
| LegacyAsk.ResultsAreBest | routes/ask.js:42-45 | the results are sorted and each is at least as relevant as every result left out |
| LegacyAsk.ZeroKGivesNothing | routes/ask.js:10 | an explicit k of 0 returns no results |
| Ask.QueryTerms | server/src/routes/ask.ts:63 | there is at least one query term |
| Ask.MatchCount | server/src/routes/ask.ts:70-72 | at most the number of terms, and 0 iff the lower-cased sentence contains no term |
| Ask.FirstMax | server/src/routes/ask.ts:65-78 | none iff all counts are 0; otherwise the index of a positive maximum that every earlier count is strictly below |
| Ask.BestSnippet | server/src/routes/ask.ts:63-83 | the loop returns the trimmed first sentence with the strictly greatest count, or the 200-character prefix |
| Ask.SnippetOf | server/src/routes/ask.ts:63-83 | the snippet is the 200-character prefix of the content when no sentence has a hit; when sentence i has a hit, no other sentence has more, and every earlier one has fewer, the snippet is sentence i trimmed, or the 200-character prefix if that trim is empty |
| Ask.FirstMaxUnique | server/src/routes/ask.ts:65-78 | a positive count that no count exceeds and every earlier count is below is the one chosen |
| Ask.FirstBestIsFirstMax | server/src/routes/ask.ts:65-78 | a sentence with a hit that no sentence beats and every earlier sentence falls short of is the sentence chosen |
| Ask.FirstMaxStep | server/src/routes/ask.ts:74-77 | one more sentence replaces the choice only on a strictly greater count |
| Ask.SnippetFallback | server/src/routes/ask.ts:81-83 | when no sentence contains a term, the snippet is the first 200 characters |
| Ask.RelevantSkills | server/src/routes/ask.ts:86-88 | an order-preserving subsequence of the skills, holding exactly those that contain some query term, each as often as in the resume |
| Ask.ResumeSimilarity | server/src/routes/ask.ts:58-60 | 0 for a missing or empty embedding, otherwise the cosine |
| Ask.AnswerFor | server/src/routes/ask.ts:57-97 | the answer carries the resume id, the guarded similarity, the relevant skills and the chosen snippet |
| Ask.AnswerLeTotal | server/src/routes/ask.ts:100-106 | descending similarity then ascending id is a total preorder |
| Ask.AllAnswers | server/src/routes/ask.ts:57-97 | one answer per resume, in store order |
| Ask.AnswerRanking | server/src/routes/ask.ts:100-106 | sorted by the comparator, and a permutation of all answers |
| Ask.HandleAsk | server/src/routes/ask.ts:27-115 | FIELD_REQUIRED iff the query is falsy; k defaults to 5 when falsy; an empty store answers nothing; the answers are the first k of the ranking |
| Ask.AnswersAreBest | server/src/routes/ask.ts:100-109 | the answers are sorted and each ranks at or above every answer left out |
| JobRoutes.CreateJob | server/src/routes/jobs.ts:19-47 | a missing title is reported before a missing description; requirements and skills default to [] |
| JobRoutes.EvidenceFor | server/src/routes/jobs.ts:234-240 | the trimmed first sentence mentioning the skill; none iff no sentence mentions a non-empty skill |
| JobRoutes.NothingMentionedInEmpty | server/src/routes/jobs.ts:235-237 | only the empty skill is mentioned in an empty sentence |
| JobRoutes.CollectEvidence | server/src/routes/jobs.ts:231-241 | exactly the matched skills that have an evidence sentence, in skill order, each replaced by that sentence; so at most one entry per skill, each a trimmed sentence mentioning one of the skills |
| JobRoutes.FoundAreEvidence | server/src/routes/jobs.ts:231-241 | the sentence cited for each found skill is a trimmed sentence that mentions one of the skills |
| JobRoutes.SkillMatchRatio | server/src/routes/jobs.ts:243-245 | in [0,1] and 1 iff every skill matched, including the no-skill case |
| JobRoutes.FinalScore | server/src/routes/jobs.ts:247 | in [0,1], and 1 iff both halves are 1 |
| JobRoutes.ScoreResume | server/src/routes/jobs.ts:194-260 | the result carries the resume id, a score in [0,1] and at most 3 evidence entries, each a trimmed sentence of the content that mentions one of the matched skills |
| JobRoutes.MatchPartitions | server/src/routes/jobs.ts:201-228 | every skill and requirement lands in exactly one list, in job order; a skill matches iff containment holds in either direction; a requirement matches iff it occurs in the resume text |
| JobRoutes.ScoreExtremes | server/src/routes/jobs.ts:243-247 | the score is 1 iff the word sets agree and no skill is missing; with no job skills it is at least 0.5 |
| JobRoutes.RankTotal | server/src/routes/jobs.ts:263-268 | descending score then ascending id is a total preorder |
| JobRoutes.Scored | server/src/routes/jobs.ts:194-260 | one result per resume, in store order |
| JobRoutes.Ranking | server/src/routes/jobs.ts:263-268 | sorted by the comparator, and a permutation of the scored resumes |
| JobRoutes.TopN | server/src/routes/jobs.ts:166-167 | top_n when truthy, otherwise 10 |
| JobRoutes.MatchCandidates | server/src/routes/jobs.ts:166-276 | 404 iff the job is missing; empty matches for an empty store; a sorted prefix of the ranking of length min(topN, n) |
| JobRoutes.MatchesAreBest | server/src/routes/jobs.ts:263-270 | every returned match ranks at or above every match left out |
| JobRoutes.MatchesComeFromStore | server/src/routes/jobs.ts:194-270 | every match is the score of some stored resume |
| JobRoutes.RankingIgnoresStoreOrder | server/src/routes/jobs.ts:263-268 | with distinct ids the ranking does not depend on the store order |
| JobRoutes.NoTiesAmongScored | server/src/routes/jobs.ts:263-268 | with distinct ids no two different results tie under the comparator |
| LegacyJobRoutes.CreateLegacyJob | routes/jobs.js:11-40 | rejected unless title, company and description are all truthy; requirements/skills default to [] and employmentType to 'full-time' only when absent; a 100-slot embedding of the job text |
| LegacyJobRoutes.CollectSnippets | routes/jobs.js:139-146 | at most two snippets per requirement, each among the first two matches for its requirement |
| LegacyJobRoutes.LegacyScore | routes/jobs.js:155 | NaN iff the job has no skills; otherwise 0.6·similarity plus a skill share of at most 0.4, full iff all skills match |
| LegacyJobRoutes.ScoreLegacy | routes/jobs.js:123-157 | the match carries the resume id and at most 5 evidence snippets; its score is NaN iff the job has no skills |
| LegacyJobRoutes.LegacyPartitions | routes/jobs.js:126-136 | missing requirements are exactly those absent from the content, and matching skills those contained in some resume skill, both in job order and each as often as in the job |
| LegacyJobRoutes.LegacyEvidenceSource | routes/jobs.js:139-154 | every evidence snippet is among the first two matches of some requirement |
| LegacyJobRoutes.LegacySkillMatchIsOneWay | routes/jobs.js:132-136 | a resume skill "java" does not match the job skill "javascript" |
| LegacyJobRoutes.MatchLeTotal | routes/jobs.js:160-161 | descending score, finite scores before NaN, is a total preorder |
| LegacyJobRoutes.LegacyTopN | routes/jobs.js:112 | top_n when present, otherwise 5 |
| LegacyJobRoutes.LegacyRanking | routes/jobs.js:160-161 | sorted by the comparator, and a permutation of the scored resumes |
| LegacyJobRoutes.TiedMatchesKeepStoreOrder | routes/jobs.js:160-162 | candidates with equal scores appear in store order, so store order decides which tied candidates make the first top_n |
| Seqs.SortByStable | routes/jobs.js:160-161 | `Array.prototype.sort` is stable: for every element, the elements the comparator ties with it keep their input order in the sorted list |
| LegacyJobRoutes.LegacyMatchCandidates | routes/jobs.js:110-178 | 404 iff the job is missing; otherwise 500 'Failed to match candidates' iff there is a resume and some requirement makes an invalid evidence pattern; totalCandidates counts every resume; the matches are the first top_n of the ranking |
| LegacyJobRoutes.LegacyMatchesSorted | routes/jobs.js:160-162 | the matches are sorted and each is the score of some stored resume |
| LegacyJobRoutes.LegacyMatchesAreBest | routes/jobs.js:159-162 | no match left out of the top_n ranks above one that was kept |
| LegacyJobRoutes.NoSkillsKeepsStoreOrder | routes/jobs.js:155-161 | with no job skills every score is NaN and the ranking is the store order |
| ResumeRoutes.ListScope | server/src/routes/resumes.ts:145-147 | the list is unrestricted iff the caller is a recruiter or admin, and otherwise restricted to the caller's id |
| ResumeRoutes.ShownParsed | server/src/routes/resumes.ts:167-174 | unredacted iff the caller is privileged or the owner, otherwise redacted |
| ResumeRoutes.GetResume | server/src/routes/resumes.ts:224-259 | 404 iff not found, checked first; 403 iff the caller is neither privileged nor the owner; otherwise the resume with the shown data |
| ResumeRoutes.GetNeverRedacts | server/src/routes/resumes.ts:236-257 | any caller who gets a resume sees it unredacted |
| ResumeRoutes.CandidateName | server/src/routes/resumes.ts:177-191 | the trimmed "first last" when both are truthy, else the parsed name when truthy, else 'Unknown' |
| ResumeRoutes.BlankProfileNameGivesEmptyName | server/src/routes/resumes.ts:178-179 | blank first and last names give an empty candidate name |
| ResumeRoutes.FallbackNameNonEmpty | server/src/routes/resumes.ts:180-189 | without a profile the candidate name is never empty |
| ResumeRoutes.ItemFor | server/src/routes/resumes.ts:160-194 | the item carries the resume's ids, the shown data, the candidate name and the owner's email or the parsed email |
| ResumeRoutes.Matching | server/src/routes/resumes.ts:133-147 | an order-preserving subsequence of the store, holding exactly the selected resumes, each visible to the caller |
| ResumeRoutes.ListResumes | server/src/routes/resumes.ts:128-214 | fails iff the offset is negative or the search text is not a valid regular expression; total counts the matches; `next_offset` follows the offset-plus-limit rule; the page has as many items as the skip/limit window of the matches, and item i is the view of match offset+i |
| ResumeRoutes.ListNeverRedacts | server/src/routes/resumes.ts:144-174 | every listed item shows its resume's data unredacted |
| ResumeRoutes.RejectedType | server/src/routes/resumes.ts:19-33 | an unlisted MIME type is rejected with the filter's message |
| ResumeRoutes.ProcessBatch | server/src/routes/resumes.ts:72-98 | a failing file is skipped: exactly the successful files are reported, in order |
| ResumeRoutes.FilesOf | server/src/routes/resumes.ts:57-66 | a non-archive is processed as one file; an archive gives its selected entries, or fails when it cannot be read |
| ResumeRoutes.Upload | server/src/routes/resumes.ts:43-110 | a missing file gives FIELD_REQUIRED; a bad type or unreadable archive is an error; the upload succeeds iff a file of an accepted type is given and, for an archive, it can be read; the saved files are then reported and the message counts them |
| LegacyResumeRoutes.ExtName | routes/resumes.js:33 | the extension is empty, or a dot followed by neither dot nor slash |
| LegacyResumeRoutes.ExtNameOfStemAndExtension | routes/resumes.js:33 | "stem.ext" has extension ".ext" |
| LegacyResumeRoutes.NoDotNoExtension | routes/resumes.js:33 | a name without a dot has no extension |
| LegacyResumeRoutes.HiddenFileNoExtension | routes/resumes.js:33 | a leading-dot name such as ".pdf" has no extension |
| LegacyResumeRoutes.Accepted | routes/resumes.js:31-38 | a name the filter accepts has an extension of at least four characters starting with a dot |
| LegacyResumeRoutes.AcceptedByExtension | routes/resumes.js:31-38 | "stem.ext" passes the filter iff `ext` lower-cased is "pdf", "docx" or "doc" |
| LegacyResumeRoutes.Store | routes/resumes.js:63-82 | the stored content is the redacted text, marked redacted, with parsed data and a 100-slot embedding |
| LegacyResumeRoutes.StoredContentHidesName | routes/resumes.js:70-81 | the first line of stored content is '[NAME]' |
| LegacyResumeRoutes.SingleUpload | routes/resumes.js:43-96 | no file gives 400; only .pdf and .docx are parsed and anything else gets 'Unsupported file type'; for a .pdf or .docx the upload succeeds iff parsing does, storing the parsed text, and a parse failure gives 500 'Failed to process resume: ' plus its message |
| LegacyResumeRoutes.DocPassesFilterButIsRefused | routes/resumes.js:31-61 | a .doc file passes the upload filter but single upload refuses it |
| LegacyResumeRoutes.EntryOutcome | routes/resumes.js:117-162 | directories are skipped; an unsupported extension records "<name>: Unsupported file type"; a .doc is stored from empty text; a .pdf or .docx is stored from its parsed text, or records "<name>: <message>" when parsing fails |
| LegacyResumeRoutes.TallyAccountsForEveryFile | routes/resumes.js:117-163 | every non-directory entry appears exactly once in uploaded or errors |
| LegacyResumeRoutes.UnsupportedEntryReported | routes/resumes.js:121-126 | each unsupported file entry has its error message in the list |
| LegacyResumeRoutes.BulkUpload | routes/resumes.js:105-172 | the loop computes the tally; uploaded plus errors equals the number of file entries; everything uploaded is redacted |
| LegacyResumeRoutes.ArchiveRoute | routes/resumes.js:104-178 | no file gives 400; a file the upload filter refuses gets the filter's message; an unreadable archive gives 500 with the reader's message; otherwise the entries are tallied and the message counts the uploads |
| LegacyResumeRoutes.BulkRouteAsWritten | routes/resumes.js:26-40 | the bulk route behind the shared filter: a name the filter refuses never reaches the handler |
| LegacyResumeRoutes.ZipArchiveRefused | routes/resumes.js:31-38 | as written, an archive named "stem.zip" is refused by the filter |
| LegacyResumeRoutes.BulkRoute | routes/resumes.js:104-178 | with a filter that admits ".zip" names, the route succeeds iff a ZIP file is given and readable |
| LegacyResumeRoutes.ZipArchiveProcessed | routes/resumes.js:117-172 | a readable "stem.zip" archive is processed, and every file entry is tallied once |
| LegacyResumeRoutes.LegacyList | routes/resumes.js:181-220 | 500 'Failed to fetch resumes' iff the skip is negative or the search text is not a valid regular expression; page and limit default to 1 and 10; offset = (page-1)·limit; total is the number of matches; pages = ceil(total/limit); the page is the skip/limit window of the matches |
| LegacyResumeRoutes.Matches | routes/resumes.js:188-197 | without a search string every resume matches; otherwise an order-preserving subsequence holding a resume iff the search selects it, each selected resume as often as in the store |
| LegacyResumeRoutes.PagesAreTheNonEmptyPages | routes/resumes.js:183-220 | the listing succeeds for a positive page whenever the search text is valid, and then a page is non-empty iff its number is at most `pages` |
| Pagination.Window | server/src/routes/resumes.ts:150-153 | a negative skip fails; otherwise item i is item skip+i; at most abs(limit) items, with 0 meaning no limit |
| Pagination.NextOffset | server/src/routes/jobs.ts:106-108 | present iff offset + limit < total, and then exactly one limit further |
| Pagination.PageIsWindow | server/src/routes/resumes.ts:150-153 | for a positive limit the window is the plain slice |
| Pagination.WalkCoversAll | server/src/routes/resumes.ts:196-203 | following `next_offset` from an offset concatenates to every remaining item, in order |
| Pagination.CeilDiv | routes/resumes.js:213 | the quotient rounded up: (q-1)·b < a <= q·b |
| Pagination.RequestsCount | server/src/routes/jobs.ts:106-108 | the number of pages visited by following `next_offset` is ceil((total-offset)/limit) |
| ZipHandler.Extension | server/src/utils/zipHandler.ts:18 | the extension (the text after the last dot, lower-cased) contains no dot |
| ZipHandler.MimeType | server/src/utils/zipHandler.ts:34-43 | the four fixed MIME strings, and the octet-stream fallback iff the extension is not one of the four |
| ZipHandler.ExtractZipFiles | server/src/utils/zipHandler.ts:9-32 | the files are the kept entries in order, with their names, and none gets the fallback MIME type |
| ZipHandler.SelectedIsFilterMap | server/src/utils/zipHandler.ts:14-29 | the loop's selection equals filter-then-map, and never the fallback type |
| ZipHandler.KeptFilesComeFromFileEntries | server/src/utils/zipHandler.ts:14-28 | no directory is returned, names are kept, order follows the entries, and every kept entry appears |
| ZipHandler.DotlessNameIsItsOwnExtension | server/src/utils/zipHandler.ts:18-19 | an entry named "TXT" is kept |
| ZipHandler.TrailingDotNotKept | server/src/utils/zipHandler.ts:18-19 | a name ending in a dot has an empty extension and is dropped |
| ZipHandler.IndexKeysNeverKept | server/src/utils/zipHandler.ts:14 | an all-digit name, which object iteration lists first, is never kept |
| Idempotency.Check | server/src/middleware/idempotency.ts:5-27 | no key: proceed; failed lookup: proceed without the key; a stored key: replay; otherwise proceed with the key attached |
| Idempotency.Save | server/src/middleware/idempotency.ts:29-39 | never fails; a new key is stored; an existing key or a failed write leaves the store as it was |
| Idempotency.Serve | server/src/middleware/idempotency.ts:5-27 | a replay returns the stored body with the store unchanged; without a key the handler's reply is returned; existing entries are never changed |
| Idempotency.ReplayIgnoresHandler | server/src/middleware/idempotency.ts:14-18 | on a replay the handler does not influence the outcome |
| Idempotency.NoKeyIgnoresStore | server/src/middleware/idempotency.ts:8-10 | without a key the reply does not depend on the store |
| Idempotency.RepeatReplaysFirst | server/src/models/IdempotencyKey.ts:7-11 | after a first successful request, a repeat with the same key replays the first response, and a later save cannot replace it |
| ErrorHandler.Classify | server/src/middleware/errorHandler.ts:7-46 | the kinds are tried in fixed order: ValidationError, then code 11000, then the two token errors |
| ErrorHandler.Handle | server/src/middleware/errorHandler.ts:3-55 | no reply iff the error has code 11000, is not a ValidationError, and has no `keyValue` (the middleware throws); 400 VALIDATION_ERROR with messages joined by ", "; 400 DUPLICATE_ENTRY naming the first key, or 'undefined' when `keyValue` has none; 401 INVALID_TOKEN or TOKEN_EXPIRED; otherwise the status or 500, INTERNAL_ERROR, and the message or 'Something went wrong' |
| ErrorHandler.CodeIdentifiesKind | server/src/middleware/errorHandler.ts:7-54 | two errors answered with equal codes have equal error kinds |
| ErrorHandler.RecognisedKindsIgnoreStatus | server/src/middleware/errorHandler.ts:7-46 | recognised kinds that answer do so with 400 or 401, and the answer does not depend on the error's own status and message |
| ErrorHandler.ValidationBeatsDuplicate | server/src/middleware/errorHandler.ts:7-27 | an error that is both a ValidationError and code 11000 reports VALIDATION_ERROR, with or without `keyValue` |
| ErrorHandler.MissingKeyValueThrows | server/src/middleware/errorHandler.ts:18-19 | a code-11000 error that is not a ValidationError and has no `keyValue` gets no reply from the middleware |
| JobForm.ParseRequirements | client/src/pages/Jobs.tsx:49 | exactly the non-blank lines, untrimmed and in order, each as often as it occurs |
| JobForm.ParseSkills | client/src/pages/Jobs.tsx:50 | exactly the non-empty trimmed comma pieces, in order and each as often as it occurs, each trimmed and comma-free |
| JobForm.KeptTrims | client/src/pages/Jobs.tsx:50 | trimming and dropping empties keeps exactly the non-empty trimmed pieces, in order and with their multiplicities |
| JobForm.RequirementsRoundTrip | client/src/pages/Jobs.tsx:49 | non-blank, newline-free requirements joined by newlines parse back to themselves |
| JobForm.SkillsRoundTrip | client/src/pages/Jobs.tsx:50 | trimmed, comma-free skills joined by ", " parse back to themselves |
| JobForm.Payload | client/src/pages/Jobs.tsx:46-51 | title and description are passed through; requirements and skills are the parsed lists |
| JobForm.AfterSubmit | client/src/pages/Jobs.tsx:59-60 | a successful create clears every field and hides the form; a failure changes nothing |
| JobForm.RetryPostsSamePayload | client/src/pages/Jobs.tsx:59-63 | after a failed create, resubmitting posts the same payload |
| JobForm.ControlsFor | client/src/pages/Jobs.tsx:21 | the create form and the match button are shown iff the role is recruiter or admin |
| JobForm.ShownRequirements | client/src/pages/Jobs.tsx:166-171 | up to three requirements are shown, plus "+(n-3) more..." iff there are more than three |
| JobForm.ShownPlusHiddenIsAll | client/src/pages/Jobs.tsx:166-171 | shown and hidden requirements account for all of them, and the extra item appears iff some are hidden |

## Left out

- File-format parsing and archive reading: `parseDocument`, `parsePDF`, `parseDOCX`, JSZip and AdmZip loading, multer and disk handling. These are foreign libraries and I/O, so the parser and archive reader are parameters.
- `generateEmbedding` depends on TF-IDF callbacks that cannot be seen, so stored and query embeddings are opaque `seq<real>` inputs.
- Floating point: scores are reals, and `Math.sqrt` is a parameter whose only known property is being a non-negative square root. Rounding and bit-exact values are not modelled.
- Regular expressions are abstract functions: email/phone matching, the legacy scrubbing replacements, the legacy evidence regex, and the legacy experience/education scans.
- Unicode: `\w`, `\s`, `toLowerCase` and `trim` are restricted to ASCII, and `localeCompare` is plain lexicographic order.
- String lengths: a Dafny string counts Unicode scalar values, while JavaScript's `.length` and `substring` count UTF-16 code units. Outside the Basic Multilingual Plane the model therefore cuts and measures differently from the source: the 200-character cuts (ResumeParser.Summary, Ask.SnippetOf), the 500-character cut (LegacyParser.SummaryShape) and the `> 10` length tests (ResumeParser.SectionEntries, LegacyAsk.CandidateSentences). For example, a line of six emoji has length 12 in JavaScript and becomes an experience entry, but has length 6 in the model and is dropped.
- Persistence: Mongo queries, saves and ordering by upload time. The store is a sequence already in the order the query returns, and the search predicate is a parameter.
- `skip`/`limit` follow the driver's conventions as modelled in `Pagination.Window`: a negative skip fails, a negative limit counts as its absolute value, and 0 means no limit.
- Authentication middleware, JWT and bcrypt, profile routes and server bootstrap: these are plumbing outside the decision logic.
- JSON `null` is not distinguished from an absent field.
- Client state other than the job form (AuthContext, local storage, the other pages).
- The job routes for GET, update and delete, and the legacy GET-by-id and delete routes: these are plain store access.
- Multer's rejection response formats: a rejected type is modelled only as the error it raises.
- The corpus lookup in the server upload (`Resume.find().limit(100)`) feeds only `generateEmbedding`, which is left out.
- Duplicate entry names inside an archive cannot occur in JSZip's object of files and are not modelled.
- Similarity.Cosine: states only the guards; the value of the quotient is not stated, because floating point is not modelled.
- LegacyParser.ExtractLegacy: the experience and education lists come from parameter functions standing for the legacy regex scans, so nothing is stated about them.
- BagOfWords.CreateEmbeddings: computes the intended word count, not the counting object as written; the two differ only for texts containing "constructor" or "__proto__" (see Findings), and the routes that store or compare vectors (LegacyResumeRoutes.Store, LegacyJobRoutes.CreateLegacyJob, LegacyAsk.ResultFor) use the intended count.
- Idempotency.Serve: requests are modelled one at a time. The lookup, the handler and the save are separate awaits (server/src/middleware/idempotency.ts:5-27), so two overlapping requests with the same fresh key both run the handler and only one reply is stored; the replay lemmas hold only for requests that do not overlap.
- ErrorHandler.Handle: when the middleware throws (a duplicate-key error without `keyValue`), the reply comes from Express's default error handler, which is not modelled; the model only says that the middleware itself sends none.
- LegacyJobRoutes.CollectSnippets: the evidence regex is a parameter, so the contract only bounds and locates the snippets.

## Findings

| source | as written | input that shows it | evidently intended | confidence | as-written member | corrected member |
|---|---|---|---|---|---|---|
| utils/documentParser.js:21-26 | `wordFreq` is a plain object, so `wordFreq['constructor']` starts from the inherited `Object` function and the slot becomes a string, and assigning `wordFreq['__proto__']` is ignored | a text containing the word "constructor" or "__proto__" (`BagOfWords.ConstructorSlotIsNotANumber`, `BagOfWords.ProtoWordIsDropped`) | every word longer than two characters is counted from zero | not executed | BagOfWords.EmbedWordsAsWritten | BagOfWords.EmbedWords |
| routes/resumes.js:31-38 | the bulk route (line 105) uses the same multer instance as the single upload, whose filter admits only `.pdf`, `.docx` and `.doc` | an archive uploaded as "resumes.zip" (`LegacyResumeRoutes.ZipArchiveRefused`; the intended route processes it, `LegacyResumeRoutes.ZipArchiveProcessed`) | the bulk route accepts ZIP archives | not executed | LegacyResumeRoutes.BulkRouteAsWritten | LegacyResumeRoutes.BulkRoute |

=== FILE: ask.dfy ===
/** The question-answering route of the server (server/src/routes/ask.ts):
    every resume is scored by cosine similarity against the query's
    embedding, a best-matching sentence is picked as the snippet, the skills
    mentioning a query term are listed, and the answers are ranked with an id
    tie-break. The query embedding is a parameter, since its computation is
    not part of this model. */
module Ask {
  import opened Wrappers
  import opened Seqs
  import opened Text
  import opened LexOrder
  import opened Records
  import Similarity

  /** `query.toLowerCase().split(/\s+/)`; surrounding whitespace yields the
      empty term, which every sentence contains. */
  function QueryTerms(query: string): (r: seq<string>)
    ensures |r| >= 1
  {
    SplitRuns(Lower(query), Whitespace)
  }

  /** How many query terms (counted with repetition) the lower-cased sentence
      contains. */
  function MatchCount(terms: seq<string>, sentence: string): (n: nat)
    ensures n <= |terms|
    ensures n == 0 <==> forall i :: 0 <= i < |terms| ==> !Contains(Lower(sentence), terms[i])
  {
    var hits := Filter(terms, t => Contains(Lower(sentence), t));
    assert hits == [] <==> forall i :: 0 <= i < |terms| ==> !Contains(Lower(sentence), terms[i]) by {
      if hits == [] {
        forall i | 0 <= i < |terms|
          ensures !Contains(Lower(sentence), terms[i])
        {
          if Contains(Lower(sentence), terms[i]) {
            FilterKeeps(terms, t => Contains(Lower(sentence), t), terms[i]);
          }
        }
      } else {
        assert hits[0] in terms;
      }
    }
    |hits|
  }

  /** The index of the first strictly greatest positive count, or `None`
      when every count is zero. */
  function FirstMax(counts: seq<nat>): (r: Option<nat>)
    ensures r.None? <==> forall j :: 0 <= j < |counts| ==> counts[j] == 0
    ensures r.Some? ==> r.value < |counts| && counts[r.value] > 0
    ensures r.Some? ==> forall j :: 0 <= j < |counts| ==> counts[j] <= counts[r.value]
    ensures r.Some? ==> forall j :: 0 <= j < r.value ==> counts[j] < counts[r.value]
  {
    if |counts| == 0 then None
    else
      var p := FirstMax(counts[..|counts| - 1]);
      var x := counts[|counts| - 1];
      if (p.None? && x > 0) || (p.Some? && x > counts[p.value]) then Some(|counts| - 1)
      else p
  }

  function SentenceCounts(sentences: seq<string>, terms: seq<string>): (c: seq<nat>)
    ensures |c| == |sentences|
    ensures forall i :: 0 <= i < |sentences| ==> c[i] == MatchCount(terms, sentences[i])
  {
    Map(sentences, s => MatchCount(terms, s))
  }

  /** The snippet the route reports: the trimmed first sentence with the most
      term hits, or the first 200 characters of the content when no sentence
      has a hit (or the winning sentence trims to nothing). */
  function SnippetOf(content: string, terms: seq<string>): (r: string)
    ensures r == Prefix(content, 200) || IsBestSentence(r, SplitSentences(content), terms)
    ensures (forall j :: 0 <= j < |SplitSentences(content)| ==> MatchCount(terms, SplitSentences(content)[j]) == 0) ==>
      r == Prefix(content, 200)
    ensures forall i :: FirstBestSentence(SplitSentences(content), terms, i) ==>
      r == if Trim(SplitSentences(content)[i]) != "" then Trim(SplitSentences(content)[i]) else Prefix(content, 200)
  {
    var sentences := SplitSentences(content);
    var counts := SentenceCounts(sentences, terms);
    var best := FirstMax(counts);
    FirstBestIsFirstMax(sentences, terms);
    var chosen := if best.Some? then Trim(sentences[best.value]) else "";
    if chosen == "" then Prefix(content, 200)
    else
      assert forall j :: 0 <= j < |sentences| ==> counts[j] <= counts[best.value];
      chosen
  }

  /** Sentence `i` has a hit, no sentence has more, and every earlier one has
      fewer: the sentence the loop settles on. */
  predicate FirstBestSentence(sentences: seq<string>, terms: seq<string>, i: int) {
    && 0 <= i < |sentences| && MatchCount(terms, sentences[i]) > 0
    && (forall j :: 0 <= j < |sentences| ==> MatchCount(terms, sentences[j]) <= MatchCount(terms, sentences[i]))
    && (forall j :: 0 <= j < i ==> MatchCount(terms, sentences[j]) < MatchCount(terms, sentences[i]))
  }

  /** The first strictly greatest count picks out the only first-best
      sentence. */
  lemma FirstBestIsFirstMax(sentences: seq<string>, terms: seq<string>)
    ensures var best := FirstMax(SentenceCounts(sentences, terms));
      forall i :: FirstBestSentence(sentences, terms, i) ==> best == Some(i)
  {
    var counts := SentenceCounts(sentences, terms);
    forall i | FirstBestSentence(sentences, terms, i)
      ensures FirstMax(counts) == Some(i)
    {
      FirstMaxUnique(counts, i);
    }
  }

  /** A positive count that no count exceeds and every earlier count is
      below is the one `FirstMax` finds. */
  lemma FirstMaxUnique(counts: seq<nat>, i: nat)
    requires i < |counts| && counts[i] > 0
    requires forall j :: 0 <= j < |counts| ==> counts[j] <= counts[i]
    requires forall j :: 0 <= j < i ==> counts[j] < counts[i]
    ensures FirstMax(counts) == Some(i)
  {
    var best := FirstMax(counts);
    assert best.Some?;
  }

  /** `r` is the non-empty trim of a sentence with a hit and with no fewer
      hits than any other sentence. */
  predicate IsBestSentence(r: string, sentences: seq<string>, terms: seq<string>) {
    exists i :: 0 <= i < |sentences| && r == Trim(sentences[i]) && r != "" && MatchCount(terms, sentences[i]) > 0
      && forall j :: 0 <= j < |sentences| ==> MatchCount(terms, sentences[j]) <= MatchCount(terms, sentences[i])
  }

  /** The loop of the route: one pass over the sentences, replacing the
      running best only on a strictly greater count. */
  method BestSnippet(content: string, terms: seq<string>) returns (snippet: string)
    ensures snippet == SnippetOf(content, terms)
  {
    var sentences := SplitSentences(content);
    ghost var counts := SentenceCounts(sentences, terms);
    var best := "";
    var maxMatches := 0;
    var i := 0;
    while i < |sentences|
      invariant 0 <= i <= |sentences|
      invariant FirstMax(counts[..i]).None? ==> maxMatches == 0 && best == ""
      invariant FirstMax(counts[..i]).Some? ==>
        maxMatches == counts[FirstMax(counts[..i]).value] && best == Trim(sentences[FirstMax(counts[..i]).value])
    {
      FirstMaxStep(counts, i);
      var matches := MatchCount(terms, sentences[i]);
      if matches > maxMatches {
        maxMatches := matches;
        best := Trim(sentences[i]);
      }
      i := i + 1;
    }
    assert counts[..i] == counts;
    if best == "" {
      best := content[..if |content| < 200 then |content| else 200];
    }
    snippet := best;
  }

  /** One more count either takes over as the strict new maximum or leaves
      the earlier choice in place. */
  lemma FirstMaxStep(counts: seq<nat>, i: nat)
    requires i < |counts|
    ensures var p := FirstMax(counts[..i]);
      FirstMax(counts[..i + 1])
        == if (p.None? && counts[i] > 0) || (p.Some? && counts[i] > counts[p.value]) then Some(i) else p
  {
    assert counts[..i + 1][..i] == counts[..i];
  }

  /** With no hit in any sentence the snippet is the first 200 characters. */
  lemma SnippetFallback(content: string, terms: seq<string>)
    requires forall i :: 0 <= i < |SplitSentences(content)| ==> MatchCount(terms, SplitSentences(content)[i]) == 0
    ensures SnippetOf(content, terms) == Prefix(content, 200)
  {
    var c := SentenceCounts(SplitSentences(content), terms);
    assert forall j :: 0 <= j < |c| ==> c[j] == 0;
  }

  /** `relevantSkills`: the resume skills, in order, that contain some query
      term after lower-casing. */
  predicate MentionsTerm(skill: string, terms: seq<string>) {
    exists i :: 0 <= i < |terms| && Contains(Lower(skill), terms[i])
  }

  function RelevantSkills(skills: seq<string>, terms: seq<string>): (r: seq<string>)
    ensures IsSubseq(r, skills)
    ensures forall s :: s in r <==> s in skills && MentionsTerm(s, terms)
    ensures forall s :: multiset(r)[s] == if MentionsTerm(s, terms) then multiset(skills)[s] else 0
  {
    var r := Filter(skills, s => MentionsTerm(s, terms));
    FilterMultiset(skills, s => MentionsTerm(s, terms));
    assert forall s :: s in skills && MentionsTerm(s, terms) ==> s in r by {
      forall s | s in skills && MentionsTerm(s, terms)
        ensures s in r
      {
        FilterKeeps(skills, s => MentionsTerm(s, terms), s);
      }
    }
    r
  }

  /** The similarity guard: a resume without an embedding, or with an empty
      one, scores 0 without computing a cosine. */
  function ResumeSimilarity(queryEmbedding: seq<real>, embedding: Option<seq<real>>, sqrt: real -> real): (r: real)
    requires Similarity.IsSqrt(sqrt)
    ensures embedding.None? || embedding.value == [] ==> r == 0.0
    ensures embedding.Some? && embedding.value != [] ==> r == Similarity.Cosine(queryEmbedding, embedding.value, sqrt)
  {
    if embedding.Some? && |embedding.value| > 0 then Similarity.Cosine(queryEmbedding, embedding.value, sqrt)
    else 0.0
  }

  datatype Answer = Answer(
    resumeId: string,
    candidateName: Option<string>,
    snippet: string,
    similarity: real,
    relevantSkills: seq<string>)

  function AnswerFor(query: string, queryEmbedding: seq<real>, resume: Resume, sqrt: real -> real): (a: Answer)
    requires Similarity.IsSqrt(sqrt)
    ensures a.resumeId == resume.id
    ensures a.similarity == ResumeSimilarity(queryEmbedding, resume.embedding, sqrt)
    ensures a.relevantSkills == RelevantSkills(resume.parsed.skills, QueryTerms(query))
    ensures a.snippet == SnippetOf(resume.content, QueryTerms(query))
  {
    var terms := QueryTerms(query);
    Answer(resume.id, resume.parsed.name, SnippetOf(resume.content, terms),
           ResumeSimilarity(queryEmbedding, resume.embedding, sqrt),
           RelevantSkills(resume.parsed.skills, terms))
  }

  /** Higher similarity first, then ascending resume id. */
  predicate AnswerLe(a: Answer, b: Answer) {
    a.similarity > b.similarity || (a.similarity == b.similarity && LessEq(a.resumeId, b.resumeId))
  }

  lemma AnswerLeTotal()
    ensures TotalPreorder(AnswerLe)
  {
    forall a: Answer, b: Answer
      ensures AnswerLe(a, b) || AnswerLe(b, a)
    {
      LessTotal(a.resumeId, b.resumeId);
    }
    forall a: Answer, b: Answer, c: Answer | AnswerLe(a, b) && AnswerLe(b, c)
      ensures AnswerLe(a, c)
    {
      if a.similarity == b.similarity == c.similarity {
        LessEqTransitive(a.resumeId, b.resumeId, c.resumeId);
      }
    }
  }

  function AllAnswers(query: string, queryEmbedding: seq<real>, resumes: seq<Resume>, sqrt: real -> real)
    : (r: seq<Answer>)
    requires Similarity.IsSqrt(sqrt)
    ensures |r| == |resumes|
    ensures forall i :: 0 <= i < |resumes| ==> r[i] == AnswerFor(query, queryEmbedding, resumes[i], sqrt)
  {
    Map(resumes, res requires Similarity.IsSqrt(sqrt) => AnswerFor(query, queryEmbedding, res, sqrt))
  }

  function AnswerRanking(query: string, queryEmbedding: seq<real>, resumes: seq<Resume>, sqrt: real -> real)
    : (r: seq<Answer>)
    requires Similarity.IsSqrt(sqrt)
    ensures SortedBy(r, AnswerLe)
    ensures multiset(r) == multiset(AllAnswers(query, queryEmbedding, resumes, sqrt))
    ensures |r| == |resumes|
  {
    AnswerLeTotal();
    SortBy(AllAnswers(query, queryEmbedding, resumes, sqrt), AnswerLe)
  }

  datatype AskRequest = AskRequest(query: Option<string>, k: Option<int>)

  datatype AskResponse = AskResponse(query: string, answers: seq<Answer>, k: int)

  /** The handler: a missing query is rejected before anything else, `k`
      defaults to 5 when falsy, an empty store answers nothing, and
      otherwise the top `k` of the ranking are returned. */
  function HandleAsk(req: AskRequest, resumes: seq<Resume>, queryEmbedding: seq<real>, sqrt: real -> real)
    : (r: Result<AskResponse, ApiError>)
    requires Similarity.IsSqrt(sqrt)
    ensures r.Err? <==> !Truthy(req.query)
    ensures r.Err? ==> r.error == FieldRequired("query", "Query is required")
    ensures r.Ok? ==> r.value.query == req.query.value
    ensures r.Ok? && TruthyInt(req.k) ==> r.value.k == req.k.value
    ensures r.Ok? && !TruthyInt(req.k) ==> r.value.k == 5
    ensures r.Ok? && resumes == [] ==> r.value.answers == []
    ensures r.Ok? ==> r.value.answers == Prefix(AnswerRanking(req.query.value, queryEmbedding, resumes, sqrt), r.value.k)
    ensures r.Ok? && r.value.k >= 0 ==> |r.value.answers| == if |resumes| < r.value.k then |resumes| else r.value.k
  {
    if !Truthy(req.query) then Err(FieldRequired("query", "Query is required"))
    else
      var topK := IntOr(req.k, 5);
      if |resumes| == 0 then Ok(AskResponse(req.query.value, [], topK))
      else Ok(AskResponse(req.query.value, Prefix(AnswerRanking(req.query.value, queryEmbedding, resumes, sqrt), topK), topK))
  }

  /** The returned answers are sorted, and each ranks at or above every
      answer left out. */
  lemma AnswersAreBest(req: AskRequest, resumes: seq<Resume>, queryEmbedding: seq<real>, sqrt: real -> real)
    requires Similarity.IsSqrt(sqrt)
    requires Truthy(req.query)
    ensures var a := HandleAsk(req, resumes, queryEmbedding, sqrt).value.answers;
      var all := AnswerRanking(req.query.value, queryEmbedding, resumes, sqrt);
      && SortedBy(a, AnswerLe)
      && forall i, j :: 0 <= i < |a| <= j < |all| ==> AnswerLe(a[i], all[j])
  {
    var all := AnswerRanking(req.query.value, queryEmbedding, resumes, sqrt);
    PrefixOfSorted(all, IntOr(req.k, 5), AnswerLe);
  }
}

=== FILE: bag_of_words.dfy ===
/** The legacy text normaliser `preprocessText` and the bag-of-words vector
    `createEmbeddings` (utils/documentParser.js). */
module BagOfWords {
  import opened Text
  import opened Seqs
  import opened LexOrder

  /** JavaScript's `\w` within ASCII. */
  predicate IsWordChar(c: char) {
    'a' <= c <= 'z' || 'A' <= c <= 'Z' || '0' <= c <= '9' || c == '_'
  }

  /** The characters a normalised text may contain. */
  predicate IsNormalChar(c: char) {
    'a' <= c <= 'z' || '0' <= c <= '9' || c == '_' || c == ' '
  }

  /** `.replace(/[^\w\s]/g, ' ')`. */
  function ReplaceNonWord(s: string): (r: string)
    ensures |r| == |s|
    ensures forall i :: 0 <= i < |s| ==>
      r[i] == if IsWordChar(s[i]) || s[i] in Whitespace then s[i] else ' '
  {
    seq(|s|, i requires 0 <= i < |s| => if IsWordChar(s[i]) || s[i] in Whitespace then s[i] else ' ')
  }

  /** `.replace(/\s+/g, ' ')`: each whitespace run becomes one space. */
  function CollapseWhitespace(s: string): (r: string)
    ensures forall c :: c in r ==> c == ' ' || (c !in Whitespace && c in s)
    ensures forall i :: 0 <= i < |r| - 1 ==> !(r[i] == ' ' && r[i + 1] == ' ')
    ensures |r| > 0 ==> |s| > 0 && (r[0] == ' ' <==> s[0] in Whitespace)
    ensures |s| > 0 ==> |r| > 0
    decreases |s|
  {
    if |s| == 0 then ""
    else if s[0] in Whitespace then
      var d := DropWhileIn(s, Whitespace);
      assert forall c :: c in d ==> c in s;
      " " + CollapseWhitespace(d)
    else
      assert forall c :: c in s[1..] ==> c in s;
      [s[0]] + CollapseWhitespace(s[1..])
  }

  /** `preprocessText`: lower-case, punctuation to spaces, whitespace runs
      collapsed, ends trimmed. The result keeps exactly the words of the
      lower-cased, punctuation-free text, in order, one space apart. */
  function Preprocess(text: string): (r: string)
    ensures Normalised(r)
    ensures WordsOf(r) == WordsOf(ReplaceNonWord(Lower(text)))
    ensures r == "" <==> WordsOf(ReplaceNonWord(Lower(text))) == []
    ensures r != "" ==> Split(r, {' '}) == WordsOf(ReplaceNonWord(Lower(text)))
  {
    var replaced := ReplaceNonWord(Lower(text));
    ReplacedChars(text);
    var collapsed := CollapseWhitespace(replaced);
    assert Collapsed(collapsed);
    var r := Trim(collapsed);
    TrimCollapsed(collapsed);
    CollapseKeepsWords(replaced);
    TrimKeepsWords(collapsed);
    NormalisedWords(r);
    r
  }

  /** Collapsing whitespace keeps the first piece of a whitespace split and
      the words after it. */
  lemma {:induction false} CollapseKeepsPieces(x: string)
    ensures Split(CollapseWhitespace(x), Whitespace)[0] == Split(x, Whitespace)[0]
    ensures Filter(Split(CollapseWhitespace(x), Whitespace)[1..], NonEmpty)
         == Filter(Split(x, Whitespace)[1..], NonEmpty)
    decreases |x|
  {
    if |x| > 0 {
      var c := CollapseWhitespace(x);
      if x[0] in Whitespace {
        var d := DropWhileIn(x, Whitespace);
        assert c == " " + CollapseWhitespace(d) && c[1..] == CollapseWhitespace(d);
        assert ' ' in Whitespace;
        CollapseKeepsPieces(d);
        WordsOfPieces(CollapseWhitespace(d));
        WordsOfPieces(d);
        WordsOfSkip(x, |x| - |d|);
        WordsOfSkip(x, 1);
      } else {
        assert c == [x[0]] + CollapseWhitespace(x[1..]) && c[1..] == CollapseWhitespace(x[1..]);
        CollapseKeepsPieces(x[1..]);
      }
    }
  }

  lemma {:induction false} CollapseKeepsWords(x: string)
    ensures WordsOf(CollapseWhitespace(x)) == WordsOf(x)
  {
    CollapseKeepsPieces(x);
    WordsOfPieces(CollapseWhitespace(x));
    WordsOfPieces(x);
  }

  /** The words of a normalised text are its space-separated pieces, and
      there are none exactly when it is empty. */
  lemma {:induction false} NormalisedWords(r: string)
    requires Normalised(r)
    ensures r == "" <==> WordsOf(r) == []
    ensures r != "" ==> Split(r, {' '}) == WordsOf(r)
  {
    if r == "" {
      assert Split(r, Whitespace) == [""];
    } else {
      SplitSameSeparators(r, {' '}, Whitespace);
      SpacedPiecesNonEmpty(r);
      FilterAll(Split(r, Whitespace), NonEmpty);
    }
  }

  /** Only normal characters, single spaces between words, none at the ends. */
  predicate Normalised(r: string) {
    && (forall i :: 0 <= i < |r| ==> IsNormalChar(r[i]))
    && (forall i :: 0 <= i < |r| - 1 ==> !(r[i] == ' ' && r[i + 1] == ' '))
    && (r == "" || (r[0] != ' ' && r[|r| - 1] != ' '))
  }

  /** Only normal characters and single spaces. */
  predicate Collapsed(r: string) {
    && (forall i :: 0 <= i < |r| ==> IsNormalChar(r[i]))
    && (forall i :: 0 <= i < |r| - 1 ==> !(r[i] == ' ' && r[i + 1] == ' '))
  }

  lemma ReplacedChars(text: string)
    ensures forall c :: c in ReplaceNonWord(Lower(text)) ==> c in Whitespace || IsNormalChar(c)
  {
    var lowered := Lower(text);
    var replaced := ReplaceNonWord(lowered);
    forall c | c in replaced
      ensures c in Whitespace || IsNormalChar(c)
    {
      var i :| 0 <= i < |replaced| && replaced[i] == c;
      assert lowered[i] == LowerChar(text[i]);
    }
  }

  lemma TrimCollapsed(s: string)
    requires Collapsed(s)
    ensures Normalised(Trim(s))
  {
    var a := TrimOccurs(s);
    CollapsedSlice(s, Trim(s), a);
    assert ' ' in Whitespace;
  }

  /** Every slice of a collapsed string is collapsed. */
  lemma CollapsedSlice(s: string, r: string, a: nat)
    requires Collapsed(s) && OccursAt(s, r, a)
    ensures Collapsed(r)
  {
    assert forall i :: 0 <= i < |r| ==> r[i] == s[a + i];
  }

  /** `preprocessText(text).split(' ')`. */
  function Words(text: string): (r: seq<string>)
    ensures |r| >= 1
    ensures forall i :: 0 <= i < |r| ==> NoneIn(r[i], {' '})
  {
    Split(Preprocess(text), {' '})
  }

  /** Words of length at most two are not counted. */
  predicate Counted(w: string) {
    |w| > 2
  }

  /** The fixed length of every vector. */
  const Dimensions: nat := 100

  /** The counted words, distinct and in increasing order: the basis of the
      vector (`Object.keys(wordFreq).sort()`). */
  function Vocabulary(words: seq<string>): (v: seq<string>)
    ensures StrictlySorted(v)
    ensures forall w :: w in v <==> w in words && Counted(w)
  {
    FilterMultiset(words, Counted);
    assert forall w :: w in words && Counted(w) ==> w in Filter(words, Counted) by {
      forall w | w in words && Counted(w)
        ensures w in Filter(words, Counted)
      {
        FilterKeeps(words, Counted, w);
      }
    }
    SortedDistinct(Filter(words, Counted))
  }

  /** The vector for a list of words: slot `i` holds the frequency of the
      `i`-th basis word, and slots past the basis stay zero. */
  function EmbedWords(words: seq<string>): (r: seq<int>)
    ensures |r| == Dimensions
    ensures forall i :: 0 <= i < Dimensions && i < |Vocabulary(words)| ==>
      r[i] == multiset(words)[Vocabulary(words)[i]] && r[i] >= 1
    ensures forall i :: |Vocabulary(words)| <= i < Dimensions ==> r[i] == 0
  {
    var v := Vocabulary(words);
    var counts := multiset(Filter(words, Counted));
    FilterMultiset(words, Counted);
    assert forall i :: 0 <= i < |v| ==> counts[v[i]] == multiset(words)[v[i]] >= 1 by {
      forall i | 0 <= i < |v|
        ensures counts[v[i]] == multiset(words)[v[i]] >= 1
      {
        assert v[i] in words && Counted(v[i]);
      }
    }
    seq(Dimensions, i requires 0 <= i < Dimensions => if i < |v| then counts[v[i]] else 0)
  }

  /** `createEmbeddings(text)` with the intended word count; it agrees with
      the counting object as written unless the text has one of the two
      words that collide with `Object.prototype`. */
  function CreateEmbeddings(text: string): (r: seq<int>)
    ensures |r| == Dimensions
    ensures forall i :: 0 <= i < Dimensions && i < |Vocabulary(Words(text))| ==>
      r[i] == multiset(Words(text))[Vocabulary(Words(text))[i]]
    ensures forall i :: |Vocabulary(Words(text))| <= i < Dimensions ==> r[i] == 0
    ensures "constructor" !in Words(text) && "__proto__" !in Words(text) ==>
      forall i :: 0 <= i < Dimensions ==> EmbedWordsAsWritten(Words(text))[i] == Count(r[i])
  {
    var words := Words(text);
    if "constructor" !in words && "__proto__" !in words then
      AsWrittenAgreesElsewhere(words);
      EmbedWords(words)
    else
      EmbedWords(words)
  }

  /** The vector depends on the multiset of words only: the lexicographic basis
      makes the order in which words occur irrelevant. */
  lemma EmbeddingIgnoresWordOrder(w1: seq<string>, w2: seq<string>)
    requires multiset(w1) == multiset(w2)
    ensures EmbedWords(w1) == EmbedWords(w2)
  {
    forall x
      ensures x in w1 <==> x in w2
    {
      assert x in w1 <==> x in multiset(w1);
      assert x in w2 <==> x in multiset(w2);
    }
    StrictlySortedUnique(Vocabulary(w1), Vocabulary(w2));
    FilterMultiset(w1, Counted);
    FilterMultiset(w2, Counted);
    assert multiset(Filter(w1, Counted)) == multiset(Filter(w2, Counted));
  }

  // ---------------------------------------------------------------------------
  // The counting object as written: `wordFreq` is a plain object literal, so
  // two lower-case word-character keys collide with `Object.prototype`.
  // ---------------------------------------------------------------------------

  /** A slot as the source fills it: a number, or the string
      `"function Object() { [native code] }1…"` produced by
      `(wordFreq['constructor'] || 0) + 1`. */
  datatype Slot = Count(n: int) | NotANumber

  predicate KeptAsKey(w: string) {
    w != "__proto__"
  }

  /** `createEmbeddings` as written: assigning to `wordFreq['__proto__']` a
      number is ignored, so that word never becomes a key, and the count for
      `constructor` starts from the inherited `Object` function. */
  function EmbedWordsAsWritten(words: seq<string>): (r: seq<Slot>)
    ensures |r| == Dimensions
  {
    var keys := Filter(words, KeptAsKey);
    var v := Vocabulary(keys);
    seq(Dimensions, i requires 0 <= i < Dimensions =>
      if i >= |v| then Count(0)
      else if v[i] == "constructor" then NotANumber
      else Count(multiset(keys)[v[i]]))
  }

  /** The word `constructor` yields a non-numeric slot. */
  lemma ConstructorSlotIsNotANumber()
    ensures EmbedWordsAsWritten(["constructor"])[0] == NotANumber
    ensures EmbedWords(["constructor"])[0] == 1
  {
    var ws := ["constructor"];
    assert Filter(ws, KeptAsKey) == ws;
    assert Filter(ws, Counted) == ws;
    assert Vocabulary(ws) == ws;
  }

  /** The word `__proto__` is silently dropped from the basis. */
  lemma ProtoWordIsDropped()
    ensures EmbedWordsAsWritten(["__proto__"])[0] == Count(0)
    ensures EmbedWords(["__proto__"])[0] == 1
  {
    var ws := ["__proto__"];
    assert Filter(ws, KeptAsKey) == [];
    assert Filter(ws, Counted) == ws;
    assert Vocabulary(ws) == ws;
  }

  /** Away from the two colliding words, the source computes the intended
      vector. */
  lemma AsWrittenAgreesElsewhere(words: seq<string>)
    requires "constructor" !in words && "__proto__" !in words
    ensures forall i :: 0 <= i < Dimensions ==> EmbedWordsAsWritten(words)[i] == Count(EmbedWords(words)[i])
  {
    assert Filter(words, KeptAsKey) == words by {
      FilterAll(words, KeptAsKey);
    }
  }
}

=== FILE: error_handler.dfy ===
/** The Express error middleware (server/src/middleware/errorHandler.ts): a
    function from a thrown error to the JSON error response, trying four
    recognised kinds in a fixed order before the generic fallback. A
    duplicate-key error without `keyValue` makes the middleware itself throw,
    so it sends no response of its own. */
module ErrorHandler {
  import opened Wrappers
  import opened Text
  import opened Records

  /** The fields of a thrown error that the middleware reads: `name`, the
      numeric `code`, the keys of `keyValue` in order (`None` when the field
      is absent), the messages of the values of `errors`, `status` and
      `message`. */
  datatype ThrownError = ThrownError(
    name: Option<string>,
    code: Option<int>,
    keyValue: Option<seq<string>>,
    errors: seq<string>,
    status: Option<int>,
    message: Option<string>)

  datatype ErrorKind = Validation | Duplicate | InvalidToken | TokenExpired | Other

  const DuplicateKeyCode := 11000

  /** Which branch of the middleware answers, in the order they are tried. */
  function Classify(err: ThrownError): (k: ErrorKind)
    ensures k == Validation <==> err.name == Some("ValidationError")
    ensures k == Duplicate <==> err.name != Some("ValidationError") && err.code == Some(DuplicateKeyCode)
    ensures k == InvalidToken <==>
      err.name == Some("JsonWebTokenError") && err.code != Some(DuplicateKeyCode)
    ensures k == TokenExpired <==>
      err.name == Some("TokenExpiredError") && err.code != Some(DuplicateKeyCode)
  {
    if err.name == Some("ValidationError") then Validation
    else if err.code == Some(DuplicateKeyCode) then Duplicate
    else if err.name == Some("JsonWebTokenError") then InvalidToken
    else if err.name == Some("TokenExpiredError") then TokenExpired
    else Other
  }

  /** `errorHandler(err, ...)`: the status, code, field and message sent, or
      `None` when `Object.keys(err.keyValue)` throws on a duplicate-key error
      without `keyValue`; Express's own fallback then answers. */
  function Handle(err: ThrownError): (r: Option<ApiError>)
    ensures r.None? <==> Classify(err) == Duplicate && err.keyValue.None?
    ensures Classify(err) == Validation ==>
      r == Some(ApiError(400, "VALIDATION_ERROR", None, Join(err.errors, ", ")))
    ensures Classify(err) == Duplicate && err.keyValue.Some? && |err.keyValue.value| > 0 ==>
      r == Some(ApiError(400, "DUPLICATE_ENTRY", Some(err.keyValue.value[0]), err.keyValue.value[0] + " already exists"))
    ensures Classify(err) == Duplicate && err.keyValue == Some([]) ==>
      r == Some(ApiError(400, "DUPLICATE_ENTRY", None, "undefined already exists"))
    ensures Classify(err) == InvalidToken ==> r == Some(ApiError(401, "INVALID_TOKEN", None, "Invalid token"))
    ensures Classify(err) == TokenExpired ==> r == Some(ApiError(401, "TOKEN_EXPIRED", None, "Token expired"))
    ensures Classify(err) == Other ==> r.Some? && r.value.code == "INTERNAL_ERROR" && r.value.field == None
    ensures Classify(err) == Other && TruthyInt(err.status) ==> r.Some? && r.value.status == err.status.value
    ensures Classify(err) == Other && !TruthyInt(err.status) ==> r.Some? && r.value.status == 500
    ensures Classify(err) == Other && Truthy(err.message) ==> r.Some? && r.value.message == err.message.value
    ensures Classify(err) == Other && !Truthy(err.message) ==> r.Some? && r.value.message == "Something went wrong"
  {
    match Classify(err)
    case Validation => Some(ApiError(400, "VALIDATION_ERROR", None, Join(err.errors, ", ")))
    case Duplicate =>
      (match err.keyValue
       case None => None
       case Some(keys) =>
         if |keys| > 0 then Some(ApiError(400, "DUPLICATE_ENTRY", Some(keys[0]), keys[0] + " already exists"))
         else Some(ApiError(400, "DUPLICATE_ENTRY", None, "undefined already exists")))
    case InvalidToken => Some(ApiError(401, "INVALID_TOKEN", None, "Invalid token"))
    case TokenExpired => Some(ApiError(401, "TOKEN_EXPIRED", None, "Token expired"))
    case Other =>
      Some(ApiError(IntOr(err.status, 500), "INTERNAL_ERROR", None,
                    if Truthy(err.message) then err.message.value else "Something went wrong"))
  }

  /** The code in the response names the branch that produced it, so two
      errors answered with the same code were classified alike. */
  lemma CodeIdentifiesKind(e1: ThrownError, e2: ThrownError)
    requires Handle(e1).Some? && Handle(e2).Some? && Handle(e1).value.code == Handle(e2).value.code
    ensures Classify(e1) == Classify(e2)
  {
  }

  /** The recognised kinds always answer 400 or 401 when they answer at all,
      whatever `status` the error carries; only the fallback passes a status
      through. */
  lemma RecognisedKindsIgnoreStatus(err: ThrownError)
    requires Classify(err) != Other
    ensures Handle(err).Some? ==> Handle(err).value.status == 400 || Handle(err).value.status == 401
    ensures Handle(err) == Handle(err.(status := None, message := None))
  {
  }

  /** Priority: a validation error that also carries the duplicate-key code
      is reported as a validation error, even without `keyValue`. */
  lemma ValidationBeatsDuplicate(errors: seq<string>, keys: Option<seq<string>>)
    ensures var r := Handle(ThrownError(Some("ValidationError"), Some(DuplicateKeyCode), keys, errors, None, None));
      r.Some? && r.value.code == "VALIDATION_ERROR"
  {
  }

  /** A duplicate-key error without `keyValue` gets no JSON reply from the
      middleware. */
  lemma MissingKeyValueThrows(name: Option<string>, errors: seq<string>, status: Option<int>, message: Option<string>)
    requires name != Some("ValidationError")
    ensures Handle(ThrownError(name, Some(DuplicateKeyCode), None, errors, status, message)).None?
  {
  }
}

=== FILE: idempotency.dfy ===
/** The idempotency-key middleware (server/src/middleware/idempotency.ts) as
    a state machine over the key-to-response store. The key is unique in the
    store's schema (server/src/models/IdempotencyKey.ts), so a second write
    for the same key fails and the first response stays. A failing lookup or
    write is a parameter, since the store itself is not modelled. */
module Idempotency {
  import opened Wrappers

  type Store<B> = map<string, B>

  /** What the middleware decides before the route handler. */
  datatype Decision<B> =
    | Proceed(key: Option<string>)   // call the handler, with `req.idempotencyKey` set or not
    | Replay(body: B)                // answer with the stored response

  /** `handleIdempotency`: no header, or a failed lookup, proceeds without a
      key; a stored response is replayed; otherwise the key is attached. */
  function Check<B>(header: Option<string>, store: Store<B>, lookupFails: bool): (d: Decision<B>)
    ensures !Truthy(header) ==> d == Proceed(None)
    ensures Truthy(header) && lookupFails ==> d == Proceed(None)
    ensures Truthy(header) && !lookupFails && header.value in store ==> d == Replay(store[header.value])
    ensures Truthy(header) && !lookupFails && header.value !in store ==> d == Proceed(header)
    ensures d.Replay? ==> header.Some? && header.value in store && d.body == store[header.value]
  {
    if !Truthy(header) then Proceed(None)
    else if lookupFails then Proceed(None)
    else if header.value in store then Replay(store[header.value])
    else Proceed(header)
  }

  /** `saveIdempotencyResponse`: never raises; a write for a key that is
      already stored, or a failing write, leaves the store as it was. */
  function Save<B>(store: Store<B>, key: string, body: B, writeFails: bool): (s: Store<B>)
    ensures !writeFails ==> key in s
    ensures key in store ==> s == store
    ensures key !in store && !writeFails ==> s == store[key := body]
    ensures writeFails ==> s == store
    ensures forall k :: k in store ==> k in s && s[k] == store[k]
  {
    if writeFails || key in store then store else store[key := body]
  }

  /** A response and the HTTP status it is sent with. */
  datatype Reply<B> = Reply(status: int, body: B)

  /** A route behind the middleware: the handler sees the attached key and
      returns its reply and whether it stores that reply (the upload route
      stores only its success). A replay is sent with `res.json`, hence 200. */
  function Serve<B>(header: Option<string>, store: Store<B>, lookupFails: bool, writeFails: bool,
                    handler: Option<string> -> (Reply<B>, bool)): (r: (Reply<B>, Store<B>))
    ensures Check(header, store, lookupFails).Replay? ==>
      r == (Reply(200, Check(header, store, lookupFails).body), store)
    ensures !Truthy(header) ==> r == (handler(None).0, store)
    ensures forall k :: k in store ==> k in r.1 && r.1[k] == store[k]
  {
    match Check(header, store, lookupFails)
    case Replay(body) => (Reply(200, body), store)
    case Proceed(key) =>
      var (reply, keep) := handler(key);
      if key.Some? && keep then (reply, Save(store, key.value, reply.body, writeFails))
      else (reply, store)
  }

  /** When a stored response is replayed the handler does not run: any other
      handler gives the same outcome. */
  lemma ReplayIgnoresHandler<B>(header: Option<string>, store: Store<B>, lookupFails: bool, writeFails: bool,
                                h1: Option<string> -> (Reply<B>, bool), h2: Option<string> -> (Reply<B>, bool))
    requires Check(header, store, lookupFails).Replay?
    ensures Serve(header, store, lookupFails, writeFails, h1) == Serve(header, store, lookupFails, writeFails, h2)
  {
  }

  /** Without the header the store is never consulted: any two stores give
      the handler's own reply. */
  lemma NoKeyIgnoresStore<B>(header: Option<string>, s1: Store<B>, s2: Store<B>, lookupFails: bool, writeFails: bool,
                             handler: Option<string> -> (Reply<B>, bool))
    requires !Truthy(header)
    ensures Serve(header, s1, lookupFails, writeFails, handler).0 == Serve(header, s2, lookupFails, writeFails, handler).0
  {
  }

  /** The first stored response wins: after a request with a fresh key whose
      reply was stored, a repeat with that key replays the first body, and a
      later save for the key changes nothing. */
  lemma {:induction false} RepeatReplaysFirst<B>(key: string, store: Store<B>,
                                                 h1: Option<string> -> (Reply<B>, bool),
                                                 h2: Option<string> -> (Reply<B>, bool), other: B, fails: bool)
    requires key != "" && key !in store
    requires h1(Some(key)).1
    ensures var (first, s1) := Serve(Some(key), store, false, false, h1);
      && Serve(Some(key), s1, false, fails, h2) == (Reply(200, first.body), s1)
      && Save(s1, key, other, fails) == s1
  {
    var (first, s1) := Serve(Some(key), store, false, false, h1);
    assert Check(Some(key), store, false) == Proceed(Some(key));
    assert s1 == store[key := first.body];
    assert Check(Some(key), s1, false) == Replay(first.body);
  }
}

=== FILE: job_form.dfy ===
/** The job form of the client's job page (client/src/pages/Jobs.tsx): how
    the comma-separated skills and the one-per-line requirements become
    lists, what the form looks like after a create, which controls a user
    sees, and how a job card abbreviates its requirements. */
module JobForm {
  import opened Wrappers
  import opened Seqs
  import opened Text
  import opened Records

  // ---------------------------------------------------------------------------
  // Parsing the form
  // ---------------------------------------------------------------------------

  predicate NotBlank(line: string) {
    Trim(line) != ""
  }

  /** `requirements.split('\n').filter(r => r.trim())`: blank lines are
      dropped, the others are kept as typed. */
  function ParseRequirements(text: string): (r: seq<string>)
    ensures forall i :: 0 <= i < |r| ==> NotBlank(r[i]) && NoneIn(r[i], {'\n'})
    ensures IsSubseq(r, Split(text, {'\n'}))
    ensures forall x :: x in r <==> x in Split(text, {'\n'}) && NotBlank(x)
    ensures forall x :: multiset(r)[x] == if NotBlank(x) then multiset(Split(text, {'\n'}))[x] else 0
  {
    var lines := Split(text, {'\n'});
    var r := Filter(lines, NotBlank);
    FilterMultiset(lines, NotBlank);
    assert forall x :: x in lines && NotBlank(x) ==> x in r by {
      forall x | x in lines && NotBlank(x)
        ensures x in r
      {
        FilterKeeps(lines, NotBlank, x);
      }
    }
    r
  }

  /** `skills.split(',').map(s => s.trim()).filter(s => s)`. */
  function ParseSkills(text: string): (r: seq<string>)
    ensures forall i :: 0 <= i < |r| ==> r[i] != "" && IsTrimmed(r[i]) && NoneIn(r[i], {','})
    ensures forall x :: x in r <==> x != "" && exists p :: p in Split(text, {','}) && Trim(p) == x
    ensures IsSubseq(r, Map(Split(text, {','}), Trim))
    ensures forall x :: multiset(r)[x] == if x != "" then multiset(Map(Split(text, {','}), Trim))[x] else 0
  {
    KeptTrims(Split(text, {','}))
  }

  /** The non-empty trims of the comma-free pieces, in order. */
  function KeptTrims(pieces: seq<string>): (r: seq<string>)
    requires forall i :: 0 <= i < |pieces| ==> NoneIn(pieces[i], {','})
    ensures forall i :: 0 <= i < |r| ==> r[i] != "" && IsTrimmed(r[i]) && NoneIn(r[i], {','})
    ensures forall x :: x in r <==> x != "" && exists p :: p in pieces && Trim(p) == x
    ensures IsSubseq(r, Map(pieces, Trim))
    ensures forall x :: multiset(r)[x] == if x != "" then multiset(Map(pieces, Trim))[x] else 0
  {
    TrimmedNoComma(pieces);
    TrimmedComplete(pieces);
    TrimmedSound(pieces);
    TrimmedCounts(pieces);
    Filter(Map(pieces, Trim), NonEmpty)
  }

  /** Every kept skill is trimmed and, since no piece of the split holds a
      comma, comma-free. */
  lemma TrimmedNoComma(pieces: seq<string>)
    requires forall i :: 0 <= i < |pieces| ==> NoneIn(pieces[i], {','})
    ensures forall i :: 0 <= i < |Filter(Map(pieces, Trim), NonEmpty)| ==>
      IsTrimmed(Filter(Map(pieces, Trim), NonEmpty)[i]) && NoneIn(Filter(Map(pieces, Trim), NonEmpty)[i], {','})
  {
    var trimmed := Map(pieces, Trim);
    var r := Filter(trimmed, NonEmpty);
    forall i | 0 <= i < |r|
      ensures IsTrimmed(r[i]) && NoneIn(r[i], {','})
    {
      var j :| 0 <= j < |trimmed| && trimmed[j] == r[i];
      TrimKeepsAbsent(pieces[j], {','});
    }
  }

  /** Every non-empty trimmed piece is kept. */
  lemma TrimmedComplete(pieces: seq<string>)
    ensures forall x :: x != "" && (exists p :: p in pieces && Trim(p) == x) ==> x in Filter(Map(pieces, Trim), NonEmpty)
  {
    var trimmed := Map(pieces, Trim);
    forall x | x != "" && exists p :: p in pieces && Trim(p) == x
      ensures x in Filter(trimmed, NonEmpty)
    {
      var p :| p in pieces && Trim(p) == x;
      var j :| 0 <= j < |pieces| && pieces[j] == p;
      assert trimmed[j] == x;
      FilterKeeps(trimmed, NonEmpty, x);
    }
  }

  /** Each non-empty trimmed piece is kept as often as it occurs. */
  lemma TrimmedCounts(pieces: seq<string>)
    ensures forall x ::
      multiset(Filter(Map(pieces, Trim), NonEmpty))[x] == if x != "" then multiset(Map(pieces, Trim))[x] else 0
  {
    FilterMultiset(Map(pieces, Trim), NonEmpty);
  }

  /** Every kept skill is some trimmed piece. */
  lemma TrimmedSound(pieces: seq<string>)
    ensures forall x :: x in Filter(Map(pieces, Trim), NonEmpty) ==> exists p :: p in pieces && Trim(p) == x
  {
    var trimmed := Map(pieces, Trim);
    forall x | x in Filter(trimmed, NonEmpty)
      ensures exists p :: p in pieces && Trim(p) == x
    {
      var j :| 0 <= j < |trimmed| && trimmed[j] == x;
      assert pieces[j] in pieces;
    }
  }

  /** Trimming keeps only characters of the original. */
  lemma TrimKeepsAbsent(s: string, bad: set<char>)
    requires NoneIn(s, bad)
    ensures NoneIn(Trim(s), bad)
  {
    var a := TrimOccurs(s);
  }

  /** Requirements typed one per line come back as typed, provided none is
      blank: the form loses nothing but blank lines. */
  lemma RequirementsRoundTrip(reqs: seq<string>)
    requires |reqs| >= 1
    requires forall i :: 0 <= i < |reqs| ==> NotBlank(reqs[i]) && NoneIn(reqs[i], {'\n'})
    ensures ParseRequirements(Join(reqs, "\n")) == reqs
  {
    SplitJoin(reqs, '\n');
    FilterAll(reqs, NotBlank);
  }

  /** Skills typed as "a, b, c" come back as the list, provided each is
      non-empty, trimmed and free of commas. */
  lemma SkillsRoundTrip(skills: seq<string>)
    requires |skills| >= 1
    requires forall i :: 0 <= i < |skills| ==> skills[i] != "" && IsTrimmed(skills[i]) && NoneIn(skills[i], {','})
    ensures ParseSkills(Join(skills, ", ")) == skills
  {
    var padded := Padded(skills);
    JoinPadded(skills);
    SplitPadded(skills);
    TrimPadded(skills);
    FilterAll(skills, NonEmpty);
    assert ParseSkills(Join(skills, ", ")) == Filter(Map(Split(Join(padded, ","), {','}), Trim), NonEmpty);
  }

  lemma SplitPadded(skills: seq<string>)
    requires |skills| >= 1
    requires forall i :: 0 <= i < |skills| ==> NoneIn(skills[i], {','})
    ensures Split(Join(Padded(skills), ","), {','}) == Padded(skills)
  {
    var padded := Padded(skills);
    forall i | 0 <= i < |padded|
      ensures NoneIn(padded[i], {','})
    {
      if i > 0 {
        assert padded[i] == " " + skills[i];
      }
    }
    SplitJoin(padded, ',');
  }

  lemma TrimPadded(skills: seq<string>)
    requires |skills| >= 1
    requires forall i :: 0 <= i < |skills| ==> IsTrimmed(skills[i])
    ensures Map(Padded(skills), Trim) == skills
  {
    var padded := Padded(skills);
    forall i | 0 <= i < |skills|
      ensures Trim(padded[i]) == skills[i]
    {
      if i > 0 {
        TrimLeadingSpace(skills[i]);
      }
    }
  }

  /** The pieces of "a, b, c" split at the commas: every piece after the
      first keeps its leading space. */
  function Padded(xs: seq<string>): (r: seq<string>)
    requires |xs| >= 1
    ensures |r| == |xs| && r[0] == xs[0]
    ensures forall i :: 1 <= i < |xs| ==> r[i] == " " + xs[i]
  {
    [xs[0]] + seq(|xs| - 1, i requires 0 <= i < |xs| - 1 => " " + xs[i + 1])
  }

  lemma {:induction false} JoinPadded(xs: seq<string>)
    requires |xs| >= 1
    ensures Join(xs, ", ") == Join(Padded(xs), ",")
  {
    if |xs| > 1 {
      JoinPadded(xs[1..]);
      var p := Padded(xs);
      var q := Padded(xs[1..]);
      assert p[1..] == [" " + q[0]] + q[1..];
      JoinFirst(q, " ", ",");
    }
  }

  /** Prefixing the first element prefixes the joined text. */
  lemma JoinFirst(xs: seq<string>, pre: string, sep: string)
    requires |xs| >= 1
    ensures Join([pre + xs[0]] + xs[1..], sep) == pre + Join(xs, sep)
  {
    var ys := [pre + xs[0]] + xs[1..];
    assert ys[1..] == xs[1..];
  }

  // ---------------------------------------------------------------------------
  // Form state
  // ---------------------------------------------------------------------------

  datatype FormData = FormData(title: string, description: string, requirements: string, skills: string)

  const EmptyForm := FormData("", "", "", "")

  /** The body posted for a new job. */
  datatype JobPayload = JobPayload(title: string, description: string, requirements: seq<string>, skills: seq<string>)

  function Payload(form: FormData): (p: JobPayload)
    ensures p.title == form.title && p.description == form.description
    ensures p.requirements == ParseRequirements(form.requirements)
    ensures p.skills == ParseSkills(form.skills)
  {
    JobPayload(form.title, form.description, ParseRequirements(form.requirements), ParseSkills(form.skills))
  }

  datatype PageState = PageState(form: FormData, showCreateForm: bool)

  /** The state after `handleSubmit` settles: a successful create clears
      every field and closes the form; a failed one leaves both as they
      were. */
  function AfterSubmit(st: PageState, created: bool): (r: PageState)
    ensures created ==> r.form == EmptyForm && !r.showCreateForm
    ensures !created ==> r == st
  {
    if created then PageState(EmptyForm, false) else st
  }

  /** A failed create keeps the typed text, so submitting again posts the
      same payload. */
  lemma RetryPostsSamePayload(st: PageState)
    ensures Payload(AfterSubmit(st, false).form) == Payload(st.form)
  {
  }

  // ---------------------------------------------------------------------------
  // What the page shows
  // ---------------------------------------------------------------------------

  /** `user?.role === 'recruiter' || user?.role === 'admin'`. */
  predicate IsRecruiter(user: Option<Role>) {
    user.Some? && Privileged(user.value)
  }

  datatype Controls = Controls(createForm: bool, matchButton: bool)

  /** The create form and every card's match button appear for recruiters
      and administrators only. */
  function ControlsFor(user: Option<Role>): (c: Controls)
    ensures c.createForm <==> user == Some(Recruiter) || user == Some(Admin)
    ensures c.matchButton <==> user == Some(Recruiter) || user == Some(Admin)
  {
    Controls(IsRecruiter(user), IsRecruiter(user))
  }

  /** The requirement list of a job card: the first three, then a
      "+N more..." line when there are more. */
  function ShownRequirements(reqs: seq<string>): (items: seq<string>)
    ensures |reqs| <= 3 ==> items == reqs
    ensures |reqs| > 3 ==> |items| == 4 && items[..3] == reqs[..3]
    ensures |reqs| > 3 ==> items[3] == "+" + Decimal(|reqs| - 3) + " more..."
  {
    Prefix(reqs, 3) + if |reqs| > 3 then ["+" + Decimal(|reqs| - 3) + " more..."] else []
  }

  /** The requirements listed and the number announced as hidden add up to
      the job's requirement count. */
  lemma ShownPlusHiddenIsAll(reqs: seq<string>)
    ensures var shown := if |reqs| > 3 then 3 else |reqs|;
      var hidden := if |reqs| > 3 then |reqs| - 3 else 0;
      && shown + hidden == |reqs|
      && ShownRequirements(reqs)[..shown] == reqs[..shown]
      && (hidden > 0 <==> |ShownRequirements(reqs)| > shown)
  {
  }
}

=== FILE: job_routes.dfy ===
/** The job routes of the server (server/src/routes/jobs.ts): validation of a
    new job, the `next_offset` of the listing, and the candidate matcher of
    `POST /:id/match` — skill and requirement partitions, evidence sentences,
    the weighted score and the deterministic ranking. */
module JobRoutes {
  import opened Wrappers
  import opened Seqs
  import opened Text
  import opened LexOrder
  import opened Records
  import Similarity

  // ---------------------------------------------------------------------------
  // POST /api/jobs
  // ---------------------------------------------------------------------------

  /** The body of a create request; an absent array is `None`. */
  datatype JobRequest = JobRequest(
    title: Option<string>,
    description: Option<string>,
    requirements: Option<seq<string>>,
    skills: Option<seq<string>>)

  /** Title is checked before description; the two arrays default to empty
      (an array, even an empty one, is truthy, so a supplied one is kept). */
  function CreateJob(req: JobRequest, id: string, caller: Caller): (r: Result<Job, ApiError>)
    ensures r.Ok? <==> Truthy(req.title) && Truthy(req.description)
    ensures !Truthy(req.title) ==> r == Err(FieldRequired("title", "Title is required"))
    ensures Truthy(req.title) && !Truthy(req.description) ==> r.Err? && r.error.field == Some("description")
    ensures r.Err? ==> r.error.status == 400 && r.error.code == "FIELD_REQUIRED"
    ensures r.Ok? ==> r.value.title == req.title.value && r.value.description == req.description.value
    ensures r.Ok? ==> r.value.createdBy == caller.userId && r.value.id == id
    ensures r.Ok? && req.requirements.None? ==> r.value.requirements == []
    ensures r.Ok? && req.requirements.Some? ==> r.value.requirements == req.requirements.value
    ensures r.Ok? && req.skills.None? ==> r.value.skills == []
    ensures r.Ok? && req.skills.Some? ==> r.value.skills == req.skills.value
  {
    if !Truthy(req.title) then Err(FieldRequired("title", "Title is required"))
    else if !Truthy(req.description) then Err(FieldRequired("description", "Description is required"))
    else Ok(Job(id, req.title.value, req.description.value,
                req.requirements.GetOr([]), req.skills.GetOr([]), caller.userId))
  }

  // ---------------------------------------------------------------------------
  // POST /api/jobs/:id/match
  // ---------------------------------------------------------------------------

  /** One entry of `matches`. */
  datatype MatchResult = MatchResult(
    resumeId: string,
    candidateName: string,
    email: Option<string>,
    score: real,
    matchedSkills: seq<string>,
    missingSkills: seq<string>,
    matchedRequirements: seq<string>,
    missingRequirements: seq<string>,
    evidence: seq<string>)

  /** A job skill is found when some resume skill contains it or is contained
      in it, ignoring case. */
  predicate SkillFound(resumeSkills: seq<string>, jobSkill: string) {
    exists i :: 0 <= i < |resumeSkills| &&
      (Contains(Lower(resumeSkills[i]), Lower(jobSkill)) || Contains(Lower(jobSkill), Lower(resumeSkills[i])))
  }

  /** The lower-cased text the requirements are searched in: the content, a
      space, and the resume skills joined by spaces. */
  function ResumeText(resume: Resume): string {
    Lower(resume.content + " " + Join(resume.parsed.skills, " "))
  }

  /** The lower-cased text the overall similarity compares against. */
  function JobText(job: Job): string {
    Lower(job.title + " " + job.description + " " + Join(job.skills, " ") + " " + Join(job.requirements, " "))
  }

  predicate RequirementFound(resumeText: string, req: string) {
    Contains(resumeText, Lower(req))
  }

  /** `sentence.toLowerCase().includes(skill.toLowerCase())`. */
  predicate Mentions(sentence: string, skill: string) {
    Contains(Lower(sentence), Lower(skill))
  }

  predicate MentionsSome(sentence: string, skills: seq<string>) {
    exists skill :: skill in skills && Mentions(sentence, skill)
  }

  /** `e` is the trimmed form of a sentence that mentions one of `skills`. */
  predicate IsEvidence(e: string, sentences: seq<string>, skills: seq<string>) {
    exists k :: 0 <= k < |sentences| && e == Trim(sentences[k]) && MentionsSome(sentences[k], skills)
  }

  /** The sentence a matched skill cites: the first one mentioning it;
      `None` when there is none or when it is the empty string (which the
      source treats as not found). */
  function EvidenceFor(sentences: seq<string>, skill: string): (r: Option<string>)
    ensures r.Some? ==> IsEvidence(r.value, sentences, [skill])
    ensures r.Some? ==>
      exists k :: 0 <= k < |sentences| && r.value == Trim(sentences[k]) && Mentions(sentences[k], skill)
                  && forall j :: 0 <= j < k ==> !Mentions(sentences[j], skill)
    ensures skill != "" ==> (r.None? <==> forall k :: 0 <= k < |sentences| ==> !Mentions(sentences[k], skill))
  {
    var k := FirstWhere(sentences, s => Mentions(s, skill));
    if k < |sentences| && sentences[k] != "" then
      assert skill in [skill];
      Some(Trim(sentences[k]))
    else
      NothingMentionedInEmpty(skill);
      None
  }

  /** The empty sentence mentions only the empty skill. */
  lemma NothingMentionedInEmpty(skill: string)
    ensures Mentions("", skill) ==> skill == ""
  {
    assert Lower("") == "";
    if skill != "" {
      assert |Lower(skill)| > 0;
    }
  }

  /** The skills whose evidence sentence is found. */
  function HasEvidenceIn(sentences: seq<string>): string -> bool {
    skill => EvidenceFor(sentences, skill).Some?
  }

  /** The evidence sentence of a skill that has one. */
  function EvidenceIn(sentences: seq<string>): string -> string {
    skill => EvidenceFor(sentences, skill).GetOr("")
  }

  /** One evidence entry per matched skill whose sentence is found, in skill
      order: the found skills, each replaced by its sentence. */
  function CollectEvidence(sentences: seq<string>, skills: seq<string>): (r: seq<string>)
    ensures r == Map(Filter(skills, HasEvidenceIn(sentences)), EvidenceIn(sentences))
    ensures |r| <= |skills|
    ensures forall i :: 0 <= i < |r| ==> IsEvidence(r[i], sentences, skills)
  {
    FoundAreEvidence(sentences, skills);
    if |skills| == 0 then []
    else
      var rest := CollectEvidence(sentences, skills[1..]);
      FilterMapCons(skills, HasEvidenceIn(sentences), EvidenceIn(sentences));
      match EvidenceFor(sentences, skills[0])
      case Some(e) => [e] + rest
      case None => rest
  }

  /** Each found skill's sentence is evidence for the skills. */
  lemma FoundAreEvidence(sentences: seq<string>, skills: seq<string>)
    ensures var r := Map(Filter(skills, HasEvidenceIn(sentences)), EvidenceIn(sentences));
      forall i :: 0 <= i < |r| ==> IsEvidence(r[i], sentences, skills)
  {
    var found := Filter(skills, HasEvidenceIn(sentences));
    var r := Map(found, EvidenceIn(sentences));
    forall i | 0 <= i < |r|
      ensures IsEvidence(r[i], sentences, skills)
    {
      var skill := found[i];
      assert skill in skills && HasEvidenceIn(sentences)(skill);
      CitedIsEvidence(sentences, skill, skills);
    }
  }

  lemma CitedIsEvidence(sentences: seq<string>, skill: string, skills: seq<string>)
    requires skill in skills && EvidenceFor(sentences, skill).Some?
    ensures IsEvidence(EvidenceIn(sentences)(skill), sentences, skills)
  {
    var e := EvidenceFor(sentences, skill).value;
    var k :| 0 <= k < |sentences| && e == Trim(sentences[k]) && MentionsSome(sentences[k], [skill]);
    assert Mentions(sentences[k], skill);
  }

  lemma PrefixKeepsEvidence(es: seq<string>, sentences: seq<string>, skills: seq<string>, n: nat)
    requires forall i :: 0 <= i < |es| ==> IsEvidence(es[i], sentences, skills)
    ensures forall i :: 0 <= i < |Prefix(es, n)| ==> IsEvidence(Prefix(es, n)[i], sentences, skills)
  {
    forall i | 0 <= i < |Prefix(es, n)|
      ensures IsEvidence(Prefix(es, n)[i], sentences, skills)
    {
      assert Prefix(es, n)[i] == es[i];
    }
  }

  /** `matchedSkills.length / job.skills.length`, or 1 for a job without
      skills. */
  function SkillMatchRatio(matched: nat, total: nat): (r: real)
    requires matched <= total
    ensures 0.0 <= r <= 1.0
    ensures r == 1.0 <==> matched == total
  {
    if total > 0 then
      assert matched < total ==> (matched as real) / (total as real) < 1.0 by {
        if matched < total {
          Similarity.RatioBelowOne(matched, total);
        }
      }
      Similarity.RatioBelowOne(0, 1);
      assert 0.0 <= (matched as real) / (total as real) by {
        if matched < total { Similarity.RatioBelowOne(matched, total); }
        else { Similarity.RatioOne(matched, total); }
      }
      (matched as real) / (total as real)
    else 1.0
  }

  /** The equally weighted blend of overall text similarity and skill
      coverage. */
  function FinalScore(overall: real, ratio: real): (r: real)
    requires 0.0 <= overall <= 1.0 && 0.0 <= ratio <= 1.0
    ensures 0.0 <= r <= 1.0
    ensures r == 1.0 <==> overall == 1.0 && ratio == 1.0
  {
    overall * 0.5 + ratio * 0.5
  }

  /** The scored entry for one resume. */
  function ScoreResume(job: Job, resume: Resume): (m: MatchResult)
    ensures m.resumeId == resume.id
    ensures 0.0 <= m.score <= 1.0
    ensures |m.evidence| <= 3
    ensures forall i :: 0 <= i < |m.evidence| ==>
      IsEvidence(m.evidence[i], SplitSentences(resume.content), m.matchedSkills)
  {
    var rtext := ResumeText(resume);
    var overall := Similarity.TextSimilarity(JobText(job), rtext);
    var skills := Partition(job.skills, s => SkillFound(resume.parsed.skills, s));
    var reqs := Partition(job.requirements, q => RequirementFound(rtext, q));
    var evidence := CollectEvidence(SplitSentences(resume.content), skills.0);
    PrefixBound(evidence, 3);
    PrefixKeepsEvidence(evidence, SplitSentences(resume.content), skills.0, 3);
    MatchResult(
      resumeId := resume.id,
      candidateName := if Truthy(resume.parsed.name) then resume.parsed.name.value else "Unknown",
      email := resume.parsed.email,
      score := FinalScore(overall, SkillMatchRatio(|skills.0|, |job.skills|)),
      matchedSkills := skills.0,
      missingSkills := skills.1,
      matchedRequirements := reqs.0,
      missingRequirements := reqs.1,
      evidence := Prefix(evidence, 3))
  }

  /** Every job skill is on exactly one side, matched exactly when a resume
      skill overlaps it; the same holds for requirements and the resume text;
      both sides keep the job's order and multiplicities. */
  lemma MatchPartitions(job: Job, resume: Resume)
    ensures var m := ScoreResume(job, resume);
      && multiset(m.matchedSkills) + multiset(m.missingSkills) == multiset(job.skills)
      && IsSubseq(m.matchedSkills, job.skills) && IsSubseq(m.missingSkills, job.skills)
      && (forall s :: s in job.skills ==>
            (s in m.matchedSkills <==> SkillFound(resume.parsed.skills, s))
            && (s in m.missingSkills <==> !SkillFound(resume.parsed.skills, s)))
      && multiset(m.matchedRequirements) + multiset(m.missingRequirements) == multiset(job.requirements)
      && IsSubseq(m.matchedRequirements, job.requirements) && IsSubseq(m.missingRequirements, job.requirements)
      && (forall q :: q in job.requirements ==>
            (q in m.matchedRequirements <==> RequirementFound(ResumeText(resume), q))
            && (q in m.missingRequirements <==> !RequirementFound(ResumeText(resume), q)))
  {
    var p := s => SkillFound(resume.parsed.skills, s);
    var q := q => RequirementFound(ResumeText(resume), q);
    forall s | s in job.skills
      ensures s in Partition(job.skills, p).0 <==> p(s)
      ensures s in Partition(job.skills, p).1 <==> !p(s)
    {
      PartitionExactlyOne(job.skills, p, s);
    }
    forall x | x in job.requirements
      ensures x in Partition(job.requirements, q).0 <==> q(x)
      ensures x in Partition(job.requirements, q).1 <==> !q(x)
    {
      PartitionExactlyOne(job.requirements, q, x);
    }
  }

  /** The score reaches 1 exactly when the texts have the same word set and no
      job skill is missing; a job without skills always scores at least 1/2. */
  lemma ScoreExtremes(job: Job, resume: Resume)
    ensures var m := ScoreResume(job, resume);
      m.score == 1.0 <==> Similarity.Tokens(JobText(job)) == Similarity.Tokens(ResumeText(resume)) && m.missingSkills == []
    ensures job.skills == [] ==> ScoreResume(job, resume).score >= 0.5
  {
    var m := ScoreResume(job, resume);
    assert |m.matchedSkills| + |m.missingSkills| == |job.skills|;
  }

  /** The comparator: higher score first, then ascending resume id. */
  predicate RankLe(a: MatchResult, b: MatchResult) {
    a.score > b.score || (a.score == b.score && LessEq(a.resumeId, b.resumeId))
  }

  lemma RankTotal()
    ensures TotalPreorder(RankLe)
  {
    forall a: MatchResult, b: MatchResult
      ensures RankLe(a, b) || RankLe(b, a)
    {
      LessTotal(a.resumeId, b.resumeId);
    }
    forall a: MatchResult, b: MatchResult, c: MatchResult | RankLe(a, b) && RankLe(b, c)
      ensures RankLe(a, c)
    {
      if a.score == b.score == c.score {
        LessEqTransitive(a.resumeId, b.resumeId, c.resumeId);
      }
    }
  }

  /** `resumes.map(...)`: one scored entry per stored resume, in store order. */
  function Scored(job: Job, resumes: seq<Resume>): (r: seq<MatchResult>)
    ensures |r| == |resumes|
    ensures forall i :: 0 <= i < |resumes| ==> r[i] == ScoreResume(job, resumes[i])
  {
    Map(resumes, res => ScoreResume(job, res))
  }

  /** Every candidate, sorted by `RankLe`. */
  function Ranking(job: Job, resumes: seq<Resume>): (r: seq<MatchResult>)
    ensures SortedBy(r, RankLe)
    ensures multiset(r) == multiset(Scored(job, resumes))
    ensures |r| == |resumes|
  {
    RankTotal();
    SortBy(Scored(job, resumes), RankLe)
  }

  /** `top_n || 10`. */
  function TopN(topN: Option<int>): (n: int)
    ensures TruthyInt(topN) ==> n == topN.value
    ensures !TruthyInt(topN) ==> n == 10
  {
    IntOr(topN, 10)
  }

  /** The whole handler: 404 for an unknown job, no matches for an empty
      store, otherwise the first `top_n || 10` of the ranking (a negative
      count drops that many from the end, as `slice` does). */
  function MatchCandidates(job: Option<Job>, resumes: seq<Resume>, topN: Option<int>): (r: Result<seq<MatchResult>, ApiError>)
    ensures r.Err? <==> job.None?
    ensures r.Err? ==> r.error.status == 404 && r.error.code == "NOT_FOUND"
    ensures r.Ok? && resumes == [] ==> r.value == []
    ensures r.Ok? ==> SortedBy(r.value, RankLe)
    ensures r.Ok? ==> r.value == Prefix(Ranking(job.value, resumes), TopN(topN))
    ensures r.Ok? && TopN(topN) >= 0 ==> |r.value| == if |resumes| < TopN(topN) then |resumes| else TopN(topN)
  {
    if job.None? then Err(ApiError(404, "NOT_FOUND", None, "Job not found"))
    else if |resumes| == 0 then Ok([])
    else
      var ranked := Ranking(job.value, resumes);
      PrefixOfSorted(ranked, TopN(topN), RankLe);
      Ok(Prefix(ranked, TopN(topN)))
  }

  /** The returned matches are the best: each ranks at or above every
      candidate left out. */
  lemma MatchesAreBest(job: Job, resumes: seq<Resume>, topN: Option<int>)
    ensures var m := MatchCandidates(Some(job), resumes, topN).value;
      var all := Ranking(job, resumes);
      forall i, j :: 0 <= i < |m| <= j < |all| ==> RankLe(m[i], all[j])
  {
    PrefixOfSorted(Ranking(job, resumes), TopN(topN), RankLe);
  }

  /** Each match is the scored entry of some stored resume. */
  lemma MatchesComeFromStore(job: Job, resumes: seq<Resume>, topN: Option<int>)
    ensures var m := MatchCandidates(Some(job), resumes, topN).value;
      forall x :: x in m ==> exists k :: 0 <= k < |resumes| && x == ScoreResume(job, resumes[k])
  {
    var m := MatchCandidates(Some(job), resumes, topN).value;
    var all := Ranking(job, resumes);
    assert m == Prefix(all, TopN(topN));
    forall x | x in m
      ensures exists k :: 0 <= k < |resumes| && x == ScoreResume(job, resumes[k])
    {
      PrefixOfPermutation(all, Scored(job, resumes), TopN(topN), x);
      ScoredComeFromStore(job, resumes, x);
    }
  }

  lemma ScoredComeFromStore(job: Job, resumes: seq<Resume>, x: MatchResult)
    requires x in Scored(job, resumes)
    ensures exists k :: 0 <= k < |resumes| && x == ScoreResume(job, resumes[k])
  {
    var scored := Scored(job, resumes);
    var k :| 0 <= k < |scored| && scored[k] == x;
    assert x == ScoreResume(job, resumes[k]);
  }

  predicate DistinctIds(resumes: seq<Resume>) {
    forall i, j :: 0 <= i < j < |resumes| ==> resumes[i].id != resumes[j].id
  }

  /** With distinct resume ids the ranking does not depend on the order in
      which the store returns the resumes. */
  lemma RankingIgnoresStoreOrder(job: Job, r1: seq<Resume>, r2: seq<Resume>)
    requires multiset(r1) == multiset(r2)
    requires DistinctIds(r1)
    ensures Ranking(job, r1) == Ranking(job, r2)
  {
    var s1, s2 := Scored(job, r1), Scored(job, r2);
    MapMultiset(r1, r2, res => ScoreResume(job, res));
    assert s1 == Map(r1, res => ScoreResume(job, res));
    assert s2 == Map(r2, res => ScoreResume(job, res));
    RankTotal();
    NoTiesAmongScored(job, r1);
    SortedUnique(Ranking(job, r1), Ranking(job, r2), RankLe);
  }

  /** Distinct ids leave the comparator no ties between different entries. */
  lemma NoTiesAmongScored(job: Job, resumes: seq<Resume>)
    requires DistinctIds(resumes)
    ensures var a := Ranking(job, resumes);
      forall x, y :: x in a && y in a && RankLe(x, y) && RankLe(y, x) ==> x == y
  {
    var s := Scored(job, resumes);
    forall i, j | 0 <= i < j < |s|
      ensures s[i].resumeId != s[j].resumeId
    {
      assert s[i].resumeId == resumes[i].id;
    }
    DistinctIdsNoTies(Ranking(job, resumes), s);
  }

  lemma DistinctIdsNoTies(a: seq<MatchResult>, s: seq<MatchResult>)
    requires multiset(a) == multiset(s)
    requires forall i, j :: 0 <= i < j < |s| ==> s[i].resumeId != s[j].resumeId
    ensures forall x, y :: x in a && y in a && RankLe(x, y) && RankLe(y, x) ==> x == y
  {
    forall x, y | x in a && y in a && RankLe(x, y) && RankLe(y, x)
      ensures x == y
    {
      assert x in multiset(s) && y in multiset(s);
      var i :| 0 <= i < |s| && s[i] == x;
      var j :| 0 <= j < |s| && s[j] == y;
      LessEqAntisymmetric(x.resumeId, y.resumeId);
      assert i == j;
    }
  }
}

=== FILE: legacy_ask.dfy ===
/** The legacy question-answering route (routes/ask.js): resumes ranked by
    the cosine of word-count vectors, each with up to three snippets whose
    confidence is the fraction of query words they match. */
module LegacyAsk {
  import opened Wrappers
  import opened Seqs
  import opened Text
  import opened Records
  import BagOfWords
  import Similarity
  import opened LegacyParser

  /** A query word and a sentence word match when either contains the other. */
  predicate WordsOverlap(w: string, s: string) {
    Contains(s, w) || Contains(w, s)
  }

  predicate WordMatches(word: string, sentenceWords: seq<string>) {
    exists i :: 0 <= i < |sentenceWords| && WordsOverlap(word, sentenceWords[i])
  }

  /** `content.split(/[.!?]+/).filter(s => s.trim().length > 10)`. */
  function CandidateSentences(content: string): (r: seq<string>)
    ensures forall i :: 0 <= i < |r| ==> LongEnough(r[i])
    ensures IsSubseq(r, SplitRuns(content, SentenceEnd))
    ensures forall s :: s in r <==> s in SplitRuns(content, SentenceEnd) && LongEnough(s)
  {
    var pieces := SplitRuns(content, SentenceEnd);
    var r := Filter(pieces, LongEnough);
    assert forall s :: s in pieces && LongEnough(s) ==> s in r by {
      forall s | s in pieces && LongEnough(s)
        ensures s in r
      {
        FilterKeeps(pieces, LongEnough, s);
      }
    }
    r
  }

  predicate LongEnough(sentence: string) {
    |Trim(sentence)| > 10
  }

  datatype Snippet = Snippet(text: string, confidence: real)

  /** The query words (with repetition) that some sentence word overlaps. */
  function MatchedWords(queryWords: seq<string>, sentence: string): (r: seq<string>)
    ensures IsSubseq(r, queryWords)
    ensures forall w :: w in r <==> w in queryWords && WordMatches(w, BagOfWords.Words(sentence))
    ensures forall w :: multiset(r)[w] == if WordMatches(w, BagOfWords.Words(sentence)) then multiset(queryWords)[w] else 0
  {
    var sw := BagOfWords.Words(sentence);
    var r := Filter(queryWords, w => WordMatches(w, sw));
    FilterMultiset(queryWords, w => WordMatches(w, sw));
    assert forall w :: w in queryWords && WordMatches(w, sw) ==> w in r by {
      forall w | w in queryWords && WordMatches(w, sw)
        ensures w in r
      {
        FilterKeeps(queryWords, w => WordMatches(w, sw), w);
      }
    }
    r
  }

  /** `matches.length / queryWords.length`: the denominator is at least one,
      because splitting never returns an empty list. */
  function Confidence(matched: nat, total: nat): (c: real)
    requires 1 <= total && matched <= total
    ensures 0.0 <= c <= 1.0
    ensures c == 1.0 <==> matched == total
    ensures c == 0.0 <==> matched == 0
  {
    var c := (matched as real) / (total as real);
    assert 0.0 <= c <= 1.0 && (c == 1.0 <==> matched == total) by {
      if matched < total {
        Similarity.RatioBelowOne(matched, total);
      } else {
        Similarity.RatioOne(matched, total);
      }
    }
    c
  }

  function ScoreSentence(queryWords: seq<string>, sentence: string): (s: Snippet)
    requires |queryWords| >= 1
    ensures s.text == Trim(sentence)
    ensures 0.0 <= s.confidence <= 1.0
    ensures s.confidence == 0.0 <==> MatchedWords(queryWords, sentence) == []
    ensures s.confidence == 1.0 <==> |MatchedWords(queryWords, sentence)| == |queryWords|
  {
    var m := MatchedWords(queryWords, sentence);
    assert |m| <= |queryWords| by {
      IsSubseqLength(m, queryWords);
    }
    Snippet(Trim(sentence), Confidence(|m|, |queryWords|))
  }

  /** Confidences order sentences exactly as their numbers of matched query
      words do, which is what the snippet ranking relies on. */
  lemma {:induction false} ConfidenceFollowsMatches(queryWords: seq<string>, a: string, b: string)
    requires |queryWords| >= 1
    ensures |MatchedWords(queryWords, a)| <= |MatchedWords(queryWords, b)| <==>
      ScoreSentence(queryWords, a).confidence <= ScoreSentence(queryWords, b).confidence
  {
    var ma := MatchedWords(queryWords, a);
    var mb := MatchedWords(queryWords, b);
    IsSubseqLength(ma, queryWords);
    IsSubseqLength(mb, queryWords);
    Similarity.RatioMonotone(|ma|, |mb|, |queryWords|);
  }

  lemma {:induction false} IsSubseqLength<T>(a: seq<T>, b: seq<T>)
    requires IsSubseq(a, b)
    ensures |a| <= |b|
  {
    if |a| > 0 {
      if a[0] == b[0] && IsSubseq(a[1..], b[1..]) {
        IsSubseqLength(a[1..], b[1..]);
      } else {
        IsSubseqLength(a, b[1..]);
      }
    }
  }

  /** Higher confidence first; equal confidences keep sentence order. */
  predicate ConfidenceLe(a: Snippet, b: Snippet) {
    a.confidence >= b.confidence
  }

  lemma ConfidenceLeTotal()
    ensures TotalPreorder(ConfidenceLe)
  {
  }

  predicate Confident(s: Snippet) {
    s.confidence > 0.1
  }

  /** Every candidate sentence with its confidence, in sentence order. */
  function ScoredSentences(content: string, query: string): (r: seq<Snippet>)
    ensures |r| == |CandidateSentences(content)|
    ensures forall i :: 0 <= i < |r| ==>
      r[i] == ScoreSentence(BagOfWords.Words(query), CandidateSentences(content)[i])
  {
    ScoreEach(BagOfWords.Words(query), CandidateSentences(content))
  }

  function ScoreEach(queryWords: seq<string>, sentences: seq<string>): (r: seq<Snippet>)
    requires |queryWords| >= 1
    ensures |r| == |sentences|
    ensures forall i :: 0 <= i < |r| ==> r[i] == ScoreSentence(queryWords, sentences[i])
  {
    if |sentences| == 0 then []
    else [ScoreSentence(queryWords, sentences[0])] + ScoreEach(queryWords, sentences[1..])
  }

  /** The confident snippets, most confident first. */
  function RankedSnippets(content: string, query: string): (r: seq<Snippet>)
    ensures SortedBy(r, ConfidenceLe)
    ensures multiset(r) == multiset(Filter(ScoredSentences(content, query), Confident))
  {
    ConfidenceLeTotal();
    SortBy(Filter(ScoredSentences(content, query), Confident), ConfidenceLe)
  }

  /** Snippets of equal confidence stay in sentence order, so the sentence
      order alone decides which of them make the first three. */
  lemma TiedSnippetsKeepSentenceOrder(content: string, query: string)
    ensures forall z :: Filter(RankedSnippets(content, query), TiedWith(ConfidenceLe, z))
                        == Filter(Filter(ScoredSentences(content, query), Confident), TiedWith(ConfidenceLe, z))
  {
    ConfidenceLeTotal();
    forall z {
      SortByStable(Filter(ScoredSentences(content, query), Confident), ConfidenceLe, z);
    }
  }

  /** `findRelevantSnippets(content, query)`. */
  function FindRelevantSnippets(content: string, query: string): (r: seq<Snippet>)
    ensures |r| <= 3
    ensures SortedBy(r, ConfidenceLe)
    ensures r == Prefix(RankedSnippets(content, query), 3)
  {
    PrefixBound(RankedSnippets(content, query), 3);
    Prefix(RankedSnippets(content, query), 3)
  }

  /** Each returned snippet is the scored form of a candidate sentence, with
      a confidence above 0.1 and at most 1. */
  lemma SnippetsFromSentences(content: string, query: string)
    ensures var r := FindRelevantSnippets(content, query);
      var scored := ScoredSentences(content, query);
      forall x :: x in r ==> Confident(x) && x.confidence <= 1.0 && x in scored
  {
    var scored := ScoredSentences(content, query);
    var kept := Filter(scored, Confident);
    var all := RankedSnippets(content, query);
    var r := FindRelevantSnippets(content, query);
    forall x | x in r
      ensures Confident(x) && x.confidence <= 1.0 && x in scored
    {
      PrefixOfPermutation(all, kept, 3, x);
      var i :| 0 <= i < |scored| && scored[i] == x;
    }
  }

  /** No confident sentence left out is more confident than a returned one. */
  lemma SnippetsAreMostConfident(content: string, query: string)
    ensures var r := FindRelevantSnippets(content, query);
      var all := RankedSnippets(content, query);
      forall i, j :: 0 <= i < |r| <= j < |all| ==> ConfidenceLe(r[i], all[j])
  {
    PrefixOfSorted(RankedSnippets(content, query), 3, ConfidenceLe);
  }

  // ---------------------------------------------------------------------------
  // POST /api/ask
  // ---------------------------------------------------------------------------

  datatype AskResult = AskResult(
    candidateId: string,
    candidateName: string,
    relevanceScore: real,
    evidence: seq<Snippet>,
    skills: seq<string>,
    experienceCount: nat,
    educationCount: nat)

  datatype LegacyAskRequest = LegacyAskRequest(query: Option<string>, k: Option<int>)

  datatype LegacyAskResponse = LegacyAskResponse(query: string, results: seq<AskResult>, totalResults: nat, topK: int)

  function ResultFor(query: string, resume: StoredResume, sqrt: real -> real): (r: AskResult)
    requires Similarity.IsSqrt(sqrt)
    ensures r.candidateId == resume.id && r.candidateName == resume.parsed.name
    ensures r.evidence == FindRelevantSnippets(resume.content, query) && |r.evidence| <= 3
    ensures r.skills == resume.parsed.skills
    ensures r.experienceCount == |resume.parsed.experience| && r.educationCount == |resume.parsed.education|
    ensures resume.embeddings.None? || |resume.embeddings.value| != BagOfWords.Dimensions ==> r.relevanceScore == 0.0
    ensures resume.embeddings.Some? ==>
      r.relevanceScore == Similarity.Cosine(Similarity.AsReals(BagOfWords.CreateEmbeddings(query)),
                                            Similarity.AsReals(resume.embeddings.value), sqrt)
  {
    AskResult(resume.id, resume.parsed.name,
            Similarity.CalculateSimilarity(Some(Similarity.AsReals(BagOfWords.CreateEmbeddings(query))),
                                           Vector(resume.embeddings), sqrt),
            FindRelevantSnippets(resume.content, query),
            resume.parsed.skills, |resume.parsed.experience|, |resume.parsed.education|)
  }

  /** Higher similarity first; equal similarities keep store order. */
  predicate RelevanceLe(a: AskResult, b: AskResult) {
    a.relevanceScore >= b.relevanceScore
  }

  lemma RelevanceLeTotal()
    ensures TotalPreorder(RelevanceLe)
  {
  }

  function RankedResults(query: string, resumes: seq<StoredResume>, sqrt: real -> real): (r: seq<AskResult>)
    requires Similarity.IsSqrt(sqrt)
    ensures SortedBy(r, RelevanceLe)
    ensures |r| == |resumes|
    ensures multiset(r) == multiset(Map(resumes, res requires Similarity.IsSqrt(sqrt) => ResultFor(query, res, sqrt)))
  {
    RelevanceLeTotal();
    SortBy(Map(resumes, res requires Similarity.IsSqrt(sqrt) => ResultFor(query, res, sqrt)), RelevanceLe)
  }

  /** Results of equal relevance stay in store order, so the store order
      alone decides which of them make the first k. */
  lemma TiedResultsKeepStoreOrder(query: string, resumes: seq<StoredResume>, sqrt: real -> real)
    requires Similarity.IsSqrt(sqrt)
    ensures var results := Map(resumes, res requires Similarity.IsSqrt(sqrt) => ResultFor(query, res, sqrt));
      forall z :: Filter(RankedResults(query, resumes, sqrt), TiedWith(RelevanceLe, z)) == Filter(results, TiedWith(RelevanceLe, z))
  {
    RelevanceLeTotal();
    forall z {
      SortByStable(Map(resumes, res requires Similarity.IsSqrt(sqrt) => ResultFor(query, res, sqrt)), RelevanceLe, z);
    }
  }

  /** The handler: a falsy query gives 400; `k = 5` applies only when `k` is
      absent, so an explicit 0 returns no results; `totalResults` counts every
      resume. */
  function LegacyAsk(req: LegacyAskRequest, resumes: seq<StoredResume>, sqrt: real -> real)
    : (r: Result<LegacyAskResponse, LegacyError>)
    requires Similarity.IsSqrt(sqrt)
    ensures r.Err? <==> !Truthy(req.query)
    ensures r.Err? ==> r.error == LegacyError(400, "Query is required")
    ensures r.Ok? ==> r.value.totalResults == |resumes|
    ensures r.Ok? && req.k.None? ==> r.value.topK == 5
    ensures r.Ok? && req.k.Some? ==> r.value.topK == req.k.value
    ensures r.Ok? ==> r.value.query == req.query.value
    ensures r.Ok? ==> r.value.results == Prefix(RankedResults(req.query.value, resumes, sqrt), r.value.topK)
    ensures r.Ok? ==> SortedBy(r.value.results, RelevanceLe)
    ensures r.Ok? && r.value.topK >= 0 ==>
      |r.value.results| == if |resumes| < r.value.topK then |resumes| else r.value.topK
  {
    if !Truthy(req.query) then Err(LegacyError(400, "Query is required"))
    else
      var k := req.k.GetOr(5);
      var ranked := RankedResults(req.query.value, resumes, sqrt);
      Ok(LegacyAskResponse(req.query.value, Prefix(ranked, k), |resumes|, k))
  }

  /** The returned results are sorted, and each is at least as relevant as
      every result left out. */
  lemma ResultsAreBest(req: LegacyAskRequest, resumes: seq<StoredResume>, sqrt: real -> real)
    requires Similarity.IsSqrt(sqrt)
    requires Truthy(req.query)
    ensures var a := LegacyAsk(req, resumes, sqrt).value.results;
      var all := RankedResults(req.query.value, resumes, sqrt);
      && SortedBy(a, RelevanceLe)
      && forall i, j :: 0 <= i < |a| <= j < |all| ==> RelevanceLe(a[i], all[j])
  {
    var all := RankedResults(req.query.value, resumes, sqrt);
    PrefixOfSorted(all, req.k.GetOr(5), RelevanceLe);
  }

  /** Unlike the server, an explicit `k` of 0 yields an empty result list. */
  lemma ZeroKGivesNothing(query: string, resumes: seq<StoredResume>, sqrt: real -> real)
    requires Similarity.IsSqrt(sqrt)
    requires query != ""
    ensures LegacyAsk(LegacyAskRequest(Some(query), Some(0)), resumes, sqrt).value.results == []
  {
  }
}

=== FILE: legacy_job_routes.dfy ===
/** The legacy job routes (routes/jobs.js): job creation with destructuring
    defaults, and the candidate matcher with its 0.6/0.4 score, one-way skill
    matching, capped regex evidence and a sort without tie-break. The evidence
    regular expression is a parameter `find`: `find(content, req)` stands for
    the list of matches of `.{0,50}<req>.{0,50}` (empty when there is none). */
module LegacyJobRoutes {
  import opened Wrappers
  import opened Seqs
  import opened Text
  import opened Records
  import BagOfWords
  import Similarity
  import opened LegacyParser

  // ---------------------------------------------------------------------------
  // POST /api/jobs
  // ---------------------------------------------------------------------------

  /** The body fields the handler reads; `None` is `undefined`. */
  datatype LegacyJobRequest = LegacyJobRequest(
    title: Option<string>,
    company: Option<string>,
    description: Option<string>,
    requirements: Option<seq<string>>,
    skills: Option<seq<string>>,
    employmentType: Option<string>)

  datatype LegacyJob = LegacyJob(
    id: string,
    title: string,
    company: string,
    description: string,
    requirements: seq<string>,
    skills: seq<string>,
    employmentType: string,
    embeddings: seq<int>)

  /** The text the job's word-count vector is computed from. */
  function JobText(title: string, description: string, requirements: seq<string>, skills: seq<string>): string {
    title + " " + description + " " + Join(requirements, " ") + " " + Join(skills, " ")
  }

  const RequiredMessage: string := "Title, company, and description are required"

  /** Destructuring defaults apply only to absent fields, so an explicit empty
      `employmentType` is kept here (the schema's enum in server/models/Job.js
      would then refuse the save, which is not modelled); the three required
      strings must be truthy. */
  function CreateLegacyJob(req: LegacyJobRequest, id: string): (r: Result<LegacyJob, LegacyError>)
    ensures r.Ok? <==> Truthy(req.title) && Truthy(req.company) && Truthy(req.description)
    ensures r.Err? ==> r.error == LegacyError(400, RequiredMessage)
    ensures r.Ok? ==> r.value.title == req.title.value && r.value.company == req.company.value
                      && r.value.description == req.description.value && r.value.id == id
    ensures r.Ok? && req.requirements.None? ==> r.value.requirements == []
    ensures r.Ok? && req.requirements.Some? ==> r.value.requirements == req.requirements.value
    ensures r.Ok? && req.skills.None? ==> r.value.skills == []
    ensures r.Ok? && req.skills.Some? ==> r.value.skills == req.skills.value
    ensures r.Ok? && req.employmentType.None? ==> r.value.employmentType == "full-time"
    ensures r.Ok? && req.employmentType.Some? ==> r.value.employmentType == req.employmentType.value
    ensures r.Ok? ==> |r.value.embeddings| == BagOfWords.Dimensions
    ensures r.Ok? ==> r.value.embeddings == BagOfWords.CreateEmbeddings(
                        JobText(r.value.title, r.value.description, r.value.requirements, r.value.skills))
  {
    var requirements := req.requirements.GetOr([]);
    var skills := req.skills.GetOr([]);
    if !Truthy(req.title) || !Truthy(req.company) || !Truthy(req.description) then
      Err(LegacyError(400, RequiredMessage))
    else
      Ok(LegacyJob(id, req.title.value, req.company.value, req.description.value, requirements, skills,
                   req.employmentType.GetOr("full-time"),
                   BagOfWords.CreateEmbeddings(JobText(req.title.value, req.description.value, requirements, skills))))
  }

  // ---------------------------------------------------------------------------
  // POST /api/jobs/:id/match
  // ---------------------------------------------------------------------------

  /** A JavaScript number as the score needs it: finite, or `NaN`. */
  datatype Num = Finite(value: real) | NaN

  /** `a` may precede `b` under the comparator `b.score - a.score`. A `NaN`
      difference is treated as "keep the order"; since every candidate of one
      job is either finite or `NaN`, ranking `NaN` last is a faithful total
      preorder for the inputs that occur. */
  predicate NumLe(a: Num, b: Num) {
    match (a, b)
    case (Finite(x), Finite(y)) => x >= y
    case (NaN, NaN) => true
    case (Finite(_), NaN) => true
    case (NaN, Finite(_)) => false
  }

  datatype LegacyMatch = LegacyMatch(
    candidateId: string,
    candidateName: string,
    similarity: real,
    matchingSkills: seq<string>,
    missingRequirements: seq<string>,
    evidence: seq<string>,
    score: Num)

  /** A job skill counts only when a resume skill contains it; the reverse
      direction is not checked. */
  predicate LegacySkillFound(resumeSkills: seq<string>, skill: string) {
    exists i :: 0 <= i < |resumeSkills| && Contains(Lower(resumeSkills[i]), Lower(skill))
  }

  predicate RequirementMissing(content: string, req: string) {
    !Contains(Lower(content), Lower(req))
  }

  /** Up to two matches per requirement, in requirement order. */
  function CollectSnippets(content: string, reqs: seq<string>, find: (string, string) -> seq<string>): (r: seq<string>)
    ensures |r| <= 2 * |reqs|
    ensures forall i :: 0 <= i < |r| ==> exists req :: req in reqs && r[i] in Prefix(find(content, req), 2)
  {
    if |reqs| == 0 then []
    else
      var first := Prefix(find(content, reqs[0]), 2);
      PrefixBound(find(content, reqs[0]), 2);
      var rest := CollectSnippets(content, reqs[1..], find);
      var r := first + rest;
      assert forall i :: 0 <= i < |r| ==> exists req :: req in reqs && r[i] in Prefix(find(content, req), 2) by {
        forall i | 0 <= i < |r|
          ensures exists req :: req in reqs && r[i] in Prefix(find(content, req), 2)
        {
          if i < |first| {
            assert r[i] in Prefix(find(content, reqs[0]), 2);
          } else {
            assert r[i] == rest[i - |first|];
            var req :| req in reqs[1..] && rest[i - |first|] in Prefix(find(content, req), 2);
            assert req in reqs;
          }
        }
      }
      r
  }

  /** `similarity * 0.6 + matched / total * 0.4`; with no job skills the
      quotient is `0 / 0`, so the score is `NaN`. */
  function LegacyScore(similarity: real, matched: nat, total: nat): (r: Num)
    requires matched <= total
    ensures r.NaN? <==> total == 0
    ensures r.Finite? ==> 0.0 <= r.value - similarity * 0.6 <= 0.4
    ensures r.Finite? ==> (r.value == similarity * 0.6 + 0.4 <==> matched == total)
  {
    if total == 0 then NaN
    else
      assert 0.0 <= (matched as real) / (total as real) <= 1.0
        && ((matched as real) / (total as real) == 1.0 <==> matched == total) by {
        if matched < total {
          Similarity.RatioBelowOne(matched, total);
        } else {
          Similarity.RatioOne(matched, total);
        }
      }
      Finite(similarity * 0.6 + (matched as real) / (total as real) * 0.4)
  }

  /** The scored entry for one resume. */
  function ScoreLegacy(job: LegacyJob, resume: StoredResume, find: (string, string) -> seq<string>,
                       sqrt: real -> real): (m: LegacyMatch)
    requires Similarity.IsSqrt(sqrt)
    ensures m.candidateId == resume.id
    ensures |m.evidence| <= 5
    ensures m.score.NaN? <==> job.skills == []
  {
    var similarity := Similarity.CalculateSimilarity(Some(Similarity.AsReals(job.embeddings)), Vector(resume.embeddings), sqrt);
    var matching := Filter(job.skills, s => LegacySkillFound(resume.parsed.skills, s));
    var evidence := CollectSnippets(resume.content, job.requirements, find);
    PrefixBound(evidence, 5);
    LegacyMatch(
      candidateId := resume.id,
      candidateName := resume.parsed.name,
      similarity := similarity,
      matchingSkills := matching,
      missingRequirements := Filter(job.requirements, q => RequirementMissing(resume.content, q)),
      evidence := Prefix(evidence, 5),
      score := LegacyScore(similarity, |matching|, |job.skills|))
  }

  /** `missingRequirements` is the order-preserving list of the requirements
      the content lacks, and `matchingSkills` the order-preserving list of the
      job skills some resume skill contains, each as often as in the job. */
  lemma LegacyPartitions(job: LegacyJob, resume: StoredResume, find: (string, string) -> seq<string>,
                         sqrt: real -> real)
    requires Similarity.IsSqrt(sqrt)
    ensures var m := ScoreLegacy(job, resume, find, sqrt);
      && IsSubseq(m.missingRequirements, job.requirements)
      && (forall q :: q in m.missingRequirements <==> q in job.requirements && RequirementMissing(resume.content, q))
      && IsSubseq(m.matchingSkills, job.skills)
      && (forall s :: s in m.matchingSkills <==> s in job.skills && LegacySkillFound(resume.parsed.skills, s))
      && (forall q :: multiset(m.missingRequirements)[q] ==
            if RequirementMissing(resume.content, q) then multiset(job.requirements)[q] else 0)
      && (forall s :: multiset(m.matchingSkills)[s] ==
            if LegacySkillFound(resume.parsed.skills, s) then multiset(job.skills)[s] else 0)
  {
    var m := ScoreLegacy(job, resume, find, sqrt);
    var pq := q => RequirementMissing(resume.content, q);
    var ps := s => LegacySkillFound(resume.parsed.skills, s);
    FilterMultiset(job.requirements, pq);
    FilterMultiset(job.skills, ps);
    forall q | q in job.requirements && pq(q)
      ensures q in m.missingRequirements
    {
      FilterKeeps(job.requirements, pq, q);
    }
    forall s | s in job.skills && ps(s)
      ensures s in m.matchingSkills
    {
      FilterKeeps(job.skills, ps, s);
    }
  }

  /** Each evidence snippet is one of the first two matches for some
      requirement. */
  lemma LegacyEvidenceSource(job: LegacyJob, resume: StoredResume, find: (string, string) -> seq<string>,
                             sqrt: real -> real)
    requires Similarity.IsSqrt(sqrt)
    ensures var m := ScoreLegacy(job, resume, find, sqrt);
      forall i :: 0 <= i < |m.evidence| ==>
        exists req :: req in job.requirements && m.evidence[i] in Prefix(find(resume.content, req), 2)
  {
    var m := ScoreLegacy(job, resume, find, sqrt);
    var all := CollectSnippets(resume.content, job.requirements, find);
    assert m.evidence == all[..|m.evidence|];
  }

  /** Skill matching is one-directional: a resume listing "java" does not
      match the job skill "javascript", which the server's two-way test
      accepts. */
  lemma LegacySkillMatchIsOneWay()
    ensures !LegacySkillFound(["java"], "javascript")
  {
    var rs := ["java"];
    assert Lower("java") == "java";
    assert Lower("javascript") == "javascript";
    assert !Contains("java", "javascript") by {
      ContainsShorter("java", "javascript");
    }
  }

  lemma ContainsShorter(s: string, t: string)
    requires |s| < |t|
    ensures !Contains(s, t)
    decreases |s|
  {
    if |s| > 0 {
      ContainsShorter(s[1..], t);
    }
  }

  lemma NumLeTotal()
    ensures TotalPreorder(NumLe)
  {
  }

  predicate MatchLe(a: LegacyMatch, b: LegacyMatch) {
    NumLe(a.score, b.score)
  }

  lemma MatchLeTotal()
    ensures TotalPreorder(MatchLe)
  {
    NumLeTotal();
    forall a: LegacyMatch, b: LegacyMatch, c: LegacyMatch | MatchLe(a, b) && MatchLe(b, c)
      ensures MatchLe(a, c)
    {
      assert NumLe(a.score, b.score) && NumLe(b.score, c.score);
    }
    forall a: LegacyMatch, b: LegacyMatch
      ensures MatchLe(a, b) || MatchLe(b, a)
    {
      assert NumLe(a.score, b.score) || NumLe(b.score, a.score);
    }
  }

  function ScoredLegacy(job: LegacyJob, resumes: seq<StoredResume>, find: (string, string) -> seq<string>,
                        sqrt: real -> real): (r: seq<LegacyMatch>)
    requires Similarity.IsSqrt(sqrt)
    ensures |r| == |resumes|
    ensures forall i :: 0 <= i < |resumes| ==> r[i] == ScoreLegacy(job, resumes[i], find, sqrt)
  {
    Map(resumes, res requires Similarity.IsSqrt(sqrt) => ScoreLegacy(job, res, find, sqrt))
  }

  datatype LegacyMatchResponse = LegacyMatchResponse(matches: seq<LegacyMatch>, totalCandidates: nat)

  /** `top_n = 5` applies only when `top_n` is absent: an explicit 0 asks
      for no matches. */
  function LegacyTopN(topN: Option<int>): (n: int)
    ensures topN.Some? ==> n == topN.value
    ensures topN.None? ==> n == 5
  {
    topN.GetOr(5)
  }

  /** Every candidate, sorted by descending score, equal scores in store
      order. */
  function LegacyRanking(job: LegacyJob, resumes: seq<StoredResume>, find: (string, string) -> seq<string>,
                         sqrt: real -> real): (r: seq<LegacyMatch>)
    requires Similarity.IsSqrt(sqrt)
    ensures SortedBy(r, MatchLe)
    ensures multiset(r) == multiset(ScoredLegacy(job, resumes, find, sqrt))
    ensures |r| == |resumes|
  {
    MatchLeTotal();
    SortBy(ScoredLegacy(job, resumes, find, sqrt), MatchLe)
  }

  /** Candidates with equal scores stay in store order, so the store order
      alone decides which of them make the first top_n. */
  lemma TiedMatchesKeepStoreOrder(job: LegacyJob, resumes: seq<StoredResume>, find: (string, string) -> seq<string>,
                                  sqrt: real -> real)
    requires Similarity.IsSqrt(sqrt)
    ensures forall z :: Filter(LegacyRanking(job, resumes, find, sqrt), TiedWith(MatchLe, z))
                        == Filter(ScoredLegacy(job, resumes, find, sqrt), TiedWith(MatchLe, z))
  {
    MatchLeTotal();
    forall z {
      SortByStable(ScoredLegacy(job, resumes, find, sqrt), MatchLe, z);
    }
  }

  /** The evidence pattern built from a requirement, which is spliced in
      unescaped. */
  function EvidencePattern(req: string): string {
    ".{0,50}" + req + ".{0,50}"
  }

  /** Every requirement gives a pattern the `RegExp` constructor accepts;
      `compiles` stands for that constructor's syntax check. */
  predicate PatternsCompile(reqs: seq<string>, compiles: string -> bool) {
    forall i :: 0 <= i < |reqs| ==> compiles(EvidencePattern(reqs[i]))
  }

  /** The whole handler: 404 for an unknown job; a requirement that is not a
      valid pattern (such as "C++") makes `new RegExp` throw while the first
      resume is scored, which the handler answers with 500; otherwise every
      resume is scored, the list is sorted by descending score and cut to
      `top_n`, and `totalCandidates` counts every resume. */
  function LegacyMatchCandidates(job: Option<LegacyJob>, resumes: seq<StoredResume>, topN: Option<int>,
                                 find: (string, string) -> seq<string>, compiles: string -> bool,
                                 sqrt: real -> real)
    : (r: Result<LegacyMatchResponse, LegacyError>)
    requires Similarity.IsSqrt(sqrt)
    ensures r.Err? <==> job.None? || (|resumes| > 0 && !PatternsCompile(job.value.requirements, compiles))
    ensures job.None? ==> r == Err(LegacyError(404, "Job not found"))
    ensures job.Some? && r.Err? ==> r.error == LegacyError(500, "Failed to match candidates")
    ensures r.Ok? ==> r.value.totalCandidates == |resumes|
    ensures r.Ok? ==> r.value.matches == Prefix(LegacyRanking(job.value, resumes, find, sqrt), LegacyTopN(topN))
    ensures r.Ok? && LegacyTopN(topN) >= 0 ==>
      |r.value.matches| == if |resumes| < LegacyTopN(topN) then |resumes| else LegacyTopN(topN)
  {
    if job.None? then Err(LegacyError(404, "Job not found"))
    else if |resumes| > 0 && !PatternsCompile(job.value.requirements, compiles) then
      Err(LegacyError(500, "Failed to match candidates"))
    else
      Ok(LegacyMatchResponse(Prefix(LegacyRanking(job.value, resumes, find, sqrt), LegacyTopN(topN)), |resumes|))
  }

  /** The matches come sorted by descending score, and each is the scored
      entry of some stored resume. */
  lemma LegacyMatchesSorted(job: LegacyJob, resumes: seq<StoredResume>, topN: Option<int>,
                            find: (string, string) -> seq<string>, compiles: string -> bool, sqrt: real -> real)
    requires Similarity.IsSqrt(sqrt)
    ensures var r := LegacyMatchCandidates(Some(job), resumes, topN, find, compiles, sqrt);
      r.Ok? ==>
        && SortedBy(r.value.matches, MatchLe)
        && forall x :: x in r.value.matches ==>
             exists k :: 0 <= k < |resumes| && x == ScoreLegacy(job, resumes[k], find, sqrt)
  {
    var r := LegacyMatchCandidates(Some(job), resumes, topN, find, compiles, sqrt);
    if r.Err? { return; }
    var m := r.value.matches;
    var all := LegacyRanking(job, resumes, find, sqrt);
    var scored := ScoredLegacy(job, resumes, find, sqrt);
    PrefixOfSorted(all, LegacyTopN(topN), MatchLe);
    forall x | x in m
      ensures exists k :: 0 <= k < |resumes| && x == ScoreLegacy(job, resumes[k], find, sqrt)
    {
      PrefixOfPermutation(all, scored, LegacyTopN(topN), x);
      var k :| 0 <= k < |scored| && scored[k] == x;
    }
  }

  /** The returned matches are the best: each scores at least as high as
      every candidate left out. */
  lemma LegacyMatchesAreBest(job: LegacyJob, resumes: seq<StoredResume>, topN: Option<int>,
                             find: (string, string) -> seq<string>, compiles: string -> bool, sqrt: real -> real)
    requires Similarity.IsSqrt(sqrt)
    ensures var r := LegacyMatchCandidates(Some(job), resumes, topN, find, compiles, sqrt);
      var all := LegacyRanking(job, resumes, find, sqrt);
      r.Ok? ==> forall i, j :: 0 <= i < |r.value.matches| <= j < |all| ==> MatchLe(r.value.matches[i], all[j])
  {
    PrefixOfSorted(LegacyRanking(job, resumes, find, sqrt), LegacyTopN(topN), MatchLe);
  }

  /** For a job without skills every score is `NaN`, no comparison reorders,
      and the ranking is the store order. */
  lemma NoSkillsKeepsStoreOrder(job: LegacyJob, resumes: seq<StoredResume>, topN: Option<int>,
                                find: (string, string) -> seq<string>, sqrt: real -> real)
    requires Similarity.IsSqrt(sqrt)
    requires job.skills == []
    ensures LegacyRanking(job, resumes, find, sqrt) == ScoredLegacy(job, resumes, find, sqrt)
  {
    var scored := ScoredLegacy(job, resumes, find, sqrt);
    MatchLeTotal();
    assert forall i :: 0 <= i < |scored| ==> scored[i].score.NaN?;
    SortAllEqual(scored, MatchLe);
  }
}

=== FILE: legacy_parser.dfy ===
/** The legacy `extractResumeData` and `redactPII` (utils/documentParser.js):
    skills are matched against a fixed vocabulary, the other fields get
    string defaults, and redaction works on the raw text. The regular
    expressions for e-mail and telephone and the regex-driven experience and
    education scans are parameters. */
module LegacyParser {
  import opened Wrappers
  import opened Text
  import opened Seqs
  import opened Similarity

  /** The fixed skill vocabulary, in the order the source lists it. */
  const SkillVocabulary: seq<string> := [
    "javascript", "python", "java", "react", "node", "sql", "mongodb",
    "aws", "docker", "kubernetes", "git", "html", "css", "typescript",
    "angular", "vue", "express", "django", "flask", "spring", "mysql",
    "postgresql", "redis", "elasticsearch", "machine learning", "ai",
    "data science", "analytics", "project management", "agile", "scrum"]

  /** The fields the legacy parser stores; every scalar is a string. */
  datatype LegacyParsed = LegacyParsed(
    name: string,
    email: string,
    phone: string,
    skills: seq<string>,
    experience: seq<string>,
    education: seq<string>,
    summary: string)

  /** A resume as the legacy routes store it: the redacted content, the
      parsed fields, and the word-count vector when one was computed. */
  datatype StoredResume = StoredResume(
    id: string,
    content: string,
    parsed: LegacyParsed,
    embeddings: Option<seq<int>>)

  /** A stored integer vector as the similarity sees it. */
  function Vector(v: Option<seq<int>>): (r: Option<seq<real>>)
    ensures r.Some? <==> v.Some?
    ensures r.Some? ==> r.value == AsReals(v.value)
  {
    match v
    case Some(x) => Some(AsReals(x))
    case None => None
  }

  /** The words of `vocabulary` that occur in `lower`, in vocabulary order. */
  function MatchVocabulary(vocabulary: seq<string>, lower: string): (r: seq<string>)
    ensures IsSubseq(r, vocabulary)
    ensures forall s :: s in r <==> s in vocabulary && Contains(lower, s)
  {
    var r := Filter(vocabulary, s => Contains(lower, s));
    assert forall s :: s in vocabulary && Contains(lower, s) ==> s in r by {
      forall s | s in vocabulary && Contains(lower, s)
        ensures s in r
      {
        FilterKeeps(vocabulary, s => Contains(lower, s), s);
      }
    }
    r
  }

  /** `skillKeywords.filter(skill => text.toLowerCase().includes(skill))`;
      the keywords are already lower case. */
  function VocabularySkills(text: string): (r: seq<string>)
    ensures IsSubseq(r, SkillVocabulary)
    ensures forall s :: s in r <==> s in SkillVocabulary && Contains(Lower(text), s)
  {
    MatchVocabulary(SkillVocabulary, Lower(text))
  }

  /** Substring matching over-reports: a text naming JavaScript is also
      credited with Java. */
  lemma JavaFollowsJavascript(text: string)
    requires Contains(Lower(text), "javascript")
    ensures "java" in VocabularySkills(text)
  {
    assert StartsWith("javascript", "java");
    ContainsTrans(Lower(text), "javascript", "java");
    assert "java" in SkillVocabulary by {
      assert SkillVocabulary[2] == "java";
    }
  }

  predicate HasContent(line: string) {
    Trim(line) != ""
  }

  /** The lines with non-blank content, untrimmed. */
  function ContentLines(text: string): (r: seq<string>)
    ensures forall i :: 0 <= i < |r| ==> HasContent(r[i])
  {
    Filter(Split(text, {'\n'}), HasContent)
  }

  /** `extractResumeData(text)`. */
  function ExtractLegacy(text: string, matchEmail: string -> Option<string>,
                         matchPhone: string -> Option<string>,
                         experienceOf: string -> seq<string>,
                         educationOf: string -> seq<string>): (r: LegacyParsed)
    ensures ContentLines(text) == [] ==> r.name == "Unknown"
    ensures ContentLines(text) != [] ==> r.name == ContentLines(text)[0]
    ensures r.email == matchEmail(text).GetOr("") && r.phone == matchPhone(text).GetOr("")
    ensures r.skills == VocabularySkills(text)
    ensures r.summary == Prefix(text, 500) + "..."
  {
    var lines := ContentLines(text);
    LegacyParsed(
      name := if |lines| > 0 then lines[0] else "Unknown",
      email := matchEmail(text).GetOr(""),
      phone := matchPhone(text).GetOr(""),
      skills := VocabularySkills(text),
      experience := experienceOf(text),
      education := educationOf(text),
      summary := text[..if |text| < 500 then |text| else 500] + "...")
  }

  /** The name is the first raw line with content, kept untrimmed, or
      `Unknown` when there is none. */
  lemma LegacyNameIsFirstContentLine(text: string, matchEmail: string -> Option<string>,
                                     matchPhone: string -> Option<string>,
                                     experienceOf: string -> seq<string>, educationOf: string -> seq<string>)
    ensures var raw := Split(text, {'\n'});
      var k := FirstWhere(raw, HasContent);
      ExtractLegacy(text, matchEmail, matchPhone, experienceOf, educationOf).name
        == if k == |raw| then "Unknown" else raw[k]
  {
    FilterHead(Split(text, {'\n'}), HasContent);
  }

  /** The summary always ends in an ellipsis and never exceeds 503
      characters. */
  lemma SummaryShape(text: string, matchEmail: string -> Option<string>,
                     matchPhone: string -> Option<string>,
                     experienceOf: string -> seq<string>, educationOf: string -> seq<string>)
    ensures var s := ExtractLegacy(text, matchEmail, matchPhone, experienceOf, educationOf).summary;
      |s| <= 503 && s[|s| - 3..] == "..." && s[..|s| - 3] <= text
  {
  }

  /** `redactPII(text)`: `scrub` stands for the two regex replacements of
      e-mail addresses and telephone numbers; the first line then becomes
      `[NAME]`: after redaction the first line is the placeholder and every
      later line is the scrubbed text's line. */
  function RedactText(text: string, scrub: string -> string): (r: string)
    ensures Split(r, {'\n'}) == [NameMark] + Split(scrub(text), {'\n'})[1..]
    ensures |Split(r, {'\n'})| == |Split(scrub(text), {'\n'})|
  {
    var lines := Split(scrub(text), {'\n'});
    NameLineSplits(lines);
    Join([NameMark] + lines[1..], "\n")
  }

  const NameMark: string := "[NAME]"

  /** Putting the placeholder in place of the first line and joining gives
      back the same lines on splitting. */
  lemma {:induction false} NameLineSplits(lines: seq<string>)
    requires |lines| >= 1 && forall i :: 0 <= i < |lines| ==> NoneIn(lines[i], {'\n'})
    ensures Split(Join([NameMark] + lines[1..], "\n"), {'\n'}) == [NameMark] + lines[1..]
  {
    var redacted := [NameMark] + lines[1..];
    assert NoneIn(NameMark, {'\n'});
    assert forall i :: 0 <= i < |redacted| ==> NoneIn(redacted[i], {'\n'}) by {
      forall i | 0 <= i < |redacted|
        ensures NoneIn(redacted[i], {'\n'})
      {
        if i > 0 {
          assert redacted[i] == lines[i];
        }
      }
    }
    SplitJoin(redacted, '\n');
  }
}

=== FILE: legacy_resume_routes.dfy ===
/** The legacy resume routes (routes/resumes.js): the extension filter, the
    single upload that parses only PDF and DOCX, the bulk upload that sorts
    every archive entry into uploaded or failed, and the page arithmetic of
    the list. Document parsing is a parameter; the stored content is always
    the redacted text. */
module LegacyResumeRoutes {
  import opened Wrappers
  import opened Seqs
  import opened Text
  import opened Records
  import opened Pagination
  import opened LegacyParser
  import BagOfWords

  // ---------------------------------------------------------------------------
  // path.extname
  // ---------------------------------------------------------------------------

  /** The path without its trailing slashes. */
  function DropTrailingSlashes(p: string): (r: string)
    ensures |r| <= |p| && r == p[..|r|]
    ensures r == "" || r[|r| - 1] != '/'
    ensures forall i :: |r| <= i < |p| ==> p[i] == '/'
  {
    if |p| > 0 && p[|p| - 1] == '/' then DropTrailingSlashes(p[..|p| - 1]) else p
  }

  /** The last path segment. */
  function BaseName(p: string): (b: string)
    ensures NoneIn(b, {'/'})
  {
    var parts := Split(DropTrailingSlashes(p), {'/'});
    parts[|parts| - 1]
  }

  /** POSIX `path.extname(p)`: from the last dot of the last segment to its
      end, or "" when the segment has no dot, starts with its only dot, or
      is "..". */
  function ExtName(p: string): (e: string)
    ensures e == "" || (e[0] == '.' && NoneIn(e[1..], {'.', '/'}))
  {
    var b := BaseName(p);
    var pieces := Split(b, {'.'});
    var last := pieces[|pieces| - 1];
    if |pieces| == 1 || |last| + 1 == |b| || b == ".." then ""
    else
      assert ("." + last)[1..] == last;
      assert NoneIn(last, {'/'}) by {
        SplitKeepsAbsent(b, {'.'}, {'/'});
      }
      "." + last
  }

  /** The extension of "stem.ext" is ".ext" whenever the stem is a non-empty
      single segment and the name is not "..". */
  lemma ExtNameOfStemAndExtension(stem: string, ext: string)
    requires stem != "" && NoneIn(stem, {'/'})
    requires NoneIn(ext, {'.', '/'})
    requires stem + "." + ext != ".."
    ensures ExtName(stem + "." + ext) == "." + ext
  {
    var name := stem + "." + ext;
    assert NoneIn(name, {'/'});
    SegmentIsItsBaseName(name);
    SplitLastPiece(stem, '.', ext, {'.'});
    assert stem + ['.'] + ext == name;
  }

  /** A non-empty name without slashes is its own last segment. */
  lemma SegmentIsItsBaseName(name: string)
    requires name != "" && NoneIn(name, {'/'})
    ensures BaseName(name) == name
  {
    assert name[|name| - 1] != '/';
    assert DropTrailingSlashes(name) == name;
    SplitNoSeparator(name, "", {'/'});
    assert name + "" == name;
  }

  /** A single segment without a dot has no extension. */
  lemma NoDotNoExtension(name: string)
    requires name != "" && NoneIn(name, {'.', '/'})
    ensures ExtName(name) == ""
  {
    SegmentIsItsBaseName(name);
    SplitNoSeparator(name, "", {'.'});
    assert name + "" == name;
  }

  /** A hidden file such as ".pdf" has no extension either: its only dot
      comes first. */
  lemma HiddenFileNoExtension(ext: string)
    requires ext != "" && NoneIn(ext, {'.', '/'})
    ensures ExtName("." + ext) == ""
  {
    var name := "." + ext;
    assert NoneIn(name, {'/'});
    SegmentIsItsBaseName(name);
    SplitLastPiece("", '.', ext, {'.'});
    assert "" + ['.'] + ext == name;
  }

  // ---------------------------------------------------------------------------
  // Upload filter and storing
  // ---------------------------------------------------------------------------

  const AllowedExtensions: seq<string> := [".pdf", ".docx", ".doc"]

  /** The multer filter: the lower-cased extension must be one of three. */
  predicate Accepted(originalName: string)
    ensures Accepted(originalName) ==> |ExtName(originalName)| >= 4 && ExtName(originalName)[0] == '.'
  {
    Lower(ExtName(originalName)) in AllowedExtensions
  }

  /** "stem.ext" passes the filter exactly when `ext` spells "pdf", "docx" or
      "doc" in some letter case. */
  lemma {:induction false} AcceptedByExtension(stem: string, ext: string)
    requires stem != "" && NoneIn(stem, {'/'}) && NoneIn(ext, {'.', '/'})
    ensures Accepted(stem + "." + ext) <==> Lower(ext) in ["pdf", "docx", "doc"]
  {
    if stem + "." + ext == ".." {
      assert ext == "" && Lower(ext) == "";
      SegmentIsItsBaseName("..");
      assert Lower(ExtName("..")) == "";
    } else {
      ExtNameOfStemAndExtension(stem, ext);
      LowerAppend(".", ext);
      assert Lower(".") == ".";
      LowerDotted(Lower(ext));
    }
  }

  lemma {:induction false} LowerDotted(e: string)
    ensures "." + e in AllowedExtensions <==> e in ["pdf", "docx", "doc"]
  {
    assert "." + e == ['.'] + e;
    assert ("." + e == ".pdf" <==> e == "pdf") by {
      if "." + e == ".pdf" { assert e == ("." + e)[1..]; }
    }
    assert ("." + e == ".docx" <==> e == "docx") by {
      if "." + e == ".docx" { assert e == ("." + e)[1..]; }
    }
    assert ("." + e == ".doc" <==> e == "doc") by {
      if "." + e == ".doc" { assert e == ("." + e)[1..]; }
    }
  }

  /** The regex-driven parts of the legacy parser and redactor. */
  datatype Toolkit = Toolkit(
    matchEmail: string -> Option<string>,
    matchPhone: string -> Option<string>,
    experienceOf: string -> seq<string>,
    educationOf: string -> seq<string>,
    scrub: string -> string)

  /** A resume as saved by either upload route. */
  datatype SavedResume = SavedResume(resume: StoredResume, originalName: string, fileType: string, isRedacted: bool)

  /** What is saved for extracted text: the fields and the vector come from
      the text itself, the stored content is its redaction. */
  function Store(id: string, name: string, fileType: string, text: string, t: Toolkit): (s: SavedResume)
    ensures s.isRedacted
    ensures s.resume.content == RedactText(text, t.scrub)
    ensures s.resume.parsed == ExtractLegacy(text, t.matchEmail, t.matchPhone, t.experienceOf, t.educationOf)
    ensures s.resume.embeddings.Some? && |s.resume.embeddings.value| == BagOfWords.Dimensions
    ensures s.resume.id == id && s.originalName == name && s.fileType == fileType
  {
    SavedResume(
      StoredResume(id, RedactText(text, t.scrub),
                   ExtractLegacy(text, t.matchEmail, t.matchPhone, t.experienceOf, t.educationOf),
                   Some(BagOfWords.CreateEmbeddings(text))),
      name, fileType, true)
  }

  /** The first line of every stored content is the name placeholder. */
  lemma StoredContentHidesName(id: string, name: string, fileType: string, text: string, t: Toolkit)
    ensures Split(Store(id, name, fileType, text, t).resume.content, {'\n'})[0] == NameMark
  {
  }

  // ---------------------------------------------------------------------------
  // POST /api/resumes
  // ---------------------------------------------------------------------------

  datatype LegacyFile = LegacyFile(originalName: string, data: seq<bv8>)

  /** `parse(fileType, bytes)` stands for pdf-parse or mammoth: the text, or
      the message of the exception. */
  type Parser = (string, seq<bv8>) -> Result<string, string>

  const Unsupported := LegacyError(400, "Unsupported file type")

  /** The single upload after the filter: only ".pdf" and ".docx" are parsed;
      a ".doc" passes the filter yet is refused here. */
  function SingleUpload(file: Option<LegacyFile>, parse: Parser, id: string, t: Toolkit)
    : (r: Result<SavedResume, LegacyError>)
    ensures file.None? ==> r == Err(LegacyError(400, "No file uploaded"))
    ensures file.Some? && Lower(ExtName(file.value.originalName)) !in [".pdf", ".docx"] ==> r == Err(Unsupported)
    ensures r.Ok? ==>
      && file.Some? && r.value.fileType in [".pdf", ".docx"]
      && r.value.fileType == Lower(ExtName(file.value.originalName))
      && parse(r.value.fileType, file.value.data).Ok?
      && r.value == Store(id, file.value.originalName, r.value.fileType, parse(r.value.fileType, file.value.data).value, t)
    ensures file.Some? && Lower(ExtName(file.value.originalName)) in [".pdf", ".docx"] ==>
      (r.Ok? <==> parse(Lower(ExtName(file.value.originalName)), file.value.data).Ok?)
    ensures file.Some? && Lower(ExtName(file.value.originalName)) in [".pdf", ".docx"]
            && parse(Lower(ExtName(file.value.originalName)), file.value.data).Err? ==>
      r == Err(LegacyError(500, "Failed to process resume: "
                                + parse(Lower(ExtName(file.value.originalName)), file.value.data).error))
    ensures r.Err? && r.error.status == 500 ==>
      && file.Some?
      && parse(Lower(ExtName(file.value.originalName)), file.value.data).Err?
      && r.error.message == "Failed to process resume: " + parse(Lower(ExtName(file.value.originalName)), file.value.data).error
  {
    match file
    case None => Err(LegacyError(400, "No file uploaded"))
    case Some(f) =>
      var fileType := Lower(ExtName(f.originalName));
      if fileType != ".pdf" && fileType != ".docx" then Err(Unsupported)
      else
        match parse(fileType, f.data)
        case Err(msg) => Err(LegacyError(500, "Failed to process resume: " + msg))
        case Ok(text) => Ok(Store(id, f.originalName, fileType, text, t))
  }

  /** A ".doc" file, in any letter case, is accepted by the filter and then
      refused as unsupported. */
  lemma DocPassesFilterButIsRefused(stem: string, ext: string, data: seq<bv8>, parse: Parser, id: string, t: Toolkit)
    requires stem != "" && NoneIn(stem, {'/'})
    requires |ext| == 3 && Lower(ext) == "doc"
    ensures Accepted(stem + "." + ext)
    ensures SingleUpload(Some(LegacyFile(stem + "." + ext, data)), parse, id, t) == Err(Unsupported)
  {
    DocExtension(stem, ext);
    assert AllowedExtensions[2] == ".doc";
    assert ".doc" != ".pdf" by {
      assert ".doc"[1] != ".pdf"[1];
    }
    assert |".doc"| != |".docx"|;
  }

  lemma DocExtension(stem: string, ext: string)
    requires stem != "" && NoneIn(stem, {'/'})
    requires |ext| == 3 && Lower(ext) == "doc"
    ensures Lower(ExtName(stem + "." + ext)) == ".doc"
  {
    LowerDocPlain(ext);
    ExtNameOfStemAndExtension(stem, ext);
    LowerAppend(".", ext);
    assert Lower(".") == ".";
    assert "." + "doc" == ".doc";
  }

  /** A spelling of "doc" holds neither a dot nor a slash. */
  lemma LowerDocPlain(ext: string)
    requires |ext| == 3 && Lower(ext) == "doc"
    ensures NoneIn(ext, {'.', '/'})
  {
    forall j | 0 <= j < |ext|
      ensures ext[j] !in {'.', '/'}
    {
      assert Lower(ext)[j] == LowerChar(ext[j]);
    }
  }

  // ---------------------------------------------------------------------------
  // POST /api/resumes/bulk
  // ---------------------------------------------------------------------------

  datatype BulkEntry = BulkEntry(entryName: string, isDirectory: bool, data: seq<bv8>)

  /** What one archive entry contributes. */
  datatype Outcome = Skipped | Failed(message: string) | Stored(saved: SavedResume)

  /** One pass of the loop body: directories are skipped; an extension other
      than the three is an error; ".doc" is stored with empty text; parse
      failures are recorded with the entry name. */
  function EntryOutcome(e: BulkEntry, parse: Parser, idOf: string -> string, t: Toolkit): (o: Outcome)
    ensures o == Skipped <==> e.isDirectory
    ensures !e.isDirectory && Lower(ExtName(e.entryName)) !in AllowedExtensions ==>
      o == Failed(e.entryName + ": Unsupported file type")
    ensures !e.isDirectory && Lower(ExtName(e.entryName)) == ".doc" ==>
      o == Stored(Store(idOf(e.entryName), e.entryName, ".doc", "", t))
    ensures var fileType := Lower(ExtName(e.entryName));
      !e.isDirectory && (fileType == ".pdf" || fileType == ".docx") ==>
        o == match parse(fileType, e.data)
             case Err(msg) => Failed(e.entryName + ": " + msg)
             case Ok(content) => Stored(Store(idOf(e.entryName), e.entryName, fileType, content, t))
    ensures o.Stored? ==> o.saved.originalName == e.entryName && o.saved.isRedacted
  {
    if e.isDirectory then Skipped
    else
      var fileType := Lower(ExtName(e.entryName));
      if fileType !in AllowedExtensions then Failed(e.entryName + ": Unsupported file type")
      else
        var text := if fileType == ".doc" then Ok("") else parse(fileType, e.data);
        match text
        case Err(msg) => Failed(e.entryName + ": " + msg)
        case Ok(content) => Stored(Store(idOf(e.entryName), e.entryName, fileType, content, t))
  }

  /** The uploaded and error lists after a prefix of the entries. */
  function Tally(entries: seq<BulkEntry>, parse: Parser, idOf: string -> string, t: Toolkit)
    : (seq<SavedResume>, seq<string>)
  {
    if |entries| == 0 then ([], [])
    else
      var (up, errs) := Tally(entries[..|entries| - 1], parse, idOf, t);
      match EntryOutcome(entries[|entries| - 1], parse, idOf, t)
      case Skipped => (up, errs)
      case Failed(m) => (up, errs + [m])
      case Stored(s) => (up + [s], errs)
  }

  predicate IsFileEntry(e: BulkEntry) {
    !e.isDirectory
  }

  /** Every entry that is not a directory lands in exactly one of the two
      lists, so together they are as long as the list of file entries. */
  lemma {:induction false} TallyAccountsForEveryFile(entries: seq<BulkEntry>, parse: Parser, idOf: string -> string, t: Toolkit)
    ensures |Tally(entries, parse, idOf, t).0| + |Tally(entries, parse, idOf, t).1| == |Filter(entries, IsFileEntry)|
  {
    if |entries| > 0 {
      var n := |entries| - 1;
      TallyAccountsForEveryFile(entries[..n], parse, idOf, t);
      TallyStep(entries, parse, idOf, t);
      FilterLast(entries, IsFileEntry);
    }
  }

  /** The last entry adds one to the two lists exactly when it is a file. */
  lemma TallyStep(entries: seq<BulkEntry>, parse: Parser, idOf: string -> string, t: Toolkit)
    requires |entries| > 0
    ensures |Tally(entries, parse, idOf, t).0| + |Tally(entries, parse, idOf, t).1|
      == |Tally(entries[..|entries| - 1], parse, idOf, t).0| + |Tally(entries[..|entries| - 1], parse, idOf, t).1|
        + (if IsFileEntry(entries[|entries| - 1]) then 1 else 0)
  {
    var o := EntryOutcome(entries[|entries| - 1], parse, idOf, t);
    assert o == Skipped <==> !IsFileEntry(entries[|entries| - 1]);
  }

  /** An unsupported entry is reported by name. */
  lemma {:induction false} UnsupportedEntryReported(entries: seq<BulkEntry>, parse: Parser, idOf: string -> string,
                                                   t: Toolkit, i: nat)
    requires i < |entries|
    requires !entries[i].isDirectory && Lower(ExtName(entries[i].entryName)) !in AllowedExtensions
    ensures entries[i].entryName + ": Unsupported file type" in Tally(entries, parse, idOf, t).1
  {
    var n := |entries| - 1;
    var msg := entries[i].entryName + ": Unsupported file type";
    if i < n {
      var e := entries[..n][i];
      assert e == entries[i];
      UnsupportedEntryReported(entries[..n], parse, idOf, t, i);
      TallyErrorsKept(entries, parse, idOf, t, msg);
    } else {
      assert i == n;
      UnsupportedOutcome(entries[n], parse, idOf, t);
      TallyErrorsAdded(entries, parse, idOf, t, msg);
    }
  }

  lemma UnsupportedOutcome(e: BulkEntry, parse: Parser, idOf: string -> string, t: Toolkit)
    requires !e.isDirectory && Lower(ExtName(e.entryName)) !in AllowedExtensions
    ensures EntryOutcome(e, parse, idOf, t) == Failed(e.entryName + ": Unsupported file type")
  {
  }

  /** The errors so far stay when one more entry is processed. */
  lemma TallyErrorsKept(entries: seq<BulkEntry>, parse: Parser, idOf: string -> string, t: Toolkit, m: string)
    requires |entries| > 0
    requires m in Tally(entries[..|entries| - 1], parse, idOf, t).1
    ensures m in Tally(entries, parse, idOf, t).1
  {
  }

  /** A failing last entry adds its message to the errors. */
  lemma TallyErrorsAdded(entries: seq<BulkEntry>, parse: Parser, idOf: string -> string, t: Toolkit, m: string)
    requires |entries| > 0
    requires EntryOutcome(entries[|entries| - 1], parse, idOf, t) == Failed(m)
    ensures m in Tally(entries, parse, idOf, t).1
  {
  }

  datatype BulkResponse = BulkResponse(message: string, uploaded: seq<SavedResume>, errors: seq<string>)

  /** The bulk route after the archive has been read into its entries. */
  method BulkUpload(entries: seq<BulkEntry>, parse: Parser, idOf: string -> string, t: Toolkit)
    returns (r: BulkResponse)
    ensures (r.uploaded, r.errors) == Tally(entries, parse, idOf, t)
    ensures |r.uploaded| + |r.errors| == |Filter(entries, IsFileEntry)|
    ensures r.message == "Processed " + Decimal(|r.uploaded|) + " resumes"
    ensures forall s :: s in r.uploaded ==> s.isRedacted
  {
    var uploaded: seq<SavedResume> := [];
    var errors: seq<string> := [];
    var i := 0;
    while i < |entries|
      invariant 0 <= i <= |entries|
      invariant (uploaded, errors) == Tally(entries[..i], parse, idOf, t)
      invariant forall s :: s in uploaded ==> s.isRedacted
    {
      assert entries[..i + 1][..i] == entries[..i];
      var o := EntryOutcome(entries[i], parse, idOf, t);
      match o {
        case Skipped =>
        case Failed(m) => errors := errors + [m];
        case Stored(s) => uploaded := uploaded + [s];
      }
      i := i + 1;
    }
    assert entries[..i] == entries;
    TallyAccountsForEveryFile(entries, parse, idOf, t);
    r := BulkResponse("Processed " + Decimal(|uploaded|) + " resumes", uploaded, errors);
  }

  /** Why the bulk route answers without processing an archive: an HTTP
      error of the handler, or the upload filter's error, which multer hands
      to Express's error handling before the handler runs. */
  datatype BulkError = Http(error: LegacyError) | NotAccepted(message: string)

  const FilterMessage := "Only PDF and DOCX files are allowed"

  /** The bulk route for an upload filter `accept`: no file gives 400, a file
      the filter refuses never reaches the handler, an unreadable archive
      gives 500, and otherwise every entry is tallied. `read` stands for
      AdmZip: the entries of the archive, or the message it throws. */
  function ArchiveRoute(file: Option<LegacyFile>, accept: string -> bool,
                        read: seq<bv8> -> Result<seq<BulkEntry>, string>,
                        parse: Parser, idOf: string -> string, t: Toolkit)
    : (r: Result<BulkResponse, BulkError>)
    ensures file.None? ==> r == Err(Http(LegacyError(400, "No ZIP file uploaded")))
    ensures file.Some? && !accept(file.value.originalName) ==> r == Err(NotAccepted(FilterMessage))
    ensures file.Some? && accept(file.value.originalName) && read(file.value.data).Err? ==>
      r == Err(Http(LegacyError(500, "Failed to process ZIP file: " + read(file.value.data).error)))
    ensures r.Ok? <==> file.Some? && accept(file.value.originalName) && read(file.value.data).Ok?
    ensures r.Ok? ==>
      && (r.value.uploaded, r.value.errors) == Tally(read(file.value.data).value, parse, idOf, t)
      && r.value.message == "Processed " + Decimal(|r.value.uploaded|) + " resumes"
  {
    match file
    case None => Err(Http(LegacyError(400, "No ZIP file uploaded")))
    case Some(f) =>
      if !accept(f.originalName) then Err(NotAccepted(FilterMessage))
      else
        match read(f.data)
        case Err(msg) => Err(Http(LegacyError(500, "Failed to process ZIP file: " + msg)))
        case Ok(entries) =>
          var (uploaded, errors) := Tally(entries, parse, idOf, t);
          Ok(BulkResponse("Processed " + Decimal(|uploaded|) + " resumes", uploaded, errors))
  }

  /** The bulk route as written: it sits behind the same filter as the
      single upload, which admits only ".pdf", ".docx" and ".doc". */
  function BulkRouteAsWritten(file: Option<LegacyFile>, read: seq<bv8> -> Result<seq<BulkEntry>, string>,
                              parse: Parser, idOf: string -> string, t: Toolkit)
    : (r: Result<BulkResponse, BulkError>)
    ensures file.Some? && !Accepted(file.value.originalName) ==> r == Err(NotAccepted(FilterMessage))
    ensures r.Ok? ==> file.Some? && Accepted(file.value.originalName)
  {
    ArchiveRoute(file, Accepted, read, parse, idOf, t)
  }

  /** A name whose extension is ".zip" in any letter case. */
  predicate IsZipName(originalName: string) {
    Lower(ExtName(originalName)) == ".zip"
  }

  /** The bulk route as intended: the archive passes when it is a ZIP file. */
  function BulkRoute(file: Option<LegacyFile>, read: seq<bv8> -> Result<seq<BulkEntry>, string>,
                     parse: Parser, idOf: string -> string, t: Toolkit)
    : (r: Result<BulkResponse, BulkError>)
    ensures file.Some? && !IsZipName(file.value.originalName) ==> r == Err(NotAccepted(FilterMessage))
    ensures r.Ok? <==> file.Some? && IsZipName(file.value.originalName) && read(file.value.data).Ok?
  {
    ArchiveRoute(file, IsZipName, read, parse, idOf, t)
  }

  /** "x.zip" has the extension ".zip". */
  lemma {:induction false} ZipExtension(stem: string)
    requires stem != "" && NoneIn(stem, {'/'})
    ensures Lower(ExtName(stem + ".zip")) == ".zip"
  {
    assert stem + ".zip" == stem + "." + "zip";
    assert NoneIn("zip", {'.', '/'});
    assert |stem + ".zip"| > 2;
    ExtNameOfStemAndExtension(stem, "zip");
    assert "." + "zip" == ".zip";
    assert Lower(".zip") == ".zip";
  }

  /** As written, no upload named `*.zip` reaches the bulk handler: the
      filter refuses its extension. An archive under a name the filter admits,
      such as "x.docx", still gets through. */
  lemma {:induction false} ZipArchiveRefused(stem: string, data: seq<bv8>, read: seq<bv8> -> Result<seq<BulkEntry>, string>,
                          parse: Parser, idOf: string -> string, t: Toolkit)
    requires stem != "" && NoneIn(stem, {'/'})
    ensures BulkRouteAsWritten(Some(LegacyFile(stem + ".zip", data)), read, parse, idOf, t) == Err(NotAccepted(FilterMessage))
  {
    ZipExtension(stem);
    assert ".zip" != AllowedExtensions[0] && ".zip" != AllowedExtensions[1] && ".zip" != AllowedExtensions[2] by {
      assert ".zip"[1] == 'z';
    }
  }

  /** As intended, a readable ZIP archive is processed: every file entry is
      tallied as uploaded or failed. */
  lemma {:induction false} ZipArchiveProcessed(stem: string, data: seq<bv8>, read: seq<bv8> -> Result<seq<BulkEntry>, string>,
                            parse: Parser, idOf: string -> string, t: Toolkit)
    requires stem != "" && NoneIn(stem, {'/'}) && read(data).Ok?
    ensures var r := BulkRoute(Some(LegacyFile(stem + ".zip", data)), read, parse, idOf, t);
      && r.Ok?
      && |r.value.uploaded| + |r.value.errors| == |Filter(read(data).value, IsFileEntry)|
  {
    ZipExtension(stem);
    TallyAccountsForEveryFile(read(data).value, parse, idOf, t);
  }

  // ---------------------------------------------------------------------------
  // GET /api/resumes
  // ---------------------------------------------------------------------------

  datatype PageInfo = PageInfo(page: int, limit: int, total: nat, pages: int)

  datatype LegacyListRequest = LegacyListRequest(page: Option<int>, limit: Option<int>, q: Option<string>)

  /** The list route: `page` defaults to 1 and `limit` to 10 when falsy, the
      window starts at `(page - 1) * limit`, and `pages` is
      `ceil(total / limit)`. A page below 1 makes the window start before the
      first resume, which the store refuses; a truthy `q` that is not a valid
      regular expression makes `new RegExp` throw (`compiles` stands for its
      syntax check). Both end in the same 500. */
  function LegacyList(req: LegacyListRequest, search: (string, StoredResume) -> bool, compiles: string -> bool,
                      store: seq<StoredResume>)
    : (r: Result<(seq<StoredResume>, PageInfo), LegacyError>)
    ensures r.Err? <==> (IntOr(req.page, 1) - 1) * IntOr(req.limit, 10) < 0 || (Truthy(req.q) && !compiles(req.q.value))
    ensures r.Err? ==> r.error == LegacyError(500, "Failed to fetch resumes")
    ensures r.Ok? ==> r.value.1.page == IntOr(req.page, 1) && r.value.1.limit == IntOr(req.limit, 10)
    ensures r.Ok? ==> r.value.1.pages == CeilDiv(r.value.1.total, r.value.1.limit)
    ensures r.Ok? && !Truthy(req.q) ==> r.value.1.total == |store|
    ensures r.Ok? ==> r.value.1.total == |Matches(req.q, search, store)|
    ensures r.Ok? ==> r.value.0 == Window(Matches(req.q, search, store), (r.value.1.page - 1) * r.value.1.limit, r.value.1.limit).value
  {
    var page := IntOr(req.page, 1);
    var limit := IntOr(req.limit, 10);
    var matching := Matches(req.q, search, store);
    if Truthy(req.q) && !compiles(req.q.value) then Err(LegacyError(500, "Failed to fetch resumes"))
    else match Window(matching, (page - 1) * limit, limit)
      case None => Err(LegacyError(500, "Failed to fetch resumes"))
      case Some(items) => Ok((items, PageInfo(page, limit, |matching|, CeilDiv(|matching|, limit))))
  }

  /** The resumes the search selects, in store order; a falsy `q` selects
      every resume. */
  function Matches(q: Option<string>, search: (string, StoredResume) -> bool, store: seq<StoredResume>)
    : (r: seq<StoredResume>)
    ensures !Truthy(q) ==> r == store
    ensures IsSubseq(r, store)
    ensures Truthy(q) ==> forall x :: x in r <==> x in store && search(q.value, x)
    ensures Truthy(q) ==> forall x :: multiset(r)[x] == if search(q.value, x) then multiset(store)[x] else 0
  {
    SubseqRefl(store);
    if Truthy(q) then
      var p := x => search(q.value, x);
      FilterMultiset(store, p);
      assert forall x :: x in store && p(x) ==> x in Filter(store, p) by {
        forall x | x in store && p(x)
          ensures x in Filter(store, p)
        {
          FilterKeeps(store, p, x);
        }
      }
      Filter(store, p)
    else store
  }

  /** With a positive limit, the request succeeds unless the search string
      is not a valid pattern, and pages 1 to `pages` are exactly the
      non-empty ones. */
  lemma PagesAreTheNonEmptyPages(req: LegacyListRequest, search: (string, StoredResume) -> bool,
                                 compiles: string -> bool, store: seq<StoredResume>)
    requires IntOr(req.page, 1) >= 1 && IntOr(req.limit, 10) > 0
    ensures var r := LegacyList(req, search, compiles, store);
      && (r.Ok? <==> !Truthy(req.q) || compiles(req.q.value))
      && (r.Ok? ==> (r.value.0 != [] <==> r.value.1.page <= r.value.1.pages))
  {
    var page := IntOr(req.page, 1);
    var limit := IntOr(req.limit, 10);
    var total := |Matches(req.q, search, store)|;
    var q := CeilDiv(total, limit);
    MulMono(0, page - 1, limit);
    if page <= q {
      MulMono(page - 1, q - 1, limit);
    } else {
      MulMono(q, page - 1, limit);
    }
  }

  lemma MulMono(x: int, y: int, b: int)
    requires b > 0 && x <= y
    ensures x * b <= y * b
  {
  }
}

=== FILE: lex_order.dfy ===
/** JavaScript's default string ordering (`Array.prototype.sort()` without a
    comparator, and `localeCompare` for the ASCII identifiers the routes
    compare): code unit by code unit, a proper prefix first. */
module LexOrder {

  predicate Less(a: string, b: string)
    decreases |a|
  {
    |b| > 0 && (|a| == 0 || a[0] < b[0] || (a[0] == b[0] && Less(a[1..], b[1..])))
  }

  predicate LessEq(a: string, b: string) {
    a == b || Less(a, b)
  }

  lemma LessIrreflexive(a: string)
    ensures !Less(a, a)
  {
    if |a| > 0 {
      LessIrreflexive(a[1..]);
    }
  }

  lemma {:induction false} LessAsymmetric(a: string, b: string)
    requires Less(a, b)
    ensures !Less(b, a)
    decreases |a|
  {
    if |a| > 0 && a[0] == b[0] && Less(a[1..], b[1..]) {
      LessAsymmetric(a[1..], b[1..]);
    }
  }

  lemma {:induction false} LessTransitive(a: string, b: string, c: string)
    requires Less(a, b) && Less(b, c)
    ensures Less(a, c)
    decreases |a|
  {
    if |a| > 0 && a[0] == b[0] && b[0] == c[0] {
      LessTransitive(a[1..], b[1..], c[1..]);
    }
  }

  lemma {:induction false} LessTotal(a: string, b: string)
    ensures a == b || Less(a, b) || Less(b, a)
    decreases |a|
  {
    if |a| > 0 && |b| > 0 && a[0] == b[0] {
      LessTotal(a[1..], b[1..]);
      if a[1..] == b[1..] {
        assert a == [a[0]] + a[1..];
        assert b == [b[0]] + b[1..];
      }
    }
  }

  lemma LessEqTransitive(a: string, b: string, c: string)
    requires LessEq(a, b) && LessEq(b, c)
    ensures LessEq(a, c)
  {
    if a != b && b != c {
      LessTransitive(a, b, c);
    }
  }

  lemma LessEqAntisymmetric(a: string, b: string)
    requires LessEq(a, b) && LessEq(b, a)
    ensures a == b
  {
    if a != b {
      LessAsymmetric(a, b);
    }
  }

  /** Every pair strictly increases: sorted and free of duplicates. */
  predicate StrictlySorted(v: seq<string>) {
    forall i, j :: 0 <= i < j < |v| ==> Less(v[i], v[j])
  }

  /** Adds `w` to a strictly sorted list, keeping it strictly sorted. */
  function InsertWord(w: string, v: seq<string>): (r: seq<string>)
    requires StrictlySorted(v)
    ensures StrictlySorted(r)
    ensures forall x :: x in r <==> x in v || x == w
  {
    if |v| == 0 then [w]
    else if w == v[0] then v
    else if Less(w, v[0]) then
      assert forall j :: 0 < j < |v| ==> Less(w, v[j]) by {
        forall j | 0 < j < |v| ensures Less(w, v[j]) {
          LessTransitive(w, v[0], v[j]);
        }
      }
      [w] + v
    else
      LessTotal(w, v[0]);
      var rest := InsertWord(w, v[1..]);
      assert forall x :: x in rest ==> Less(v[0], x);
      [v[0]] + rest
  }

  /** The distinct elements of `ws` in increasing order: what
      `Object.keys(counts).sort()` yields for a word-count object. */
  function SortedDistinct(ws: seq<string>): (v: seq<string>)
    ensures StrictlySorted(v)
    ensures forall x :: x in v <==> x in ws
  {
    if |ws| == 0 then []
    else
      assert forall x :: x in ws <==> x == ws[0] || x in ws[1..];
      InsertWord(ws[0], SortedDistinct(ws[1..]))
  }

  /** A set of strings has exactly one strictly increasing arrangement, so the
      sorted key list does not depend on the order the words were met in. */
  lemma {:induction false} StrictlySortedUnique(a: seq<string>, b: seq<string>)
    requires StrictlySorted(a) && StrictlySorted(b)
    requires forall x :: x in a <==> x in b
    ensures a == b
  {
    if |a| > 0 {
      assert a[0] in b;
    }
    if |b| > 0 {
      assert b[0] in a;
    }
    if |a| > 0 {
      if a[0] != b[0] {
        var i :| 0 <= i < |a| && a[i] == b[0];
        var j :| 0 <= j < |b| && b[j] == a[0];
        assert Less(a[0], b[0]);
        assert Less(b[0], a[0]);
        LessAsymmetric(a[0], b[0]);
      }
      forall x | x in a[1..]
        ensures x in b[1..]
      {
        var i :| 0 < i < |a| && a[i] == x;
        assert Less(a[0], a[i]);
        LessIrreflexive(x);
        assert x in a;
        var j :| 0 <= j < |b| && b[j] == x;
        assert j != 0;
      }
      forall x | x in b[1..]
        ensures x in a[1..]
      {
        var j :| 0 < j < |b| && b[j] == x;
        assert Less(b[0], b[j]);
        LessIrreflexive(x);
        assert x in b;
        var i :| 0 <= i < |a| && a[i] == x;
        assert i != 0;
      }
      StrictlySortedUnique(a[1..], b[1..]);
      assert a == [a[0]] + a[1..];
      assert b == [b[0]] + b[1..];
    }
  }
}

=== FILE: pagination.dfy ===
/** Listing windows and page arithmetic shared by the resume and job lists:
    the store's `skip`/`limit` window, the server's `next_offset`
    (server/src/routes/resumes.ts, server/src/routes/jobs.ts) and the legacy
    page count (routes/resumes.js). */
module Pagination {
  import opened Wrappers

  /** `find().skip(skip).limit(limit)` over the matching items in sort order:
      a negative skip is rejected by the store, a negative limit counts as its
      absolute value and a limit of 0 means no limit. */
  function Window<T>(items: seq<T>, skip: int, limit: int): (r: Option<seq<T>>)
    ensures r.None? <==> skip < 0
    ensures r.Some? && skip >= |items| ==> r.value == []
    ensures r.Some? && skip < |items| ==> |r.value| > 0 && r.value[0] == items[skip]
    ensures r.Some? && limit != 0 ==> |r.value| <= Abs(limit)
    ensures r.Some? ==> forall i :: 0 <= i < |r.value| ==> skip + i < |items| && r.value[i] == items[skip + i]
    ensures r.Some? && (limit == 0 || skip + Abs(limit) >= |items|) ==> skip + |r.value| >= |items|
  {
    if skip < 0 then None
    else
      var rest := if skip < |items| then items[skip..] else [];
      var n := Abs(limit);
      Some(if limit != 0 && n < |rest| then rest[..n] else rest)
  }

  function Abs(n: int): (r: nat)
    ensures r == n || r == -n
  {
    if n < 0 then -n else n
  }

  /** `next_offset` of a listing page: present exactly when items remain
      after this page. */
  function NextOffset(offset: int, limit: int, total: int): (r: Option<int>)
    ensures r.Some? <==> offset + limit < total
    ensures r.Some? ==> r.value - offset == limit
  {
    if offset + limit < total then Some(offset + limit) else None
  }

  /** The page at `offset`: the next `limit` items, or all that remain. */
  function Page<T>(items: seq<T>, offset: nat, limit: nat): seq<T>
    requires offset <= |items|
  {
    if offset + limit < |items| then items[offset..offset + limit] else items[offset..]
  }

  /** A page is what the store's window returns for a positive limit. */
  lemma PageIsWindow<T>(items: seq<T>, offset: nat, limit: nat)
    requires limit > 0 && offset <= |items|
    ensures Window(items, offset, limit) == Some(Page(items, offset, limit))
  {
    if offset == |items| {
      assert items[offset..] == [];
    } else if offset + limit < |items| {
      assert items[offset..][..limit] == items[offset..offset + limit];
    }
  }

  /** What a client collects by starting at `offset` and following
      `next_offset` until it is absent. */
  function Walk<T>(items: seq<T>, offset: nat, limit: nat): seq<T>
    requires limit > 0 && offset <= |items|
    decreases |items| - offset
  {
    var next := NextOffset(offset, limit, |items|);
    if next.None? then Page(items, offset, limit)
    else Page(items, offset, limit) + Walk(items, next.value, limit)
  }

  /** Following `next_offset` from 0 with a positive limit returns every item
      exactly once, in order. */
  lemma {:induction false} WalkCoversAll<T>(items: seq<T>, offset: nat, limit: nat)
    requires limit > 0
    requires offset <= |items|
    ensures Walk(items, offset, limit) == items[offset..]
    decreases |items| - offset
  {
    if offset + limit < |items| {
      var next := offset + limit;
      WalkCoversAll(items, next, limit);
      SliceSplit(items, offset, next);
    }
  }

  lemma SliceSplit<T>(items: seq<T>, a: nat, b: nat)
    requires a <= b <= |items|
    ensures items[a..] == items[a..b] + items[b..]
  {
  }

  /** The number of requests that walk makes. */
  function Requests(offset: nat, limit: nat, total: nat): (n: nat)
    requires limit > 0
    decreases total - offset
  {
    if offset + limit < total then 1 + Requests(offset + limit, limit, total) else 1
  }

  /** `Math.ceil(a / b)` for integers, with `b` non-zero. */
  function CeilDiv(a: int, b: int): (q: int)
    requires b != 0
    ensures b > 0 ==> (q - 1) * b < a <= q * b
    ensures b < 0 ==> q * b <= a < (q - 1) * b
  {
    if b > 0 then -((-a) / b) else -(a / (-b))
  }

  /** A walk over a non-empty list makes `ceil(remaining / limit)` requests. */
  lemma {:induction false} RequestsCount(offset: nat, limit: nat, total: nat)
    requires limit > 0
    requires offset < total
    ensures Requests(offset, limit, total) == CeilDiv(total - offset, limit)
    decreases total - offset
  {
    var q := CeilDiv(total - offset, limit);
    if offset + limit < total {
      RequestsCount(offset + limit, limit, total);
      var q' := CeilDiv(total - offset - limit, limit);
      assert (q' - 1) * limit < total - offset - limit <= q' * limit;
      assert (q' + 1 - 1) * limit < total - offset <= (q' + 1) * limit;
      CeilUnique(total - offset, limit, q, q' + 1);
    } else {
      assert (1 - 1) * limit < total - offset <= 1 * limit;
      CeilUnique(total - offset, limit, q, 1);
    }
  }

  lemma CeilUnique(a: int, b: int, q1: int, q2: int)
    requires b > 0
    requires (q1 - 1) * b < a <= q1 * b
    requires (q2 - 1) * b < a <= q2 * b
    ensures q1 == q2
  {
    MulCancelLess(q1 - 1, q2, b);
    MulCancelLess(q2 - 1, q1, b);
  }

  lemma MulCancelLess(x: int, y: int, b: int)
    requires b > 0
    requires x * b < y * b
    ensures x < y
  {
  }
}

=== FILE: records.dfy ===
/** The records the routes exchange: parsed resume fields, stored resumes and
    jobs, the authenticated caller and the JSON error body
    (server/src/types/index.ts). */
module Records {
  import opened Wrappers

  /** `IResume['parsedData']`: every scalar field may be absent. */
  datatype ParsedData = ParsedData(
    name: Option<string>,
    email: Option<string>,
    phone: Option<string>,
    skills: seq<string>,
    experience: seq<string>,
    education: seq<string>,
    summary: Option<string>)

  /** A stored resume; `embedding` is absent when none was computed. */
  datatype Resume = Resume(
    id: string,
    userId: string,
    content: string,
    parsed: ParsedData,
    embedding: Option<seq<real>>)

  datatype Job = Job(
    id: string,
    title: string,
    description: string,
    requirements: seq<string>,
    skills: seq<string>,
    createdBy: string)

  datatype Role = Candidate | Recruiter | Admin

  /** `req.user` after authentication. */
  datatype Caller = Caller(userId: string, role: Role)

  /** Recruiters and administrators see every resume unredacted. */
  predicate Privileged(role: Role) {
    role == Recruiter || role == Admin
  }

  /** `{ error: { code, field?, message } }` with its HTTP status. */
  datatype ApiError = ApiError(status: int, code: string, field: Option<string>, message: string)

  /** The legacy routes' `{ error: message }` body with its HTTP status. */
  datatype LegacyError = LegacyError(status: int, message: string)

  /** The 400 response for a required field that is missing. */
  function FieldRequired(field: string, message: string): (e: ApiError)
    ensures e.status == 400 && e.code == "FIELD_REQUIRED" && e.field == Some(field)
  {
    ApiError(400, "FIELD_REQUIRED", Some(field), message)
  }
}

=== FILE: resume_parser.dfy ===
/** `extractResumeData` and `redactPII` of the server
    (server/src/utils/documentParser.ts): a line-based section scanner with
    fixed caps. The e-mail and telephone regular expressions are parameters
    that return their first match. */
module ResumeParser {
  import opened Wrappers
  import opened Text
  import opened Seqs
  import opened Records

  /** `content.split('\n').map(line => line.trim()).filter(line => line)`. */
  function NonBlankLines(content: string): (lines: seq<string>)
    ensures forall i :: 0 <= i < |lines| ==> lines[i] != "" && IsTrimmed(lines[i])
  {
    var trimmed := Map(Split(content, {'\n'}), Trim);
    assert forall i :: 0 <= i < |trimmed| ==> IsTrimmed(trimmed[i]);
    Filter(trimmed, NonEmpty)
  }

  /** A raw line is blank when trimming leaves nothing. */
  predicate Blank(line: string) {
    Trim(line) == ""
  }

  /** The index of the first raw line that is not blank, or the number of
      raw lines when they all are. */
  function FirstNonBlank(raw: seq<string>): (k: nat)
    ensures k <= |raw|
    ensures forall j :: 0 <= j < k ==> Blank(raw[j])
    ensures k < |raw| ==> !Blank(raw[k])
  {
    FirstWhere(raw, line => !Blank(line))
  }

  lemma AllBlank(raw: seq<string>)
    ensures FirstNonBlank(raw) == |raw| <==> forall j :: 0 <= j < |raw| ==> Blank(raw[j])
  {
    var k := FirstNonBlank(raw);
    if k < |raw| {
      assert !Blank(raw[k]);
    }
  }

  /** There are no lines exactly when every raw line is blank, and otherwise
      the first line is the first non-blank raw line, trimmed. */
  lemma FirstLine(raw: seq<string>)
    ensures var lines := Filter(Map(raw, Trim), NonEmpty);
      var k := FirstNonBlank(raw);
      (lines == [] <==> k == |raw|) && (lines != [] ==> lines[0] == Trim(raw[k]))
  {
    var trimmed := Map(raw, Trim);
    FilterHead(trimmed, NonEmpty);
    FirstWhereUnique(trimmed, NonEmpty, FirstNonBlank(raw));
  }

  // ---------------------------------------------------------------------------
  // Skills
  // ---------------------------------------------------------------------------

  /** `['skills', 'technical skills', 'technologies', 'expertise']`. */
  const SkillKeywords: seq<string> := ["skills", "technical skills", "technologies", "expertise"]

  /** A lower-cased line that opens the skills section. */
  predicate IsSkillsHeading(line: string) {
    exists k :: 0 <= k < |SkillKeywords| && Contains(line, SkillKeywords[k])
  }

  predicate IsLetterOrSpace(c: char) {
    'a' <= c <= 'z' || 'A' <= c <= 'Z' || c in Whitespace
  }

  /** `/^[a-z\s]+:/i`: one or more letters or spaces, then a colon. */
  predicate IsLabelLine(line: string) {
    |line| >= 2 && IsLetterOrSpace(line[0]) && LabelRest(line[1..])
  }

  predicate LabelRest(s: string) {
    |s| > 0 && (s[0] == ':' || (IsLetterOrSpace(s[0]) && LabelRest(s[1..])))
  }

  /** A label line always contains a colon. */
  lemma {:induction false} LabelRestHasColon(s: string)
    requires LabelRest(s)
    ensures Contains(s, ":")
  {
    if s[0] != ':' {
      LabelRestHasColon(s[1..]);
    }
  }

  lemma LabelLineHasColon(line: string)
    requires IsLabelLine(line)
    ensures Contains(line, ":")
  {
    LabelRestHasColon(line[1..]);
  }

  /** `line.split(/[,;|]/).map(s => s.trim()).filter(s => s)`. */
  function SkillTokens(line: string): (r: seq<string>)
    ensures forall i :: 0 <= i < |r| ==> r[i] != "" && IsTrimmed(r[i]) && NoneIn(r[i], {',', ';', '|'})
  {
    var pieces := Split(line, {',', ';', '|'});
    var trimmed := Map(pieces, Trim);
    assert forall i :: 0 <= i < |trimmed| ==> NoneIn(trimmed[i], {',', ';', '|'}) by {
      forall i | 0 <= i < |trimmed|
        ensures NoneIn(trimmed[i], {',', ';', '|'})
      {
        var a := TrimOccurs(pieces[i]);
        assert forall j :: 0 <= j < |trimmed[i]| ==> trimmed[i][j] == pieces[i][a + j];
      }
    }
    Filter(trimmed, NonEmpty)
  }

  /** How the skills loop treats a line. */
  datatype SkillLine = Heading | Label | Plain

  function ClassifySkillLine(line: string): SkillLine {
    var lower := Lower(line);
    if IsSkillsHeading(lower) then Heading
    else if IsLabelLine(lower) then Label
    else Plain
  }

  /** What the skills loop needs to know about one line. */
  datatype LineInfo = LineInfo(kind: SkillLine, tokens: seq<string>)

  function Info(line: string): LineInfo {
    LineInfo(ClassifySkillLine(line), SkillTokens(line))
  }

  /** The scanning loop as written: `open` is `inSkillsSection`; it stops as
      soon as more than 20 skills have been collected. */
  function ScanSkills(infos: seq<LineInfo>, open: bool, acc: seq<string>): seq<string>
    decreases |infos|
  {
    if |infos| == 0 then acc
    else
      match infos[0].kind
      case Heading => ScanSkills(infos[1..], true, acc)
      case Label => ScanSkills(infos[1..], false, acc)
      case Plain =>
        if !open then ScanSkills(infos[1..], false, acc)
        else
          var more := acc + infos[0].tokens;
          if |more| > 20 then more else ScanSkills(infos[1..], true, more)
  }

  /** Every skill token of the lines, without the early exit: a heading
      opens the section and contributes nothing, a label line closes it, and
      each other line inside the section contributes its tokens. */
  function SectionTokens(infos: seq<LineInfo>, open: bool): seq<string>
    decreases |infos|
  {
    if |infos| == 0 then []
    else
      match infos[0].kind
      case Heading => SectionTokens(infos[1..], true)
      case Label => SectionTokens(infos[1..], false)
      case Plain =>
        if open then infos[0].tokens + SectionTokens(infos[1..], true)
        else SectionTokens(infos[1..], false)
  }

  /** `r` is `full`, or a prefix of it holding more than 20 entries. */
  predicate CutAfter20(r: seq<string>, full: seq<string>) {
    r <= full && (|r| > 20 || r == full)
  }

  /** The early exit only ever cuts the list after its 21st entry. */
  lemma {:induction false} ScanIsPrefix(infos: seq<LineInfo>, open: bool, acc: seq<string>)
    ensures CutAfter20(ScanSkills(infos, open, acc), acc + SectionTokens(infos, open))
    decreases |infos|
  {
    if |infos| == 0 {
      assert acc + [] == acc;
    } else {
      var rest := infos[1..];
      match infos[0].kind
      case Heading =>
        ScanIsPrefix(rest, true, acc);
      case Label =>
        ScanIsPrefix(rest, false, acc);
      case Plain =>
        if !open {
          ScanIsPrefix(rest, false, acc);
        } else {
          var more := acc + infos[0].tokens;
          assert acc + SectionTokens(infos, open) == more + SectionTokens(rest, true);
          if |more| <= 20 {
            ScanIsPrefix(rest, true, more);
          } else {
            assert more <= more + SectionTokens(rest, true);
          }
        }
    }
  }

  /** The reported skills: the scanner's list cut to 20. */
  function Skills(lines: seq<string>): (r: seq<string>)
    ensures |r| <= 20
    ensures r == Prefix(SectionTokens(Map(lines, Info), false), 20)
  {
    var infos := Map(lines, Info);
    ScanIsPrefix(infos, false, []);
    assert [] + SectionTokens(infos, false) == SectionTokens(infos, false);
    Prefix(ScanSkills(infos, false, []), 20)
  }

  // ---------------------------------------------------------------------------
  // Experience and education
  // ---------------------------------------------------------------------------

  datatype Section = NoSection | Experience | Education

  datatype SectionState = SectionState(section: Section, experience: seq<string>, education: seq<string>)

  predicate IsExperienceHeading(lower: string) {
    Contains(lower, "experience") || Contains(lower, "work history")
  }

  predicate IsEducationHeading(lower: string) {
    Contains(lower, "education")
  }

  /** One iteration of the experience/education loop, as written, including
      its reset branch for label lines without a colon. */
  function SectionStep(st: SectionState, line: string): (r: SectionState)
    ensures st.experience <= r.experience && st.education <= r.education
    ensures |r.experience| + |r.education| <= |st.experience| + |st.education| + 1
    ensures HeadingOf(line) != NoSection ==> r == st.(section := HeadingOf(line))
  {
    var lower := Lower(line);
    if IsExperienceHeading(lower) then st.(section := Experience)
    else if IsEducationHeading(lower) then st.(section := Education)
    else
      var st' := if IsLabelLine(lower) && !Contains(lower, ":") then st.(section := NoSection) else st;
      if st'.section == Experience && |line| > 10 then
        var exp := st'.experience + [line];
        SectionState(if |exp| > 10 then NoSection else Experience, exp, st'.education)
      else if st'.section == Education && |line| > 10 then
        var edu := st'.education + [line];
        SectionState(if |edu| > 5 then NoSection else Education, st'.experience, edu)
      else st'
  }

  /** The reset branch never fires: a section ends only at another heading or
      once more than 10 experience (more than 5 education) entries are held. */
  lemma SectionEndsOnlyAtHeadingOrCap(st: SectionState, line: string)
    ensures var r := SectionStep(st, line);
      var lower := Lower(line);
      r.section != st.section ==>
        IsExperienceHeading(lower) || IsEducationHeading(lower) ||
        (r.section == NoSection && (|r.experience| > 10 || |r.education| > 5))
  {
    var lower := Lower(line);
    if IsLabelLine(lower) {
      LabelLineHasColon(lower);
    }
  }

  /** A line mentioning both kinds of heading opens the experience section. */
  lemma BothHeadingsMeanExperience(st: SectionState, line: string)
    requires Contains(Lower(line), "experience") && Contains(Lower(line), "education")
    ensures SectionStep(st, line) == st.(section := Experience)
  {
  }

  /** The scan only ever appends, at most one entry per line. */
  function ScanSections(st: SectionState, lines: seq<string>): (r: SectionState)
    ensures st.experience <= r.experience && st.education <= r.education
    ensures |r.experience| + |r.education| <= |st.experience| + |st.education| + |lines|
    decreases |lines|
  {
    if |lines| == 0 then st
    else ScanSections(SectionStep(st, lines[0]), lines[1..])
  }

  /** One step adds at most the current line, and only when it is longer
      than 10 characters. */
  lemma StepAppends(st: SectionState, line: string)
    ensures var next := SectionStep(st, line);
      && (next.experience == st.experience || (next.experience == st.experience + [line] && |line| > 10))
      && (next.education == st.education || (next.education == st.education + [line] && |line| > 10))
  {
  }

  /** Every entry a scan collects is one of the scanned lines, longer than 10
      characters. */
  lemma {:induction false} SectionEntries(st: SectionState, lines: seq<string>)
    ensures var r := ScanSections(st, lines);
      && (forall x :: x in r.experience ==> x in st.experience || (x in lines && |x| > 10))
      && (forall x :: x in r.education ==> x in st.education || (x in lines && |x| > 10))
    decreases |lines|
  {
    if |lines| > 0 {
      var next := SectionStep(st, lines[0]);
      StepAppends(st, lines[0]);
      SectionEntries(next, lines[1..]);
      assert forall x :: x in lines[1..] ==> x in lines;
    }
  }

  /** The section a heading line opens, or `NoSection` for a line that is
      not a heading; the experience test is made first. */
  function HeadingOf(line: string): Section {
    var lower := Lower(line);
    if IsExperienceHeading(lower) then Experience
    else if IsEducationHeading(lower) then Education
    else NoSection
  }

  /** The section opened by the latest heading among `lines[..i]`. */
  function SectionKind(lines: seq<string>, i: nat): Section
    requires i <= |lines|
  {
    if i == 0 then NoSection
    else if HeadingOf(lines[i - 1]) != NoSection then HeadingOf(lines[i - 1])
    else SectionKind(lines, i - 1)
  }

  /** Line `i` is an entry of section `kind` when there is no cap: it is not
      a heading, the latest heading before it opened `kind`, and it is longer
      than 10 characters. */
  predicate InSection(lines: seq<string>, i: nat, kind: Section)
    requires i < |lines|
  {
    HeadingOf(lines[i]) == NoSection && SectionKind(lines, i) == kind && |lines[i]| > 10
  }

  /** The entries of section `kind` among `lines[..n]`, in order, without caps. */
  function SectionLines(lines: seq<string>, kind: Section, n: nat): seq<string>
    requires n <= |lines|
  {
    if n == 0 then []
    else SectionLines(lines, kind, n - 1) + (if InSection(lines, n - 1, kind) then [lines[n - 1]] else [])
  }

  /** `got` is `want` while at most `cap` entries are held, and once the cap
      is passed the two agree on their first `cap + 1` entries. */
  predicate Tracks(got: seq<string>, want: seq<string>, cap: nat) {
    || (got == want && |got| <= cap)
    || (|got| > cap && |want| > cap && got[..cap + 1] == want[..cap + 1])
  }

  lemma {:induction false} TracksBoth(got: seq<string>, want: seq<string>, cap: nat, x: string)
    requires Tracks(got, want, cap)
    ensures Tracks(got + [x], want + [x], cap)
  {
    if |got| > cap {
      assert (got + [x])[..cap + 1] == got[..cap + 1];
      assert (want + [x])[..cap + 1] == want[..cap + 1];
    }
  }

  lemma {:induction false} TracksWantOnly(got: seq<string>, want: seq<string>, cap: nat, x: string)
    requires Tracks(got, want, cap) && |got| > cap
    ensures Tracks(got, want + [x], cap)
  {
    assert (want + [x])[..cap + 1] == want[..cap + 1];
  }

  lemma {:induction false} TracksPrefix(got: seq<string>, want: seq<string>, cap: nat)
    requires Tracks(got, want, cap)
    ensures Prefix(got, cap) == Prefix(want, cap)
  {
    if |got| > cap {
      assert got[..cap] == got[..cap + 1][..cap];
      assert want[..cap] == want[..cap + 1][..cap];
    }
  }

  /** What the scanner's state after `lines[..n]` has in common with the
      uncapped reference: the lists track it, and the current section is the
      latest heading's unless a cap closed it. */
  predicate ScanAgrees(st: SectionState, lines: seq<string>, n: nat)
    requires n <= |lines|
  {
    var kind := SectionKind(lines, n);
    && Tracks(st.experience, SectionLines(lines, Experience, n), 10)
    && Tracks(st.education, SectionLines(lines, Education, n), 5)
    && (st.section != NoSection ==> st.section == kind)
    && (kind == Experience && |st.experience| <= 10 ==> st.section == Experience)
    && (kind == Education && |st.education| <= 5 ==> st.section == Education)
  }

  lemma {:induction false} ScanAgreesStep(st: SectionState, lines: seq<string>, n: nat)
    requires n < |lines| && ScanAgrees(st, lines, n)
    ensures ScanAgrees(SectionStep(st, lines[n]), lines, n + 1)
  {
    var line := lines[n];
    var lower := Lower(line);
    var exp := SectionLines(lines, Experience, n);
    var edu := SectionLines(lines, Education, n);
    if IsLabelLine(lower) {
      LabelLineHasColon(lower);
    }
    if HeadingOf(line) == NoSection && |line| > 10 {
      if st.section == Experience {
        TracksBoth(st.experience, exp, 10, line);
      } else if st.section == Education {
        TracksBoth(st.education, edu, 5, line);
      } else if SectionKind(lines, n) == Experience {
        TracksWantOnly(st.experience, exp, 10, line);
      } else if SectionKind(lines, n) == Education {
        TracksWantOnly(st.education, edu, 5, line);
      }
    }
  }

  lemma {:induction false} ScanAgreesFrom(st: SectionState, lines: seq<string>, n: nat)
    requires n <= |lines| && ScanAgrees(st, lines, n)
    ensures ScanAgrees(ScanSections(st, lines[n..]), lines, |lines|)
    decreases |lines| - n
  {
    if n < |lines| {
      ScanAgreesStep(st, lines, n);
      assert lines[n..][1..] == lines[n + 1..];
      ScanAgreesFrom(SectionStep(st, lines[n]), lines, n + 1);
    }
  }

  /** With the caps applied at the end, the scan reports the first 10
      experience and the first 5 education entries of the uncapped
      reference. */
  lemma {:induction false} ScanMatchesReference(lines: seq<string>)
    ensures var r := ScanSections(SectionState(NoSection, [], []), lines);
      && Prefix(r.experience, 10) == Prefix(SectionLines(lines, Experience, |lines|), 10)
      && Prefix(r.education, 5) == Prefix(SectionLines(lines, Education, |lines|), 5)
  {
    var init := SectionState(NoSection, [], []);
    assert lines[0..] == lines;
    ScanAgreesFrom(init, lines, 0);
    var r := ScanSections(init, lines);
    TracksPrefix(r.experience, SectionLines(lines, Experience, |lines|), 10);
    TracksPrefix(r.education, SectionLines(lines, Education, |lines|), 5);
  }

  // ---------------------------------------------------------------------------
  // The whole record
  // ---------------------------------------------------------------------------

  /** `lines.slice(0, 3).join(' ').substring(0, 200)`. */
  function Summary(lines: seq<string>): (r: string)
    ensures |r| <= 200
    ensures r <= Join(Prefix(lines, 3), " ")
    ensures |r| == if |Join(Prefix(lines, 3), " ")| < 200 then |Join(Prefix(lines, 3), " ")| else 200
  {
    var joined := Join(Prefix(lines, 3), " ");
    joined[..if |joined| < 200 then |joined| else 200]
  }

  /** The experience and education entries, capped at 10 and 5. */
  function Entries(lines: seq<string>): (r: (seq<string>, seq<string>))
    ensures |r.0| <= 10 && |r.1| <= 5
    ensures forall x :: x in r.0 ==> x in lines && |x| > 10
    ensures forall x :: x in r.1 ==> x in lines && |x| > 10
    ensures r.0 == Prefix(SectionLines(lines, Experience, |lines|), 10)
    ensures r.1 == Prefix(SectionLines(lines, Education, |lines|), 5)
  {
    var sections := ScanSections(SectionState(NoSection, [], []), lines);
    SectionEntries(SectionState(NoSection, [], []), lines);
    ScanMatchesReference(lines);
    (Prefix(sections.experience, 10), Prefix(sections.education, 5))
  }

  /** `extractResumeData(content)`; `matchEmail` and `matchPhone` return the
      first match of the respective regular expression, if any. */
  function ExtractResumeData(content: string, matchEmail: string -> Option<string>,
                             matchPhone: string -> Option<string>): (r: ParsedData)
    ensures |r.skills| <= 20 && |r.experience| <= 10 && |r.education| <= 5
    ensures r.skills == Prefix(SectionTokens(Map(NonBlankLines(content), Info), false), 20)
    ensures r.email == matchEmail(content) && r.phone == matchPhone(content)
    ensures r.name.None? <==> NonBlankLines(content) == []
    ensures r.name.Some? ==> r.name.value == NonBlankLines(content)[0]
    ensures r.summary.Some? && |r.summary.value| <= 200
    ensures r.summary.value <= Join(Prefix(NonBlankLines(content), 3), " ")
    ensures var joined := Join(Prefix(NonBlankLines(content), 3), " ");
      |r.summary.value| == if |joined| < 200 then |joined| else 200
    ensures forall x :: x in r.experience ==> |x| > 10 && x in NonBlankLines(content)
    ensures forall x :: x in r.education ==> |x| > 10 && x in NonBlankLines(content)
    ensures r.experience == Prefix(SectionLines(NonBlankLines(content), Experience, |NonBlankLines(content)|), 10)
    ensures r.education == Prefix(SectionLines(NonBlankLines(content), Education, |NonBlankLines(content)|), 5)
  {
    var lines := NonBlankLines(content);
    var entries := Entries(lines);
    ParsedData(
      name := if |lines| > 0 then Some(lines[0]) else None,
      email := matchEmail(content),
      phone := matchPhone(content),
      skills := Skills(lines),
      experience := entries.0,
      education := entries.1,
      summary := Some(Summary(lines)))
  }

  /** `name` is absent exactly when every raw line is blank, and is otherwise
      the first non-blank raw line, trimmed. */
  predicate IsFirstNonBlankLine(name: Option<string>, raw: seq<string>) {
    && (name.None? <==> forall j :: 0 <= j < |raw| ==> Blank(raw[j]))
    && (name.Some? ==> name.value == Trim(raw[FirstNonBlank(raw)]) && name.value != "")
  }

  lemma NameIsFirstNonBlankLine(content: string, matchEmail: string -> Option<string>,
                                matchPhone: string -> Option<string>)
    ensures IsFirstNonBlankLine(ExtractResumeData(content, matchEmail, matchPhone).name, Split(content, {'\n'}))
  {
    var r := ExtractResumeData(content, matchEmail, matchPhone);
    var raw := Split(content, {'\n'});
    FirstLine(raw);
    AllBlank(raw);
  }

  /** `redactPII(parsedData)`: contact details removed, all else kept. */
  function Redact(p: ParsedData): (r: ParsedData)
    ensures r.email.None? && r.phone.None?
    ensures r.name == p.name && r.skills == p.skills && r.experience == p.experience
    ensures r.education == p.education && r.summary == p.summary
  {
    p.(email := None, phone := None)
  }

  lemma RedactIdempotent(p: ParsedData)
    ensures Redact(Redact(p)) == Redact(p)
  {
  }
}

=== FILE: resume_routes.dfy ===
/** The server's resume routes (server/src/routes/resumes.ts): who may see
    which resumes and whose contact details are redacted, the 404-before-403
    rule of the single-resume route, the list's pagination and candidate
    name, and the per-file semantics of an upload batch. The store is taken
    as a sequence already in upload-time order; text search, document parsing
    and saving are parameters. */
module ResumeRoutes {
  import opened Wrappers
  import opened Seqs
  import opened Text
  import opened Records
  import opened Pagination
  import ResumeParser
  import ZipHandler
  import ErrorHandler

  // ---------------------------------------------------------------------------
  // Visibility and redaction
  // ---------------------------------------------------------------------------

  /** The `userId` restriction the list query gets: none for recruiters and
      administrators, the caller's own id for everyone else. */
  function ListScope(caller: Caller): (scope: Option<string>)
    ensures scope.None? <==> Privileged(caller.role)
    ensures scope.Some? ==> scope.value == caller.userId
  {
    if Privileged(caller.role) then None else Some(caller.userId)
  }

  /** The `parsedData` a caller is shown: the stored one for recruiters,
      administrators and the owner, the redacted one otherwise. */
  function ShownParsed(caller: Caller, resume: Resume): (p: ParsedData)
    ensures Privileged(caller.role) || caller.userId == resume.userId ==> p == resume.parsed
    ensures !Privileged(caller.role) && caller.userId != resume.userId ==> p == ResumeParser.Redact(resume.parsed)
  {
    var shown := if Privileged(caller.role) then resume.parsed else ResumeParser.Redact(resume.parsed);
    if caller.userId == resume.userId then resume.parsed else shown
  }

  // ---------------------------------------------------------------------------
  // GET /api/resumes/:id
  // ---------------------------------------------------------------------------

  datatype ResumeView = ResumeView(id: string, parsed: ParsedData, content: string)

  const NotFound := ApiError(404, "NOT_FOUND", None, "Resume not found")

  const Forbidden := ApiError(403, "FORBIDDEN", None, "Access denied")

  /** The single-resume route given the lookup's outcome: 404 is decided
      before access, and 403 exactly when the caller is neither privileged
      nor the owner. */
  function GetResume(caller: Caller, found: Option<Resume>): (r: Result<ResumeView, ApiError>)
    ensures found.None? <==> r == Err(NotFound)
    ensures r == Err(Forbidden) <==>
      found.Some? && !Privileged(caller.role) && caller.userId != found.value.userId
    ensures r.Ok? ==> found.Some? && r.value.id == found.value.id && r.value.content == found.value.content
    ensures r.Ok? ==> r.value.parsed == ShownParsed(caller, found.value)
  {
    match found
    case None => Err(NotFound)
    case Some(resume) =>
      if !Privileged(caller.role) && caller.userId != resume.userId then Err(Forbidden)
      else Ok(ResumeView(resume.id, ShownParsed(caller, resume), resume.content))
  }

  /** The redaction branch is dead in this route: whoever passes the access
      check sees the stored `parsedData`. */
  lemma GetNeverRedacts(caller: Caller, found: Option<Resume>)
    requires GetResume(caller, found).Ok?
    ensures GetResume(caller, found).value.parsed == found.value.parsed
  {
  }

  // ---------------------------------------------------------------------------
  // GET /api/resumes
  // ---------------------------------------------------------------------------

  /** `user.profile` of the resume's owner, with the two name fields. */
  datatype Profile = Profile(firstName: Option<string>, lastName: Option<string>)

  datatype User = User(email: string, profile: Option<Profile>)

  /** `candidateName`: "first last" (trimmed) when the owner's profile has
      both names, else the parsed name, else "Unknown". */
  function CandidateName(user: Option<User>, parsed: ParsedData): (name: string)
    ensures user.Some? && user.value.profile.Some?
      && Truthy(user.value.profile.value.firstName) && Truthy(user.value.profile.value.lastName)
      ==> name == Trim(user.value.profile.value.firstName.value + " " + user.value.profile.value.lastName.value)
    ensures !(user.Some? && user.value.profile.Some?
              && Truthy(user.value.profile.value.firstName) && Truthy(user.value.profile.value.lastName))
      ==> name == if Truthy(parsed.name) then parsed.name.value else "Unknown"
  {
    var fallback := if Truthy(parsed.name) then parsed.name.value else "Unknown";
    match user
    case None => fallback
    case Some(u) =>
      if u.profile.Some? && Truthy(u.profile.value.firstName) && Truthy(u.profile.value.lastName) then
        Trim(u.profile.value.firstName.value + " " + u.profile.value.lastName.value)
      else fallback
  }

  /** Profile names made of spaces pass the truthiness test yet trim to the
      empty string, so a listed candidate can have an empty name. */
  lemma BlankProfileNameGivesEmptyName(parsed: ParsedData)
    ensures CandidateName(Some(User("", Some(Profile(Some(" "), Some(" "))))), parsed) == ""
  {
    TrimBlank(" " + " " + " ");
  }

  /** Without such a profile the name is never empty. */
  lemma FallbackNameNonEmpty(user: Option<User>, parsed: ParsedData)
    requires user.None? || user.value.profile.None?
    ensures CandidateName(user, parsed) != ""
  {
  }

  datatype ListItem = ListItem(
    id: string,
    userId: string,
    parsed: ParsedData,
    candidateName: string,
    candidateEmail: Option<string>)

  function Owner(users: map<string, User>, userId: string): Option<User> {
    if userId in users then Some(users[userId]) else None
  }

  function ItemFor(caller: Caller, users: map<string, User>, resume: Resume): (item: ListItem)
    ensures item.id == resume.id && item.userId == resume.userId
    ensures item.parsed == ShownParsed(caller, resume)
    ensures item.candidateName == CandidateName(Owner(users, resume.userId), resume.parsed)
    ensures item.candidateEmail == if resume.userId in users then Some(users[resume.userId].email) else resume.parsed.email
  {
    var user := Owner(users, resume.userId);
    ListItem(resume.id, resume.userId, ShownParsed(caller, resume),
             CandidateName(user, resume.parsed),
             if user.Some? then Some(user.value.email) else resume.parsed.email)
  }

  /** Whether a resume satisfies the list query: the scope and, when `q` is
      truthy, the case-insensitive search (an opaque regex match over the
      content, skills and name). */
  predicate Selected(caller: Caller, q: Option<string>, search: (string, Resume) -> bool, resume: Resume) {
    (ListScope(caller).None? || resume.userId == ListScope(caller).value)
    && (!Truthy(q) || search(q.value, resume))
  }

  function Matching(caller: Caller, q: Option<string>, search: (string, Resume) -> bool, store: seq<Resume>)
    : (r: seq<Resume>)
    ensures IsSubseq(r, store)
    ensures forall x :: x in r <==> x in store && Selected(caller, q, search, x)
    ensures forall x :: x in r ==> Privileged(caller.role) || x.userId == caller.userId
  {
    var p := x => Selected(caller, q, search, x);
    var r := Filter(store, p);
    assert forall x :: x in store && p(x) ==> x in r by {
      forall x | x in store && p(x)
        ensures x in r
      {
        FilterKeeps(store, p, x);
      }
    }
    r
  }

  datatype ListRequest = ListRequest(limit: Option<int>, offset: Option<int>, q: Option<string>)

  datatype ListResponse = ListResponse(items: seq<ListItem>, total: nat, nextOffset: Option<int>)

  const ListFailed := ApiError(500, "INTERNAL_ERROR", None, "Failed to retrieve resumes")

  /** The list route: `limit` defaults to 10 and `offset` to 0 when falsy;
      `total` counts every matching resume; the page is the store's window;
      `next_offset` is present exactly when matching resumes remain after the
      page. A negative offset, or a truthy `q` that the database refuses as a
      regular expression (`compiles` stands for its syntax check), makes the
      store query fail. */
  function ListResumes(req: ListRequest, caller: Caller, users: map<string, User>,
                       search: (string, Resume) -> bool, compiles: string -> bool, store: seq<Resume>)
    : (r: Result<ListResponse, ApiError>)
    ensures r.Err? <==> IntOr(req.offset, 0) < 0 || (Truthy(req.q) && !compiles(req.q.value))
    ensures r.Err? ==> r.error == ListFailed
    ensures r.Ok? ==> r.value.total == |Matching(caller, req.q, search, store)|
    ensures r.Ok? ==> r.value.nextOffset == NextOffset(IntOr(req.offset, 0), IntOr(req.limit, 10), r.value.total)
    ensures r.Ok? ==> |r.value.items| <= Abs(IntOr(req.limit, 10))
    ensures r.Ok? ==>
      && Window(Matching(caller, req.q, search, store), IntOr(req.offset, 0), IntOr(req.limit, 10)).Some?
      && |r.value.items| == |Window(Matching(caller, req.q, search, store), IntOr(req.offset, 0), IntOr(req.limit, 10)).value|
    ensures r.Ok? ==> forall i :: 0 <= i < |r.value.items| ==>
      && IntOr(req.offset, 0) + i < |Matching(caller, req.q, search, store)|
      && r.value.items[i] == ItemFor(caller, users, Matching(caller, req.q, search, store)[IntOr(req.offset, 0) + i])
  {
    var limit := IntOr(req.limit, 10);
    var offset := IntOr(req.offset, 0);
    var matching := Matching(caller, req.q, search, store);
    if Truthy(req.q) && !compiles(req.q.value) then Err(ListFailed)
    else match Window(matching, offset, limit)
      case None => Err(ListFailed)
      case Some(page) =>
        Ok(ListResponse(Map(page, x => ItemFor(caller, users, x)), |matching|, NextOffset(offset, limit, |matching|)))
  }

  /** The redaction branch is dead in the list as well: a caller who is
      neither privileged nor the owner never gets the resume listed, so every
      item carries the stored `parsedData`. */
  lemma ListNeverRedacts(req: ListRequest, caller: Caller, users: map<string, User>,
                         search: (string, Resume) -> bool, compiles: string -> bool, store: seq<Resume>)
    requires ListResumes(req, caller, users, search, compiles, store).Ok?
    ensures var r := ListResumes(req, caller, users, search, compiles, store).value;
      var matching := Matching(caller, req.q, search, store);
      forall i :: 0 <= i < |r.items| ==>
        && IntOr(req.offset, 0) + i < |matching|
        && r.items[i].parsed == matching[IntOr(req.offset, 0) + i].parsed
  {
    var r := ListResumes(req, caller, users, search, compiles, store).value;
    var matching := Matching(caller, req.q, search, store);
    forall i | 0 <= i < |r.items|
      ensures IntOr(req.offset, 0) + i < |matching|
      ensures r.items[i].parsed == matching[IntOr(req.offset, 0) + i].parsed
    {
      var x := matching[IntOr(req.offset, 0) + i];
      assert x in matching;
    }
  }

  // ---------------------------------------------------------------------------
  // POST /api/resumes
  // ---------------------------------------------------------------------------

  /** The uploaded part as multer hands it over. */
  datatype UploadedFile = UploadedFile(originalName: string, buffer: seq<bv8>, mimetype: string)

  const UploadTypes: seq<string> := [
    "application/pdf",
    "application/vnd.openxmlformats-officedocument.wordprocessingml.document",
    "application/msword",
    "text/plain",
    "application/zip",
    "application/x-zip-compressed"]

  predicate IsZip(mimetype: string) {
    mimetype == "application/zip" || mimetype == "application/x-zip-compressed"
  }

  /** A part whose MIME type the filter refuses is passed to the error
      middleware as a plain error: no status, so 500 with its message. */
  function RejectedType(): (e: ApiError)
    ensures e == ApiError(500, "INTERNAL_ERROR", None, "Invalid file type. Only PDF, DOCX, DOC, TXT, and ZIP allowed.")
  {
    ErrorHandler.Handle(ErrorHandler.ThrownError(None, None, None, [], None,
                                                 Some("Invalid file type. Only PDF, DOCX, DOC, TXT, and ZIP allowed."))).value
  }

  /** The summary pushed for a saved resume. */
  datatype Uploaded = Uploaded(id: string, filename: string)

  /** The resumes saved from a batch, in order; `process` stands for parsing,
      extraction, embedding and saving one file, with `None` for any
      exception, which is caught per file. */
  function Saved(files: seq<ZipHandler.ZipFile>, process: ZipHandler.ZipFile -> Option<Uploaded>): seq<Uploaded> {
    if |files| == 0 then []
    else
      var rest := Saved(files[..|files| - 1], process);
      var last := process(files[|files| - 1]);
      if last.Some? then rest + [last.value] else rest
  }

  /** The per-file loop: a failing file is skipped and the loop goes on. */
  method ProcessBatch(files: seq<ZipHandler.ZipFile>, process: ZipHandler.ZipFile -> Option<Uploaded>)
    returns (uploaded: seq<Uploaded>)
    ensures uploaded == Saved(files, process)
    ensures |uploaded| <= |files|
    ensures forall i :: 0 <= i < |files| && process(files[i]).Some? ==> process(files[i]).value in uploaded
    ensures forall u :: u in uploaded ==> exists i :: 0 <= i < |files| && process(files[i]) == Some(u)
  {
    uploaded := [];
    var i := 0;
    while i < |files|
      invariant 0 <= i <= |files|
      invariant uploaded == Saved(files[..i], process)
      invariant |uploaded| <= i
      invariant forall j :: 0 <= j < i && process(files[j]).Some? ==> process(files[j]).value in uploaded
      invariant forall u :: u in uploaded ==> exists j :: 0 <= j < i && process(files[j]) == Some(u)
    {
      assert files[..i + 1][..i] == files[..i];
      var outcome := process(files[i]);
      if outcome.Some? {
        uploaded := uploaded + [outcome.value];
      }
      i := i + 1;
    }
    assert files[..i] == files;
  }

  datatype UploadResponse = UploadResponse(message: string, resumes: seq<Uploaded>)

  const UploadFailed := ApiError(500, "INTERNAL_ERROR", None, "Failed to upload resume")

  /** The files a part yields: the kept entries of an archive (when it can be
      read), or the part itself. */
  function FilesOf(file: UploadedFile, unzip: seq<bv8> -> Option<seq<ZipHandler.ZipEntry>>)
    : (r: Option<seq<ZipHandler.ZipFile>>)
    ensures r.None? <==> IsZip(file.mimetype) && unzip(file.buffer).None?
    ensures !IsZip(file.mimetype) ==> r == Some([ZipHandler.ZipFile(file.originalName, file.buffer, file.mimetype)])
    ensures IsZip(file.mimetype) && unzip(file.buffer).Some? ==> r == Some(ZipHandler.Selected(unzip(file.buffer).value))
  {
    if IsZip(file.mimetype) then
      match unzip(file.buffer)
      case None => None
      case Some(entries) => Some(ZipHandler.Selected(entries))
    else Some([ZipHandler.ZipFile(file.originalName, file.buffer, file.mimetype)])
  }

  /** The upload route after authentication: a refused type and a missing
      part are answered first, an unreadable archive fails the request, and
      otherwise every file is tried and the count reported is the number
      saved. */
  method Upload(file: Option<UploadedFile>, unzip: seq<bv8> -> Option<seq<ZipHandler.ZipEntry>>,
                process: ZipHandler.ZipFile -> Option<Uploaded>) returns (r: Result<UploadResponse, ApiError>)
    ensures file.Some? && file.value.mimetype !in UploadTypes ==> r == Err(RejectedType())
    ensures file.None? ==> r == Err(FieldRequired("file", "File is required"))
    ensures file.Some? && file.value.mimetype in UploadTypes && FilesOf(file.value, unzip).None? ==> r == Err(UploadFailed)
    ensures r.Ok? <==> file.Some? && file.value.mimetype in UploadTypes && FilesOf(file.value, unzip).Some?
    ensures r.Ok? ==>
      && file.Some? && FilesOf(file.value, unzip).Some?
      && r.value.resumes == Saved(FilesOf(file.value, unzip).value, process)
      && r.value.message == "Successfully uploaded " + Decimal(|r.value.resumes|) + " resume(s)"
  {
    if file.Some? && file.value.mimetype !in UploadTypes {
      return Err(RejectedType());
    }
    if file.None? {
      return Err(FieldRequired("file", "File is required"));
    }
    var files := FilesOf(file.value, unzip);
    if files.None? {
      return Err(UploadFailed);
    }
    var uploaded := ProcessBatch(files.value, process);
    r := Ok(UploadResponse("Successfully uploaded " + Decimal(|uploaded|) + " resume(s)", uploaded));
  }
}

=== FILE: seqs.dfy ===
/** Sequence operations that the JavaScript code uses through `Array.prototype`:
    `filter`, `map`, `slice(0, n)` and a stable `sort` with a comparator. */
module Seqs {

  /** `a` can be obtained from `b` by deleting elements (order is kept). */
  predicate IsSubseq<T(==)>(a: seq<T>, b: seq<T>)
    decreases |b|
  {
    |a| == 0 || (|b| > 0 && ((a[0] == b[0] && IsSubseq(a[1..], b[1..])) || IsSubseq(a, b[1..])))
  }

  lemma SubseqElements<T>(a: seq<T>, b: seq<T>)
    requires IsSubseq(a, b)
    ensures forall x :: x in a ==> x in b
    decreases |b|
  {
    if |a| > 0 {
      if a[0] == b[0] && IsSubseq(a[1..], b[1..]) {
        SubseqElements(a[1..], b[1..]);
        assert a == [a[0]] + a[1..];
      } else {
        SubseqElements(a, b[1..]);
      }
    }
  }

  lemma SubseqRefl<T>(a: seq<T>)
    ensures IsSubseq(a, a)
  {
    if |a| > 0 {
      SubseqRefl(a[1..]);
    }
  }

  lemma SubseqPrepend<T>(a: seq<T>, b: seq<T>, x: T)
    requires IsSubseq(a, b)
    ensures IsSubseq(a, [x] + b)
    ensures IsSubseq([x] + a, [x] + b)
  {
    assert ([x] + b)[1..] == b;
    assert ([x] + a)[1..] == a;
  }

  /** JavaScript `xs.filter(p)`. */
  function Filter<T(==,!new)>(xs: seq<T>, p: T -> bool): (r: seq<T>)
    ensures |r| <= |xs|
    ensures forall x :: x in r ==> x in xs && p(x)
    ensures forall i :: 0 <= i < |r| ==> r[i] in xs && p(r[i])
    ensures IsSubseq(r, xs)
  {
    if |xs| == 0 then []
    else
      var rest := Filter(xs[1..], p);
      assert xs == [xs[0]] + xs[1..];
      SubseqPrepend(rest, xs[1..], xs[0]);
      if p(xs[0]) then [xs[0]] + rest else rest
  }

  /** Each element occurs in the filter as often as in the input when it
      satisfies `p`, and not at all otherwise. */
  lemma {:induction false} FilterMultiset<T(!new)>(xs: seq<T>, p: T -> bool)
    ensures forall x :: multiset(Filter(xs, p))[x] == if p(x) then multiset(xs)[x] else 0
  {
    if |xs| > 0 {
      FilterMultiset(xs[1..], p);
      assert xs == [xs[0]] + xs[1..];
    }
  }

  /** Filtering with a predicate every element meets changes nothing. */
  lemma {:induction false} FilterAll<T(!new)>(xs: seq<T>, p: T -> bool)
    requires forall i :: 0 <= i < |xs| ==> p(xs[i])
    ensures Filter(xs, p) == xs
  {
    if |xs| > 0 {
      FilterAll(xs[1..], p);
      assert xs == [xs[0]] + xs[1..];
    }
  }

  /** Every element satisfying `p` survives the filter. */
  lemma FilterKeeps<T(!new)>(xs: seq<T>, p: T -> bool, x: T)
    requires x in xs && p(x)
    ensures x in Filter(xs, p)
  {
    FilterMultiset(xs, p);
    assert multiset(xs)[x] > 0;
  }

  /** The index of the first element satisfying `p`, or `|xs|` if none does. */
  function FirstWhere<T>(xs: seq<T>, p: T -> bool): (k: nat)
    ensures k <= |xs|
    ensures forall j :: 0 <= j < k ==> !p(xs[j])
    ensures k < |xs| ==> p(xs[k])
  {
    if |xs| == 0 || p(xs[0]) then 0 else 1 + FirstWhere(xs[1..], p)
  }

  /** The first qualifying index is the one before which nothing qualifies
      and at which something does. */
  lemma {:induction false} FirstWhereUnique<T>(xs: seq<T>, p: T -> bool, k: nat)
    requires k <= |xs|
    requires forall j :: 0 <= j < k ==> !p(xs[j])
    requires k < |xs| ==> p(xs[k])
    ensures FirstWhere(xs, p) == k
  {
    if k > 0 {
      FirstWhereUnique(xs[1..], p, k - 1);
    }
  }

  /** A filter is empty exactly when nothing qualifies, and otherwise starts
      with the first element that does. */
  lemma {:induction false} FilterHead<T(!new)>(xs: seq<T>, p: T -> bool)
    ensures Filter(xs, p) == [] <==> FirstWhere(xs, p) == |xs|
    ensures Filter(xs, p) != [] ==> Filter(xs, p)[0] == xs[FirstWhere(xs, p)]
  {
    if |xs| > 0 {
      FilterHead(xs[1..], p);
    }
  }

  /** Filtering counts the last element exactly when it qualifies. */
  lemma FilterLast<T(!new)>(xs: seq<T>, p: T -> bool)
    requires |xs| > 0
    ensures |Filter(xs, p)| == |Filter(xs[..|xs| - 1], p)| + if p(xs[|xs| - 1]) then 1 else 0
  {
    var n := |xs| - 1;
    assert xs == xs[..n] + [xs[n]];
    FilterAppend(xs[..n], [xs[n]], p);
    FilterOne(xs[n], p);
  }

  /** Filtering a concatenation filters each part. */
  lemma FilterAppend<T(!new)>(a: seq<T>, b: seq<T>, p: T -> bool)
    ensures Filter(a + b, p) == Filter(a, p) + Filter(b, p)
  {
    if |a| > 0 {
      assert (a + b)[1..] == a[1..] + b;
      FilterAppend(a[1..], b, p);
    } else {
      assert a + b == b;
    }
  }

  /** One step of a loop that filters and maps: the next element contributes
      its image exactly when it passes the filter. */
  lemma FilterMapStep<A(!new), B>(xs: seq<A>, i: nat, p: A -> bool, f: A -> B)
    requires i < |xs|
    ensures Map(Filter(xs[..i + 1], p), f) == Map(Filter(xs[..i], p), f) + (if p(xs[i]) then [f(xs[i])] else [])
  {
    assert xs[..i + 1] == xs[..i] + [xs[i]];
    FilterAppend(xs[..i], [xs[i]], p);
    FilterOne(xs[i], p);
    MapAppend(Filter(xs[..i], p), Filter([xs[i]], p), f);
  }

  /** Filtering then mapping, one element at a time from the front. */
  lemma {:induction false} FilterMapCons<A(!new), B>(xs: seq<A>, p: A -> bool, f: A -> B)
    requires |xs| > 0
    ensures Map(Filter(xs, p), f) == (if p(xs[0]) then [f(xs[0])] else []) + Map(Filter(xs[1..], p), f)
  {
    var rest := Filter(xs[1..], p);
    FilterFront(xs, p);
    if p(xs[0]) {
      MapFront(xs[0], rest, f);
    } else {
      assert [] + Map(rest, f) == Map(rest, f);
    }
  }

  lemma {:induction false} FilterFront<A(!new)>(xs: seq<A>, p: A -> bool)
    requires |xs| > 0
    ensures Filter(xs, p) == (if p(xs[0]) then [xs[0]] else []) + Filter(xs[1..], p)
  {
    if !p(xs[0]) {
      assert [] + Filter(xs[1..], p) == Filter(xs[1..], p);
    }
  }

  lemma {:induction false} MapFront<A, B>(x: A, rest: seq<A>, f: A -> B)
    ensures Map([x] + rest, f) == [f(x)] + Map(rest, f)
  {
    var m := Map([x] + rest, f);
    assert forall i :: 0 <= i < |m| ==> m[i] == ([f(x)] + Map(rest, f))[i] by {
      forall i | 0 <= i < |m|
        ensures m[i] == ([f(x)] + Map(rest, f))[i]
      {
        if i > 0 {
          assert ([x] + rest)[i] == rest[i - 1];
        }
      }
    }
  }

  lemma FilterOne<T(!new)>(x: T, p: T -> bool)
    ensures Filter([x], p) == if p(x) then [x] else []
  {
    assert [x][1..] == [];
  }

  /** The pair (`xs.filter(p)`, `xs.filter(x => !p(x))`), as built by a
      `forEach` that pushes every element onto exactly one of two lists. */
  function Partition<T(==,!new)>(xs: seq<T>, p: T -> bool): (r: (seq<T>, seq<T>))
    ensures multiset(r.0) + multiset(r.1) == multiset(xs)
    ensures |r.0| + |r.1| == |xs|
    ensures IsSubseq(r.0, xs) && IsSubseq(r.1, xs)
    ensures forall x :: x in r.0 ==> p(x)
    ensures forall x :: x in r.1 ==> !p(x)
  {
    var yes := Filter(xs, p);
    var no := Filter(xs, x => !p(x));
    FilterMultiset(xs, p);
    FilterMultiset(xs, x => !p(x));
    assert multiset(yes) + multiset(no) == multiset(xs);
    assert |multiset(yes)| + |multiset(no)| == |multiset(xs)|;
    (yes, no)
  }

  /** Each element of the input lands on exactly one side, the side its
      predicate value selects. */
  lemma PartitionExactlyOne<T(!new)>(xs: seq<T>, p: T -> bool, x: T)
    requires x in xs
    ensures x in Partition(xs, p).0 <==> p(x)
    ensures x in Partition(xs, p).1 <==> !p(x)
  {
    var r := Partition(xs, p);
    assert x in multiset(xs);
    assert x in multiset(r.0) + multiset(r.1);
  }

  /** JavaScript `xs.map(f)`. */
  function Map<A, B>(xs: seq<A>, f: A -> B): (r: seq<B>)
    ensures |r| == |xs|
    ensures forall i :: 0 <= i < |xs| ==> r[i] == f(xs[i])
  {
    seq(|xs|, i requires 0 <= i < |xs| => f(xs[i]))
  }

  lemma MapAppend<A, B>(a: seq<A>, b: seq<A>, f: A -> B)
    ensures Map(a + b, f) == Map(a, f) + Map(b, f)
  {
  }

  /** Mapping commutes with rearrangement: inputs with the same elements give
      outputs with the same elements. */
  lemma {:induction false} MapMultiset<A, B>(a: seq<A>, b: seq<A>, f: A -> B)
    requires multiset(a) == multiset(b)
    ensures multiset(Map(a, f)) == multiset(Map(b, f))
    decreases |a|
  {
    if |a| == 0 {
      assert |multiset(b)| == 0;
    } else {
      var i := IndexOf(b, a[0]);
      var b' := b[..i] + b[i + 1..];
      TailMultiset(a);
      RemoveAt(b, i);
      assert multiset(a[1..]) == multiset(b');
      MapMultiset(a[1..], b', f);
      MapCons(a, f);
      MapRemoveAt(b, i, f);
    }
  }

  lemma MapCons<A, B>(a: seq<A>, f: A -> B)
    requires |a| > 0
    ensures multiset(Map(a, f)) == multiset(Map(a[1..], f)) + multiset{f(a[0])}
  {
    assert Map(a, f) == [f(a[0])] + Map(a[1..], f);
  }

  /** A position of an element of the multiset of `b`. */
  lemma IndexOf<A>(b: seq<A>, x: A) returns (i: nat)
    requires x in multiset(b)
    ensures i < |b| && b[i] == x
  {
    i :| 0 <= i < |b| && b[i] == x;
  }

  lemma RemoveAt<A>(b: seq<A>, i: nat)
    requires i < |b|
    ensures multiset(b[..i] + b[i + 1..]) == multiset(b) - multiset{b[i]}
  {
    assert b == b[..i] + [b[i]] + b[i + 1..];
  }

  lemma MapRemoveAt<A, B>(b: seq<A>, i: nat, f: A -> B)
    requires i < |b|
    ensures multiset(Map(b, f)) == multiset(Map(b[..i] + b[i + 1..], f)) + multiset{f(b[i])}
  {
    assert b == b[..i] + [b[i]] + b[i + 1..];
    MapAppend(b[..i] + [b[i]], b[i + 1..], f);
    MapAppend(b[..i], [b[i]], f);
    MapAppend(b[..i], b[i + 1..], f);
  }

  /** The length JavaScript's `xs.slice(0, end)` keeps: a negative `end` counts
      from the back, and the result is clamped to `[0, len]`. */
  function SliceEnd(len: nat, end: int): (k: nat)
    ensures k <= len
    ensures 0 <= end <= len ==> k == end
    ensures end > len ==> k == len
    ensures end < 0 ==> k == if len + end < 0 then 0 else len + end
  {
    if end < 0 then (if len + end < 0 then 0 else len + end)
    else if end > len then len
    else end
  }

  /** JavaScript `xs.slice(0, end)`. */
  function Prefix<T>(xs: seq<T>, end: int): (r: seq<T>)
    ensures r == xs[..SliceEnd(|xs|, end)]
  {
    xs[..SliceEnd(|xs|, end)]
  }

  lemma PrefixBound<T>(xs: seq<T>, n: nat)
    ensures |Prefix(xs, n)| <= n
    ensures |Prefix(xs, n)| <= |xs|
  {
  }

  /** An element of a prefix of a rearrangement of `others` is an element of
      `others`. */
  lemma PrefixOfPermutation<T>(all: seq<T>, others: seq<T>, n: int, x: T)
    requires multiset(all) == multiset(others) && x in Prefix(all, n)
    ensures x in others
  {
    var i :| 0 <= i < |Prefix(all, n)| && Prefix(all, n)[i] == x;
    assert all[i] == x;
    assert x in multiset(all);
  }

  // ---------------------------------------------------------------------------
  // Sorting with a comparator, as `Array.prototype.sort`, which is stable.
  // ---------------------------------------------------------------------------

  /** `le(a, b)`: `a` may be placed before `b` (the comparator returns <= 0). */
  ghost predicate TotalPreorder<T(!new)>(le: (T, T) -> bool) {
    && (forall a, b :: le(a, b) || le(b, a))
    && (forall a, b, c :: le(a, b) && le(b, c) ==> le(a, c))
  }

  predicate SortedBy<T>(xs: seq<T>, le: (T, T) -> bool) {
    forall i, j :: 0 <= i < j < |xs| ==> le(xs[i], xs[j])
  }

  /** Inserts `x` before the first element it may precede; since `x` comes
      from earlier in the input than every element of `s`, this keeps equal
      elements in input order. */
  function Insert<T(!new)>(x: T, s: seq<T>, le: (T, T) -> bool): (r: seq<T>)
    requires TotalPreorder(le)
    requires SortedBy(s, le)
    ensures SortedBy(r, le)
    ensures multiset(r) == multiset(s) + multiset{x}
    ensures |r| == |s| + 1
  {
    if |s| == 0 then [x]
    else if le(x, s[0]) then [x] + s
    else
      var rest := Insert(x, s[1..], le);
      assert s == [s[0]] + s[1..];
      HeadBelowRest(x, s, rest, le);
      [s[0]] + rest
  }

  /** The head of a sorted list precedes everything in its tail, and an `x`
      it cannot follow. */
  lemma HeadBelowRest<T(!new)>(x: T, s: seq<T>, rest: seq<T>, le: (T, T) -> bool)
    requires TotalPreorder(le)
    requires SortedBy(s, le) && |s| > 0 && !le(x, s[0])
    requires multiset(rest) == multiset(s[1..]) + multiset{x}
    ensures forall j :: 0 <= j < |rest| ==> le(s[0], rest[j])
  {
    forall j | 0 <= j < |rest|
      ensures le(s[0], rest[j])
    {
      assert rest[j] in multiset(rest);
      if rest[j] != x {
        assert rest[j] in multiset(s[1..]);
        var k :| 0 <= k < |s[1..]| && s[1..][k] == rest[j];
        assert s[k + 1] == rest[j];
      }
    }
  }

  /** A stable insertion sort. */
  function SortBy<T(!new)>(xs: seq<T>, le: (T, T) -> bool): (r: seq<T>)
    requires TotalPreorder(le)
    ensures SortedBy(r, le)
    ensures multiset(r) == multiset(xs)
    ensures |r| == |xs|
  {
    if |xs| == 0 then []
    else
      assert xs == [xs[0]] + xs[1..];
      Insert(xs[0], SortBy(xs[1..], le), le)
  }

  /** When the comparator reports every pair as equal (JavaScript comparators
      returning NaN do), the stable sort leaves the input untouched. */
  lemma {:induction false} SortAllEqual<T(!new)>(xs: seq<T>, le: (T, T) -> bool)
    requires TotalPreorder(le)
    requires forall i, j :: 0 <= i < |xs| && 0 <= j < |xs| ==> le(xs[i], xs[j])
    ensures SortBy(xs, le) == xs
  {
    if |xs| > 0 {
      SortAllEqual(xs[1..], le);
      assert SortBy(xs[1..], le) == xs[1..];
      if |xs| > 1 {
        assert le(xs[0], xs[1]);
      }
    }
  }

  /** The elements the comparator ties with `z` (both orders allowed). */
  function TiedWith<T>(le: (T, T) -> bool, z: T): T -> bool {
    y => le(z, y) && le(y, z)
  }

  /** Stability: within every class of tied elements, the sorted list keeps
      the input order, so ties are broken by position in the input. */
  lemma {:induction false} SortByStable<T(!new)>(xs: seq<T>, le: (T, T) -> bool, z: T)
    requires TotalPreorder(le)
    ensures Filter(SortBy(xs, le), TiedWith(le, z)) == Filter(xs, TiedWith(le, z))
  {
    if |xs| > 0 {
      var p := TiedWith(le, z);
      var sorted := SortBy(xs[1..], le);
      SortByStable(xs[1..], le, z);
      InsertStable(xs[0], sorted, le, z);
      FilterFront([xs[0]] + sorted, p);
      assert ([xs[0]] + sorted)[1..] == sorted;
      FilterFront(xs, p);
    }
  }

  /** Inserting `x` puts it after no element tied with it. */
  lemma {:induction false} InsertStable<T(!new)>(x: T, s: seq<T>, le: (T, T) -> bool, z: T)
    requires TotalPreorder(le)
    requires SortedBy(s, le)
    ensures Filter(Insert(x, s, le), TiedWith(le, z)) == Filter([x] + s, TiedWith(le, z))
  {
    var p := TiedWith(le, z);
    if |s| > 0 && !le(x, s[0]) {
      var rest := Insert(x, s[1..], le);
      assert SortedBy(s[1..], le);
      InsertStable(x, s[1..], le, z);
      assert Insert(x, s, le) == [s[0]] + rest;
      FilterFront([s[0]] + rest, p);
      assert ([s[0]] + rest)[1..] == rest;
      FilterFront([x] + s[1..], p);
      assert ([x] + s[1..])[1..] == s[1..];
      FilterFront([x] + s, p);
      assert ([x] + s)[1..] == s;
      FilterFront(s, p);
      assert !(p(x) && p(s[0]));
    }
  }

  /** A prefix of a sorted list is sorted, and each of its elements may
      precede every element left out. */
  lemma PrefixOfSorted<T>(xs: seq<T>, n: int, le: (T, T) -> bool)
    requires SortedBy(xs, le)
    ensures SortedBy(Prefix(xs, n), le)
    ensures forall i, j :: 0 <= i < |Prefix(xs, n)| <= j < |xs| ==> le(Prefix(xs, n)[i], xs[j])
  {
    var p := Prefix(xs, n);
    assert forall i :: 0 <= i < |p| ==> p[i] == xs[i];
  }

  /** Two sorted arrangements of the same elements coincide when the comparator
      never ties two different elements: the ranking is then reproducible. */
  lemma {:induction false} SortedUnique<T(!new)>(a: seq<T>, b: seq<T>, le: (T, T) -> bool)
    requires TotalPreorder(le)
    requires SortedBy(a, le) && SortedBy(b, le)
    requires multiset(a) == multiset(b)
    requires forall x, y :: x in a && y in a && le(x, y) && le(y, x) ==> x == y
    ensures a == b
  {
    if |a| > 0 {
      SameHead(a, b, le);
      SameTails(a, b);
      NoTiesInTail(a, le);
      SortedTail(a, le);
      SortedTail(b, le);
      SortedUnique(a[1..], b[1..], le);
      HeadTail(a, b);
    } else {
      assert |multiset(b)| == 0;
    }
  }

  lemma SameTails<T>(a: seq<T>, b: seq<T>)
    requires |a| > 0 && |b| > 0 && a[0] == b[0] && multiset(a) == multiset(b)
    ensures multiset(a[1..]) == multiset(b[1..])
  {
    TailMultiset(a);
    TailMultiset(b);
  }

  lemma HeadTail<T>(a: seq<T>, b: seq<T>)
    requires |a| > 0 && |b| > 0 && a[0] == b[0] && a[1..] == b[1..]
    ensures a == b
  {
    assert a == [a[0]] + a[1..];
    assert b == [b[0]] + b[1..];
  }

  lemma SortedTail<T>(a: seq<T>, le: (T, T) -> bool)
    requires |a| > 0 && SortedBy(a, le)
    ensures SortedBy(a[1..], le)
  {
  }

  lemma NoTiesInTail<T(!new)>(a: seq<T>, le: (T, T) -> bool)
    requires |a| > 0
    requires forall x, y :: x in a && y in a && le(x, y) && le(y, x) ==> x == y
    ensures forall x, y :: x in a[1..] && y in a[1..] && le(x, y) && le(y, x) ==> x == y
  {
    forall x, y | x in a[1..] && y in a[1..] && le(x, y) && le(y, x)
      ensures x == y
    {
      assert x in a && y in a;
    }
  }

  lemma TailMultiset<T>(a: seq<T>)
    requires |a| > 0
    ensures multiset(a[1..]) == multiset(a) - multiset{a[0]}
  {
    assert a == [a[0]] + a[1..];
  }

  /** Without ties between different elements, sorted arrangements of the
      same elements start alike. */
  lemma SameHead<T(!new)>(a: seq<T>, b: seq<T>, le: (T, T) -> bool)
    requires TotalPreorder(le)
    requires SortedBy(a, le) && SortedBy(b, le)
    requires multiset(a) == multiset(b) && |a| > 0
    requires forall x, y :: x in a && y in a && le(x, y) && le(y, x) ==> x == y
    ensures |b| > 0 && a[0] == b[0]
  {
    assert a[0] in multiset(b);
    assert b[0] in multiset(a);
    var i := IndexOf(a, b[0]);
    var j := IndexOf(b, a[0]);
    HeadFirst(a, i, le);
    HeadFirst(b, j, le);
    assert b[0] in a;
  }

  /** The head of a sorted list may precede each of its elements, itself
      included. */
  lemma HeadFirst<T(!new)>(a: seq<T>, i: nat, le: (T, T) -> bool)
    requires TotalPreorder(le) && SortedBy(a, le) && i < |a|
    ensures le(a[0], a[i])
  {
    var x := a[0];
    assert le(x, x) || le(x, x);
  }
}

=== FILE: similarity.dfy ===
/** The two vector similarities (`cosineSimilarity` in the server utilities,
    `calculateSimilarity` in the legacy parser) and the word-set Jaccard index
    `calculateTextSimilarity`. Square roots are supplied by the caller as a
    function satisfying `IsSqrt`, since the model has no floating point. */
module Similarity {
  import opened Wrappers
  import opened Text

  /** Real multiplication, kept behind a name so that the solver treats the
      products of the model as terms rather than as polynomials. */
  function Times(x: real, y: real): real {
    x * y
  }

  /** `sqrt` returns the non-negative square root of every non-negative real. */
  ghost predicate IsSqrt(sqrt: real -> real) {
    forall x: real {:trigger sqrt(x)} :: x >= 0.0 ==> sqrt(x) >= 0.0 && Times(sqrt(x), sqrt(x)) == x
  }

  /** The dot product of the first `|a|` entries, summed front to back as the
      source's loop does. */
  function Dot(a: seq<real>, b: seq<real>): real
    requires |a| <= |b|
  {
    if |a| == 0 then 0.0
    else Dot(a[..|a| - 1], b) + Times(a[|a| - 1], b[|a| - 1])
  }

  function SumSquares(a: seq<real>): real {
    Dot(a, a)
  }

  predicate AllZero(a: seq<real>) {
    forall i :: 0 <= i < |a| ==> a[i] == 0.0
  }

  /** A sum of squares vanishes exactly on the zero vector. */
  lemma {:induction false} SumSquaresZero(a: seq<real>)
    ensures SumSquares(a) >= 0.0
    ensures SumSquares(a) == 0.0 <==> AllZero(a)
  {
    if |a| > 0 {
      var p := a[..|a| - 1];
      var x := a[|a| - 1];
      DotPrefix(p, a);
      SumSquaresZero(p);
      SquareSign(x);
      assert SumSquares(a) == SumSquares(p) + Times(x, x);
      if AllZero(a) {
        assert x == 0.0;
        assert AllZero(p);
      } else if x != 0.0 {
        assert SumSquares(a) > 0.0;
      } else {
        var i :| 0 <= i < |a| && a[i] != 0.0;
        assert i < |p| && p[i] == a[i];
        assert SumSquares(a) > 0.0;
      }
    }
  }

  lemma SquareSign(x: real)
    ensures Times(x, x) >= 0.0
    ensures x == 0.0 ==> Times(x, x) == 0.0
    ensures x != 0.0 ==> Times(x, x) > 0.0
  {
    if x != 0.0 {
      SameSignProduct(x, x);
    }
  }

  /** Stated for two variables: the solver handles `x * y` more reliably
      than `x * x`. */
  lemma SameSignProduct(x: real, y: real)
    requires (x > 0.0 && y > 0.0) || (x < 0.0 && y < 0.0)
    ensures Times(x, y) > 0.0
  {
  }

  /** Only the first `|a|` entries of the second argument matter. */
  lemma {:induction false} DotPrefix(a: seq<real>, b: seq<real>)
    requires |a| <= |b|
    ensures Dot(a, b) == Dot(a, b[..|a|])
  {
    if |a| > 0 {
      DotPrefix(a[..|a| - 1], b);
      DotPrefix(a[..|a| - 1], b[..|a|]);
      assert b[..|a|][..|a| - 1] == b[..|a| - 1];
    }
  }

  lemma {:induction false} DotSymmetric(a: seq<real>, b: seq<real>)
    requires |a| == |b|
    ensures Dot(a, b) == Dot(b, a)
  {
    if |a| > 0 {
      var n := |a| - 1;
      DotPrefix(a[..n], b);
      DotPrefix(b[..n], a);
      DotSymmetric(a[..n], b[..n]);
    }
  }

  /** The value both similarity functions compute once their guards pass. */
  function Cosine(a: seq<real>, b: seq<real>, sqrt: real -> real): (r: real)
    requires IsSqrt(sqrt)
    ensures |a| != |b| ==> r == 0.0
    ensures |a| == |b| && (AllZero(a) || AllZero(b)) ==> r == 0.0
  {
    if |a| != |b| then 0.0
    else
      var na := SumSquares(a);
      var nb := SumSquares(b);
      SumSquaresZero(a);
      SumSquaresZero(b);
      if na == 0.0 || nb == 0.0 then 0.0
      else
        assert Times(sqrt(na), sqrt(na)) == na && Times(sqrt(nb), sqrt(nb)) == nb;
        assert sqrt(na) != 0.0 && sqrt(nb) != 0.0;
        Dot(a, b) / Times(sqrt(na), sqrt(nb))
  }

  /** `cosineSimilarity(vecA, vecB)`: one pass accumulating the dot product
      and both squared norms, then the two guards. */
  method CosineSimilarity(a: seq<real>, b: seq<real>, sqrt: real -> real) returns (r: real)
    requires IsSqrt(sqrt)
    ensures r == Cosine(a, b, sqrt)
  {
    if |a| != |b| {
      return 0.0;
    }
    var dot, na, nb := 0.0, 0.0, 0.0;
    var i := 0;
    while i < |a|
      invariant 0 <= i <= |a|
      invariant dot == Dot(a[..i], b)
      invariant na == Dot(a[..i], a)
      invariant nb == Dot(b[..i], b)
    {
      assert a[..i + 1][..i] == a[..i];
      assert b[..i + 1][..i] == b[..i];
      dot := dot + Times(a[i], b[i]);
      na := na + Times(a[i], a[i]);
      nb := nb + Times(b[i], b[i]);
      i := i + 1;
    }
    assert a[..i] == a && b[..i] == b;
    if na == 0.0 || nb == 0.0 {
      return 0.0;
    }
    SumSquaresZero(a);
    SumSquaresZero(b);
    r := dot / Times(sqrt(na), sqrt(nb));
  }

  /** Cosine similarity does not depend on argument order. */
  lemma CosineSymmetric(a: seq<real>, b: seq<real>, sqrt: real -> real)
    requires IsSqrt(sqrt)
    ensures Cosine(a, b, sqrt) == Cosine(b, a, sqrt)
  {
    if |a| == |b| {
      DotSymmetric(a, b);
      assert Times(sqrt(SumSquares(a)), sqrt(SumSquares(b))) == Times(sqrt(SumSquares(b)), sqrt(SumSquares(a)));
    }
  }

  /** A non-zero vector is perfectly similar to itself. */
  lemma CosineSelf(a: seq<real>, sqrt: real -> real)
    requires IsSqrt(sqrt)
    requires !AllZero(a)
    ensures Cosine(a, a, sqrt) == 1.0
  {
    SumSquaresZero(a);
    var n := SumSquares(a);
    assert n > 0.0;
    assert Times(sqrt(n), sqrt(n)) == n;
    assert n / n == 1.0;
  }

  /** `calculateSimilarity(embedding1, embedding2)`: as `Cosine`, but a missing
      vector also yields 0. */
  function CalculateSimilarity(e1: Option<seq<real>>, e2: Option<seq<real>>, sqrt: real -> real): (r: real)
    requires IsSqrt(sqrt)
    ensures e1.None? || e2.None? ==> r == 0.0
    ensures e1.Some? && e2.Some? ==> r == Cosine(e1.value, e2.value, sqrt)
  {
    if e1.None? || e2.None? || |e1.value| != |e2.value| then 0.0
    else Cosine(e1.value, e2.value, sqrt)
  }

  /** A stored integer vector, as the arithmetic sees it. */
  function AsReals(v: seq<int>): (r: seq<real>)
    ensures |r| == |v|
    ensures forall i :: 0 <= i < |v| ==> r[i] == v[i] as real
  {
    seq(|v|, i requires 0 <= i < |v| => v[i] as real)
  }

  // ---------------------------------------------------------------------------
  // calculateTextSimilarity
  // ---------------------------------------------------------------------------

  /** `new Set(text.toLowerCase().split(/\s+/))`; leading or trailing
      whitespace contributes the empty word. */
  function Tokens(text: string): (r: set<string>)
    ensures r != {}
  {
    var pieces := SplitRuns(Lower(text), Whitespace);
    var r := set w | w in pieces;
    assert pieces[0] in r;
    r
  }

  /** The Jaccard index `|w1 ∩ w2| / |w1 ∪ w2|` of two sets, the first of
      them non-empty so that the union is. */
  function Jaccard<T>(w1: set<T>, w2: set<T>): (r: real)
    requires w1 != {}
    ensures 0.0 <= r <= 1.0
    ensures r == 1.0 <==> w1 == w2
  {
    var inter := w1 * w2;
    var union := w1 + w2;
    SubsetCard(inter, union);
    var x :| x in w1;
    assert x in union;
    if w1 == w2 then
      assert inter == union;
      RatioOne(|inter|, |union|);
      (|inter| as real) / (|union| as real)
    else
      assert |inter| < |union| by {
        if |inter| == |union| {
          SubsetCardEqual(inter, union);
        }
      }
      RatioBelowOne(|inter|, |union|);
      (|inter| as real) / (|union| as real)
  }

  lemma RatioOne(i: nat, u: nat)
    requires 0 < u && i == u
    ensures (i as real) / (u as real) == 1.0
  {
  }

  /** Dividing by the same positive count keeps the order of the numerators. */
  lemma RatioMonotone(a: nat, b: nat, u: nat)
    requires 0 < u
    ensures (a as real) / (u as real) <= (b as real) / (u as real) <==> a <= b
  {
    var qa := (a as real) / (u as real);
    var qb := (b as real) / (u as real);
    assert qb - qa == ((b - a) as real) / (u as real);
  }

  lemma RatioBelowOne(i: nat, u: nat)
    requires i < u
    ensures 0.0 <= (i as real) / (u as real) < 1.0
  {
    var q := (i as real) / (u as real);
    assert q * (u as real) == i as real;
  }

  /** `calculateTextSimilarity(text1, text2)`: the Jaccard index of the two
      word sets. The union is never empty, because even the empty text
      yields the word `""`. */
  function TextSimilarity(text1: string, text2: string): (r: real)
    ensures 0.0 <= r <= 1.0
    ensures r == 1.0 <==> Tokens(text1) == Tokens(text2)
  {
    Jaccard(Tokens(text1), Tokens(text2))
  }

  lemma SubsetCard<T>(a: set<T>, b: set<T>)
    requires a <= b
    ensures |a| <= |b|
  {
    assert b == a + (b - a);
  }

  lemma SubsetCardEqual<T>(a: set<T>, b: set<T>)
    requires a <= b && |a| == |b|
    ensures a == b
  {
    assert b == a + (b - a);
    assert |b - a| == 0;
  }

  lemma TextSimilaritySymmetric(text1: string, text2: string)
    ensures TextSimilarity(text1, text2) == TextSimilarity(text2, text1)
  {
    var w1, w2 := Tokens(text1), Tokens(text2);
    assert w1 * w2 == w2 * w1;
    assert w1 + w2 == w2 + w1;
  }

  /** Case never matters. */
  lemma TextSimilarityIgnoresCase(text1: string, text2: string)
    ensures TextSimilarity(Lower(text1), text2) == TextSimilarity(text1, text2)
  {
    LowerIdempotent(text1);
  }

  /** Two empty texts are identical word sets (`{""}`), so their similarity is
      1, not 0. */
  lemma EmptyTextsAreSimilar()
    ensures TextSimilarity("", "") == 1.0
  {
  }
}

=== FILE: text.dfy ===
/** The JavaScript string primitives the code relies on, restricted to ASCII:
    `toLowerCase`, `trim`, `includes`, `join` and the `split` flavours used
    (one separator character, a run of separators, and the sentence splitter
    `/[.!?]\s+/`). */
module Text {
  import opened Seqs

  /** The characters JavaScript's `\s` matches within ASCII. */
  const Whitespace: set<char> := {' ', '\t', '\n', '\r', '\U{000B}', '\U{000C}'}

  /** The sentence terminators `[.!?]`. */
  const SentenceEnd: set<char> := {'.', '!', '?'}

  /** No character of `s` belongs to `cs`. */
  predicate NoneIn(s: string, cs: set<char>) {
    forall j :: 0 <= j < |s| ==> s[j] !in cs
  }

  predicate NonEmpty(s: string) {
    s != ""
  }

  // ---------------------------------------------------------------------------
  // toLowerCase
  // ---------------------------------------------------------------------------

  function LowerChar(c: char): char {
    if 'A' <= c <= 'Z' then (c as int + 32) as char else c
  }

  /** `s.toLowerCase()` on ASCII letters; every other character is kept. */
  function Lower(s: string): (r: string)
    ensures |r| == |s|
    ensures forall i :: 0 <= i < |s| ==> r[i] == LowerChar(s[i])
  {
    seq(|s|, i requires 0 <= i < |s| => LowerChar(s[i]))
  }

  lemma LowerIdempotent(s: string)
    ensures Lower(Lower(s)) == Lower(s)
  {
  }

  lemma LowerAppend(a: string, b: string)
    ensures Lower(a + b) == Lower(a) + Lower(b)
  {
  }

  // ---------------------------------------------------------------------------
  // includes
  // ---------------------------------------------------------------------------

  predicate StartsWith(s: string, p: string) {
    |p| <= |s| && s[..|p|] == p
  }

  /** `s.includes(t)`. */
  predicate Contains(s: string, t: string)
    decreases |s|
  {
    StartsWith(s, t) || (|s| > 0 && Contains(s[1..], t))
  }

  lemma ContainsEmpty(s: string)
    ensures Contains(s, "")
  {
  }

  /** `t` occurs in `s` at index `i`. */
  predicate OccursAt(s: string, t: string, i: int) {
    0 <= i <= |s| - |t| && s[i..i + |t|] == t
  }

  /** `t` occurs in `s` exactly when some slice of `s` equals `t`. */
  lemma {:induction false} ContainsIff(s: string, t: string)
    ensures Contains(s, t) <==> exists i :: OccursAt(s, t, i)
    decreases |s|
  {
    if |s| > 0 {
      ContainsIff(s[1..], t);
      if Contains(s, t) {
        if StartsWith(s, t) {
          assert OccursAt(s, t, 0);
        } else {
          var i :| OccursAt(s[1..], t, i);
          assert s[1..][i..i + |t|] == s[i + 1..i + 1 + |t|];
          assert OccursAt(s, t, i + 1);
        }
      }
      if exists i :: OccursAt(s, t, i) {
        var i :| OccursAt(s, t, i);
        if i > 0 {
          assert s[1..][i - 1..i - 1 + |t|] == s[i..i + |t|];
          assert OccursAt(s[1..], t, i - 1);
        } else {
          assert StartsWith(s, t);
        }
      }
    } else {
      if exists i :: OccursAt(s, t, i) {
        var i :| OccursAt(s, t, i);
        assert |t| == 0;
        assert StartsWith(s, t);
      }
      if Contains(s, t) {
        assert OccursAt(s, t, 0);
      }
    }
  }

  /** Containment is transitive. */
  lemma ContainsTrans(a: string, b: string, c: string)
    requires Contains(a, b) && Contains(b, c)
    ensures Contains(a, c)
  {
    ContainsIff(a, b);
    ContainsIff(b, c);
    var i :| OccursAt(a, b, i);
    var j :| OccursAt(b, c, j);
    forall k | 0 <= k < |c|
      ensures a[i + j + k] == c[k]
    {
      assert b[j + k] == c[k];
      assert a[i..i + |b|][j + k] == a[i + j + k];
    }
    assert a[i + j..i + j + |c|] == c;
    assert OccursAt(a, c, i + j);
    ContainsIff(a, c);
  }

  lemma ContainsSelf(s: string)
    ensures Contains(s, s)
  {
  }

  // ---------------------------------------------------------------------------
  // trim
  // ---------------------------------------------------------------------------

  function TrimStart(s: string): (r: string)
    ensures |r| <= |s| && r == s[|s| - |r|..]
    ensures r == "" || r[0] !in Whitespace
    ensures forall i :: 0 <= i < |s| - |r| ==> s[i] in Whitespace
  {
    if |s| > 0 && s[0] in Whitespace then TrimStart(s[1..]) else s
  }

  function TrimEnd(s: string): (r: string)
    ensures |r| <= |s| && r == s[..|r|]
    ensures r == "" || r[|r| - 1] !in Whitespace
    ensures forall i :: |r| <= i < |s| ==> s[i] in Whitespace
  {
    if |s| > 0 && s[|s| - 1] in Whitespace then TrimEnd(s[..|s| - 1]) else s
  }

  /** `s.trim()`: both ends lose their whitespace, nothing else changes. */
  function Trim(s: string): (r: string)
    ensures |r| <= |s|
    ensures IsTrimmed(r)
    ensures IsTrimmed(s) ==> r == s
  {
    var t := TrimStart(s);
    if t == "" then ""
    else
      assert t[0] !in Whitespace;
      TrimEnd(t)
  }

  /** A trimmed string has no boundary whitespace. */
  predicate IsTrimmed(s: string) {
    s == "" || (s[0] !in Whitespace && s[|s| - 1] !in Whitespace)
  }

  /** Trimming leaves nothing exactly when the string is all whitespace. */
  lemma TrimBlank(s: string)
    ensures Trim(s) == "" <==> forall i :: 0 <= i < |s| ==> s[i] in Whitespace
  {
  }

  /** The trimmed string is the slice of the original that starts at `a`. */
  lemma TrimOccurs(s: string) returns (a: nat)
    ensures OccursAt(s, Trim(s), a)
  {
    var t := TrimStart(s);
    a := |s| - |t|;
    if t == "" {
      assert Trim(s) == "";
    } else {
      var r := TrimEnd(t);
      assert Trim(s) == r;
      assert s[a..][..|r|] == s[a..a + |r|];
    }
  }

  /** Leading whitespace never survives `trim`. */
  lemma TrimLeadingSpace(x: string)
    requires IsTrimmed(x)
    ensures Trim(" " + x) == x
  {
    assert (" " + x)[1..] == x;
    assert TrimStart(" " + x) == TrimStart(x);
    if x != "" {
      assert TrimStart(x) == x;
      assert TrimEnd(x) == x;
    }
  }

  // ---------------------------------------------------------------------------
  // join
  // ---------------------------------------------------------------------------

  /** `xs.join(sep)`. */
  function Join(xs: seq<string>, sep: string): string {
    if |xs| == 0 then ""
    else if |xs| == 1 then xs[0]
    else xs[0] + sep + Join(xs[1..], sep)
  }

  // ---------------------------------------------------------------------------
  // split
  // ---------------------------------------------------------------------------

  /** `s.split(c)` or `s.split(/[abc]/)`: every separator character ends a
      piece, so adjacent separators give empty pieces, and `"".split(c)` is
      `[""]`. */
  function Split(s: string, seps: set<char>): (r: seq<string>)
    ensures |r| >= 1
    ensures forall i :: 0 <= i < |r| ==> NoneIn(r[i], seps)
    decreases |s|
  {
    if |s| == 0 then [""]
    else
      var rest := Split(s[1..], seps);
      if s[0] in seps then [""] + rest
      else [[s[0]] + rest[0]] + rest[1..]
  }

  /** A piece without separators does not get split. */
  lemma {:induction false} SplitNoSeparator(w: string, t: string, seps: set<char>)
    requires NoneIn(w, seps)
    ensures Split(w + t, seps) == [w + Split(t, seps)[0]] + Split(t, seps)[1..]
    decreases |w|
  {
    if |w| > 0 {
      assert (w + t)[1..] == w[1..] + t;
      SplitNoSeparator(w[1..], t, seps);
      assert [w[0]] + (w[1..] + Split(t, seps)[0]) == w + Split(t, seps)[0];
    } else {
      assert w + t == t;
      assert Split(t, seps) == [Split(t, seps)[0]] + Split(t, seps)[1..];
      assert w + Split(t, seps)[0] == Split(t, seps)[0];
    }
  }

  /** Splitting a joined list on its separator gives the list back, provided
      no element contains the separator. */
  lemma {:induction false} SplitJoin(xs: seq<string>, c: char)
    requires |xs| >= 1
    requires forall i :: 0 <= i < |xs| ==> NoneIn(xs[i], {c})
    ensures Split(Join(xs, [c]), {c}) == xs
  {
    if |xs| == 1 {
      SplitNoSeparator(xs[0], "", {c});
      assert xs[0] + "" == xs[0];
    } else {
      SplitJoin(xs[1..], c);
      var tail := [c] + Join(xs[1..], [c]);
      assert Join(xs, [c]) == xs[0] + tail;
      SplitNoSeparator(xs[0], tail, {c});
      assert tail[1..] == Join(xs[1..], [c]);
      assert Split(tail, {c}) == [""] + xs[1..];
      assert xs[0] + "" == xs[0];
      assert xs == [xs[0]] + xs[1..];
    }
  }

  /** Splitting never introduces a character: pieces of a text free of `bad`
      are free of it too. */
  lemma {:induction false} SplitKeepsAbsent(s: string, seps: set<char>, bad: set<char>)
    requires NoneIn(s, bad)
    ensures forall i :: 0 <= i < |Split(s, seps)| ==> NoneIn(Split(s, seps)[i], bad)
    decreases |s|
  {
    if |s| > 0 {
      SplitKeepsAbsent(s[1..], seps, bad);
      var rest := Split(s[1..], seps);
      assert NoneIn([s[0]] + rest[0], bad);
    }
  }

  /** The last piece of a split is whatever follows the last separator. */
  lemma {:induction false} SplitLastPiece(a: string, c: char, t: string, seps: set<char>)
    requires c in seps
    requires NoneIn(t, seps)
    ensures var r := Split(a + [c] + t, seps);
      |r| >= 2 && r[|r| - 1] == t
    decreases |a|
  {
    var s := a + [c] + t;
    if |a| == 0 {
      assert s == [c] + t && s[1..] == t;
      SplitNoSeparator(t, "", seps);
      assert t + "" == t;
    } else {
      assert s[1..] == a[1..] + [c] + t;
      SplitLastPiece(a[1..], c, t, seps);
    }
  }

  /** The whitespace-separated words of `s`: its maximal runs of
      non-whitespace characters, in order. */
  function WordsOf(s: string): seq<string> {
    Filter(Split(s, Whitespace), NonEmpty)
  }

  /** The words of `s` split into the first piece and the words of the rest. */
  lemma {:induction false} WordsOfPieces(s: string)
    ensures WordsOf(s) == (if Split(s, Whitespace)[0] != "" then [Split(s, Whitespace)[0]] else [])
                          + Filter(Split(s, Whitespace)[1..], NonEmpty)
  {
  }

  /** A leading whitespace character adds no word. */
  lemma {:induction false} WordsOfSpace(c: char, s: string)
    requires c in Whitespace
    ensures WordsOf([c] + s) == WordsOf(s)
  {
    assert ([c] + s)[1..] == s;
  }

  /** Leading whitespace adds no word. */
  lemma {:induction false} WordsOfSkip(s: string, k: nat)
    requires k <= |s|
    requires forall i :: 0 <= i < k ==> s[i] in Whitespace
    ensures WordsOf(s[k..]) == WordsOf(s)
  {
    if k > 0 {
      assert s == [s[0]] + s[1..];
      WordsOfSpace(s[0], s[1..]);
      assert s[1..][k - 1..] == s[k..];
      WordsOfSkip(s[1..], k - 1);
    }
  }

  /** A trailing separator adds one empty piece. */
  lemma {:induction false} SplitSnocSeparator(a: string, c: char, seps: set<char>)
    requires c in seps
    ensures Split(a + [c], seps) == Split(a, seps) + [""]
    decreases |a|
  {
    if |a| == 0 {
      assert a + [c] == [c];
      assert [c][1..] == "";
    } else {
      assert (a + [c])[1..] == a[1..] + [c];
      SplitSnocSeparator(a[1..], c, seps);
    }
  }

  /** Trailing whitespace adds no word. */
  lemma {:induction false} WordsOfCut(s: string, k: nat)
    requires k <= |s|
    requires forall i :: k <= i < |s| ==> s[i] in Whitespace
    ensures WordsOf(s[..k]) == WordsOf(s)
    decreases |s| - k
  {
    if k < |s| {
      var init := s[..|s| - 1];
      assert s == init + [s[|s| - 1]];
      SplitSnocSeparator(init, s[|s| - 1], Whitespace);
      FilterAppend(Split(init, Whitespace), [""], NonEmpty);
      assert Filter([""], NonEmpty) == [];
      assert WordsOf(s) == WordsOf(init) + [];
      assert init[..k] == s[..k];
      WordsOfCut(init, k);
    } else {
      assert s[..k] == s;
    }
  }

  /** Trimming keeps the words. */
  lemma {:induction false} TrimKeepsWords(s: string)
    ensures WordsOf(Trim(s)) == WordsOf(s)
  {
    var t := TrimStart(s);
    WordsOfSkip(s, |s| - |t|);
    if t != "" {
      WordsOfCut(t, |TrimEnd(t)|);
    }
  }

  /** Splitting depends only on which characters are separators. */
  lemma {:induction false} SplitSameSeparators(s: string, a: set<char>, b: set<char>)
    requires forall i :: 0 <= i < |s| ==> (s[i] in a <==> s[i] in b)
    ensures Split(s, a) == Split(s, b)
    decreases |s|
  {
    if |s| > 0 {
      SplitSameSeparators(s[1..], a, b);
    }
  }

  /** A text without a space at either end and without two adjacent spaces
      splits on spaces into non-empty pieces. */
  lemma {:induction false} SpacedPiecesNonEmpty(s: string)
    requires s != "" && s[0] != ' ' && s[|s| - 1] != ' '
    requires forall i :: 0 <= i < |s| - 1 ==> !(s[i] == ' ' && s[i + 1] == ' ')
    ensures forall i :: 0 <= i < |Split(s, {' '})| ==> Split(s, {' '})[i] != ""
    decreases |s|
  {
    var rest := Split(s[1..], {' '});
    if |s| >= 2 {
      if s[1] == ' ' {
        assert s[1..][1..] == s[2..];
        assert rest == [""] + Split(s[2..], {' '});
        SpacedPiecesNonEmpty(s[2..]);
      } else {
        SpacedPiecesNonEmpty(s[1..]);
      }
    }
  }

  /** The longest suffix of `s` that does not start with a character of `seps`. */
  function DropWhileIn(s: string, seps: set<char>): (r: string)
    ensures |r| <= |s| && r == s[|s| - |r|..]
    ensures r == "" || r[0] !in seps
    ensures forall i :: 0 <= i < |s| - |r| ==> s[i] in seps
    ensures |s| > 0 && s[0] in seps ==> |r| < |s|
  {
    if |s| > 0 && s[0] in seps then DropWhileIn(s[1..], seps) else s
  }

  /** `s.split(/[abc]+/)`: a whole run of separator characters ends a piece. */
  function SplitRuns(s: string, seps: set<char>): (r: seq<string>)
    ensures |r| >= 1
    ensures forall i :: 0 <= i < |r| ==> NoneIn(r[i], seps)
    decreases |s|
  {
    if |s| == 0 then [""]
    else if s[0] in seps then [""] + SplitRuns(DropWhileIn(s, seps), seps)
    else
      var rest := SplitRuns(s[1..], seps);
      [[s[0]] + rest[0]] + rest[1..]
  }

  /** `s.split(/[.!?]\s+/)`: a sentence ends at a terminator followed by at
      least one whitespace character; the whole whitespace run is consumed. */
  function SplitSentences(s: string): (r: seq<string>)
    ensures |r| >= 1
    decreases |s|
  {
    if |s| == 0 then [""]
    else if |s| >= 2 && s[0] in SentenceEnd && s[1] in Whitespace then
      [""] + SplitSentences(DropWhileIn(s[1..], Whitespace))
    else
      var rest := SplitSentences(s[1..]);
      [[s[0]] + rest[0]] + rest[1..]
  }

  // ---------------------------------------------------------------------------
  // number to string
  // ---------------------------------------------------------------------------

  /** `${n}` for a natural number: its decimal digits. */
  function Decimal(n: nat): (r: string)
    ensures |r| >= 1
    ensures forall i :: 0 <= i < |r| ==> '0' <= r[i] <= '9'
  {
    if n < 10 then [('0' as int + n) as char]
    else Decimal(n / 10) + [('0' as int + n % 10) as char]
  }
}

=== FILE: wrappers.dfy ===
/** Optional values and results shared by every module of the model. */
module Wrappers {

  /** A value that may be absent: JavaScript's `undefined` for one field. */
  datatype Option<+T> = None | Some(value: T) {

    /** The wrapped value, or `default` when absent (JavaScript's `x || d` on a
        value that is never falsy when present). */
    function GetOr(default: T): T {
      match this
      case Some(v) => v
      case None => default
    }
  }

  /** An HTTP-level outcome: the success payload, or an error response. */
  datatype Result<+T, +E> = Ok(value: T) | Err(error: E)

  /** A JSON string field read from a request body: JavaScript treats an absent
      field and the empty string alike as falsy. */
  predicate Truthy(s: Option<string>) {
    s.Some? && s.value != ""
  }

  /** A JSON number read from a request body, where absent and `0` are falsy. */
  predicate TruthyInt(n: Option<int>) {
    n.Some? && n.value != 0
  }

  /** JavaScript's `n || d` for an optional number. */
  function IntOr(n: Option<int>, d: int): int
  {
    if TruthyInt(n) then n.value else d
  }
}

=== FILE: zip_handler.dfy ===
/** Selection of the resume files inside an uploaded archive
    (server/src/utils/zipHandler.ts): directories are skipped, the extension
    is whatever follows the last dot, and only four extensions are kept, each
    with its fixed MIME type. Decompression itself is not modelled: an entry
    carries its bytes. */
module ZipHandler {
  import opened Wrappers
  import opened Seqs
  import opened Text

  datatype ZipEntry = ZipEntry(name: string, dir: bool, data: seq<bv8>)

  datatype ZipFile = ZipFile(name: string, content: seq<bv8>, mimetype: string)

  /** `filename.split('.').pop().toLowerCase()`: the text after the last dot,
      or the whole name when it has no dot. */
  function Extension(filename: string): (ext: string)
    ensures NoneIn(ext, {'.'})
  {
    var pieces := Split(filename, {'.'});
    Lower(pieces[|pieces| - 1])
  }

  const ResumeExtensions: seq<string> := ["pdf", "docx", "doc", "txt"]

  const OctetStream: string := "application/octet-stream"

  /** `getMimeType(extension)`. */
  function MimeType(ext: string): (m: string)
    ensures ext == "pdf" ==> m == "application/pdf"
    ensures ext == "docx" ==> m == "application/vnd.openxmlformats-officedocument.wordprocessingml.document"
    ensures ext == "doc" ==> m == "application/msword"
    ensures ext == "txt" ==> m == "text/plain"
    ensures m == OctetStream <==> ext !in ResumeExtensions
  {
    if ext == "pdf" then "application/pdf"
    else if ext == "docx" then "application/vnd.openxmlformats-officedocument.wordprocessingml.document"
    else if ext == "doc" then "application/msword"
    else if ext == "txt" then "text/plain"
    else OctetStream
  }

  /** An entry survives when it is a file whose extension is non-empty and
      one of the four resume extensions. */
  predicate Kept(e: ZipEntry) {
    !e.dir && Extension(e.name) != "" && Extension(e.name) in ResumeExtensions
  }

  function ToFile(e: ZipEntry): ZipFile {
    ZipFile(e.name, e.data, MimeType(Extension(e.name)))
  }

  /** The files selected from a list of entries, defined from the back so
      that it follows the extraction loop. */
  function Selected(entries: seq<ZipEntry>): seq<ZipFile> {
    if |entries| == 0 then []
    else
      var e := entries[|entries| - 1];
      Selected(entries[..|entries| - 1]) + if Kept(e) then [ToFile(e)] else []
  }

  /** `extractZipFiles(buffer)`, after the archive has been read into its
      entries. */
  method ExtractZipFiles(entries: seq<ZipEntry>) returns (files: seq<ZipFile>)
    ensures files == Selected(entries)
    ensures files == Map(Filter(entries, Kept), ToFile)
    ensures forall i :: 0 <= i < |files| ==> files[i].mimetype != OctetStream
  {
    files := [];
    var i := 0;
    while i < |entries|
      invariant 0 <= i <= |entries|
      invariant files == Selected(entries[..i])
    {
      var e := entries[i];
      assert entries[..i + 1][..i] == entries[..i];
      if !e.dir {
        var ext := Extension(e.name);
        if ext != "" && ext in ResumeExtensions {
          files := files + [ZipFile(e.name, e.data, MimeType(ext))];
        }
      }
      i := i + 1;
    }
    assert entries[..i] == entries;
    SelectedIsFilterMap(entries);
  }

  /** The loop's selection is the kept entries, in order, each turned into a
      file. */
  lemma {:induction false} SelectedIsFilterMap(entries: seq<ZipEntry>)
    ensures Selected(entries) == Map(Filter(entries, Kept), ToFile)
    ensures forall i :: 0 <= i < |Selected(entries)| ==> Selected(entries)[i].mimetype != OctetStream
  {
    if |entries| > 0 {
      var n := |entries| - 1;
      SelectedIsFilterMap(entries[..n]);
      FilterMapStep(entries, n, Kept, ToFile);
      assert entries[..n + 1] == entries;
    }
  }

  /** A kept file keeps its entry's name, no directory is ever returned, and
      the files appear in entry order. */
  lemma KeptFilesComeFromFileEntries(entries: seq<ZipEntry>)
    ensures var kept := Filter(entries, Kept);
      && IsSubseq(kept, entries)
      && (forall i :: 0 <= i < |kept| ==> !kept[i].dir && Map(kept, ToFile)[i].name == kept[i].name)
      && (forall e :: e in entries && Kept(e) ==> ToFile(e) in Map(kept, ToFile))
  {
    var kept := Filter(entries, Kept);
    forall e | e in entries && Kept(e)
      ensures ToFile(e) in Map(kept, ToFile)
    {
      FilterKeeps(entries, Kept, e);
      var i :| 0 <= i < |kept| && kept[i] == e;
      assert Map(kept, ToFile)[i] == ToFile(e);
    }
  }

  /** A name without a dot is its own extension: "TXT" is kept as a text
      file. */
  lemma DotlessNameIsItsOwnExtension()
    ensures Kept(ZipEntry("TXT", false, []))
  {
    NoDotSplit("TXT");
    assert Lower("TXT") == "txt";
  }

  /** A name ending in a dot has the empty extension and is never kept, even
      when its stem is a resume extension. */
  lemma TrailingDotNotKept(stem: string, dir: bool, data: seq<bv8>)
    requires NoneIn(stem, {'.'})
    ensures !Kept(ZipEntry(stem + ".", dir, data))
  {
    SplitNoSeparator(stem, ".", {'.'});
    assert Split(".", {'.'}) == ["", ""];
  }

  /** `Object.entries` lists array-index keys (all digits) first, but such a
      name has no dot, so its extension is the digits themselves and it is
      never kept: the reordering cannot affect the result. */
  lemma IndexKeysNeverKept(name: string, dir: bool, data: seq<bv8>)
    requires |name| > 0 && forall i :: 0 <= i < |name| ==> '0' <= name[i] <= '9'
    ensures !Kept(ZipEntry(name, dir, data))
  {
    NoDotSplit(name);
    assert Extension(name) == Lower(name);
    assert Lower(name)[0] == name[0];
  }

  lemma NoDotSplit(name: string)
    requires NoneIn(name, {'.'})
    ensures Split(name, {'.'}) == [name]
  {
    SplitNoSeparator(name, "", {'.'});
    assert name + "" == name;
  }
}
